=== FILE: README.md ===
# OverSound front end and controller, modelled in Dafny

OverSound is a music shop and streaming site. A FastAPI controller serves pages
and forwards JSON requests to the catalogue, user and payment services. Browser
scripts run the pages. This project models the logic those pieces carry and
proves properties of it:

- **Player.** The mini player's queue: play a track, move to the previous or next
  entry, and drop the forward history. Also the revocation of the previous
  object URL, seeking, the volume slider and mute button, the `M:SS` / `H:MM:SS`
  time display and the cover URL resolution. The previous/next queue functions
  are private to the player script and nothing calls them: the ⏮/⏭ buttons and
  `radioPlayer.next`/`prev` seek by ten seconds instead. On the page the index
  therefore always sits on the last entry, and the history slice never drops
  anything (`Player.PlayTrackAtEndNeverTruncates`). The navigation members model
  those functions as written.
- **Shop.** Pagination: page count, the visible cards and the page-button bar
  with its ellipses. Also the dropdown summary text and the local cart merge.
- **Cart page.** Quantity controls clamped to 1..99, the delete modal, the
  payment probe that enables or disables checkout, and the checkout click.
- **Album and artist pages.** The album id read from the URL, adding an album to
  the cart once, the favourite toggle, the follow/unfollow request, the duration
  label and the label panel.
- **Upload and edit forms** for songs and albums. Their checks in order, the JSON
  bodies they send and how they read the reply. The album editor's song list is
  modelled with its add, remove and drag-and-drop reorder.
- **Controller.**
  - The gift-card purchase route.
  - The favourites content-type guard.
  - The upload routes' session and artist guards.
  - The album page's track order, total duration and its label.
  - The related-album and related-merchandise ids.

JavaScript and Python builtins the code relies on are modelled explicitly. The
modules `Text`, `Clock`, `JsArray`, `Numbers` and `Json` hold them:

- `parseInt` and Python's `int()`;
- `split` and `join`;
- `trim` and `strip`;
- `slice` and `splice`, with JavaScript's clamping of negative and out-of-range
  indices;
- `%`, which truncates in JavaScript and floors in Python;
- truthiness: `NaN` is falsy in JavaScript but truthy in Python;
- `Math.max`/`Math.min` clamping.

JavaScript numbers are `NaN`, the two infinities, or a finite real.

Browser and network effects are parameters. A fetch becomes the reply it came
back with, or a "threw" case. `localStorage` becomes the value read. A DOM
element becomes a flag saying it is present.

## Model

| member | source | states |
|---|---|---|
| Player.OrNull | static/js/player.js:152-158 | `x \|\| null` on an optional string: absent or empty gives null, anything else is kept |
| Player.InitialValid | static/js/player.js:7-19 | the initial player state (empty queue, index -1) satisfies the queue invariant |
| Player.Enqueue | static/js/player.js:164-179 | the forward history after the current index is dropped; the entry is appended unless the last kept entry has the same track id; the index ends on the last entry, whose track id is the played one |
| Player.EnqueueKeepsValid | static/js/player.js:164-179 | on a valid queue the slice keeps exactly `queue[..index+1]`, and the result keeps the index in range, no two adjacent entries equal and every track id non-empty |
| Player.PlayTrack | static/js/player.js:150-191 | a falsy track id changes nothing; otherwise the current ids are set (song and artist via `\|\| null`), loading is shown, a fresh abort controller replaces the old one, and the queue is updated only when `addToQueue` holds; an appended entry carries the track id, the song and artist ids and the title, artist and cover options, each through `\|\| null`; validity is preserved |
| Player.Play | static/js/player.js:150-179 | `playTrack(id)` with the default options: an empty id changes nothing; otherwise the track becomes current and ends the queue, and validity is preserved |
| Player.PlayQueueIndex | static/js/player.js:303-310 | out of range it is a no-op; otherwise the queue is unchanged, the index moves to `i` and that entry's track becomes current |
| Player.NextInQueue | static/js/player.js:312-319 | moves to the next entry when there is one, otherwise changes nothing; the queue itself never changes |
| Player.PrevInQueue | static/js/player.js:321-327 | moves to the previous entry when the index is above 0, otherwise changes nothing |
| Player.HistoryTruncation | static/js/player.js:164-179 | playing a, b, c, going back once and playing d leaves the queue [a, b, d] with d current: the forward history is dropped |
| Player.PlayTrackAtEndNeverTruncates | static/js/player.js:164-179 | with the index on the last entry, as it always is when only `playTrack` moves it, playing keeps the index on the last entry and only appends: the old queue is a prefix of the new one, at most one entry longer |
| Player.PlayKeepsHistory | static/js/player.js:164-179 | playing a track other than the current one keeps the queue up to the current entry and appends exactly one entry after it |
| Player.DuplicateSuppressed | static/js/player.js:171-178 | playing the same track twice in a row adds it to the queue once |
| Player.PrevThenNext | static/js/player.js:312-327 | previous then next returns to the same entry and track |
| Player.InstallAudio | static/js/player.js:241-246 | loading a new blob returns the previous object URL for revocation and keeps only the new one |
| Player.EveryUrlRevokedOnce | static/js/player.js:241-246 | over any run of loads, every object URL but the last is revoked exactly once and in order, and only the last stays installed |
| Player.SeekForward | static/js/player.js:330-343 | `currentTime \|\| 0` plus the step, capped at the duration only when the duration is truthy and finite; the duration is unchanged |
| Player.SeekBackward | static/js/player.js:345-353 | `max(0, (currentTime \|\| 0) - step)` |
| Player.SeekStaysInRange | static/js/player.js:330-353 | seeking back never goes below 0 or past the current time; with a finite positive duration, seeking forward stays between the current time and the duration |
| Player.InitialVolume | static/js/player.js:24-31 | a stored volume in [0, 1] is used as is; a missing or unreadable one gives 1; anything else is clamped into [0, 1] |
| Player.SliderInput | static/js/player.js:74-82 | a `NaN` slider value is ignored; otherwise the volume becomes the value clamped into [0, 1] |
| Player.MuteToggle | static/js/player.js:85-88 | muting remembers the volume and sets 0; unmuting restores the remembered volume, or 1 when it was 0 |
| Player.MuteUnmute | static/js/player.js:85-88 | mute followed by unmute restores an audible volume exactly |
| Player.VolumePersists | static/js/player.js:24-31 | the volume the slider stores is read back unchanged by the next page load |
| Player.FormatTime | static/js/player.js:397-406 | `--:--` for a non-finite value; otherwise the text reads back as the floored, non-negative number of seconds, with three fields exactly from one hour on |
| Player.FormatSeconds | static/js/player.js:399-405 | whole seconds printed as `M:SS` or `H:MM:SS` read back as the same number |
| Player.ResolveCoverUrl | static/js/player.js:431-441 | a falsy path gives null; an `http(s)://` URL is kept; a `//` URL gets the page's protocol prefixed; any other path is kept |
| Player.ProtocolRelativeIsNotHttp | static/js/player.js:436-438 | the two branches do not overlap: a `//` URL never matches the http pattern |
| Player.ResolveIdempotent | static/js/player.js:431-441 | resolving a resolved URL again changes nothing |
| Shop.TotalPages | static/js/shop.js:216 | `ceil(total / 9)`: zero exactly for no cards, and the last page is non-empty |
| Shop.Setup | static/js/shop.js:206-223 | an empty grid gets no pagination; otherwise page 1 of a valid section is shown |
| Shop.ShowPage | static/js/shop.js:225-246 | card `i` is visible on page `p` exactly when `(p-1)*9 <= i < p*9` |
| Shop.PagesPartitionCards | static/js/shop.js:225-246 | every card is visible on exactly one page, and that page exists |
| Shop.GoTo | static/js/shop.js:323-334 | a page-button click changes only the current page; from a valid section the result is valid exactly when the page exists |
| Shop.PageButtonClick | static/js/shop.js:248-334 | every page button the bar renders carries an existing page, so clicking it keeps the section valid and shows exactly that page's nine cards |
| Shop.PrevClick | static/js/shop.js:251-262 | moves back one page when not on page 1; keeps the section valid |
| Shop.NextClick | static/js/shop.js:308-320 | moves forward one page when not on the last page; keeps the section valid |
| Shop.PageWindow | static/js/shop.js:271-277 | the window of page buttons contains the current page, stays within 1..totalPages and holds min(5, totalPages) pages |
| Shop.Controls | static/js/shop.js:248-321 | no bar for a single page; otherwise it opens with `‹ Anterior`, disabled exactly on page 1, and closes with `Siguiente ›`, disabled exactly on the last page |
| Shop.LeadingThenWindow | static/js/shop.js:279-294 | the leading button (and ellipsis) followed by the window is a well-spaced run that starts at page 1 |
| Shop.ThenTrailing | static/js/shop.js:296-306 | appending the trailing ellipsis and last-page button keeps the run well spaced and ends it at the last page |
| Shop.ControlsShape | static/js/shop.js:248-321 | the bar is Prev, a well-spaced run of page buttons from 1 to the last page with exactly the current one active, then Next; an ellipsis appears after page 1 exactly when the window starts after page 2, and before the last page exactly when it ends before the second-to-last |
| Shop.EveryPageReachable | static/js/shop.js:279-306 | every page either has its own button or lies inside a gap an ellipsis stands for |
| Shop.SelectedNames | static/js/shop.js:92-94 | the names of the checked boxes only; none exactly when no box is checked; a single box gives its name exactly when checked |
| Shop.SelectedNamesAppend | static/js/shop.js:92-94 | the names of two runs of boxes are those of the first run followed by those of the second, which with the single-box case gives every checked name once, in page order |
| Shop.DropdownText | static/js/shop.js:91-103 | the placeholder for no selection (by dropdown kind), the name for one, and "N seleccionados" for more, where N is a digit run without a leading zero whose value is the number of selected options |
| Shop.DropdownCount | static/js/shop.js:91-103 | for two or more selected options the label is exactly the decimal printing of their number followed by ` seleccionados` |
| Shop.AddToCart | static/js/shop.js:359-381 | the first entry for the same id and type gets one more unit (`quantity \|\| 1`); otherwise a new entry with quantity 1 is appended; nothing else changes |
| Shop.AddToCartAddsOneUnit | static/js/shop.js:359-381 | with positive quantities the cart's total units grow by exactly one |
| Shop.AddToCartFound | static/js/shop.js:366-367 | an entry already present is updated in place and the rest of the cart is untouched |
| Shop.AddToCartKeepsProductsUnique | static/js/shop.js:359-381 | a cart with one entry per product keeps one entry per product |
| CartItems.EffectiveQuantity | static/js/cart.js:459 | `quantity \|\| 1`: a missing or zero quantity counts as one; the result is never zero |
| CartItems.FindProduct | static/js/shop.js:362-364 | the index of the first entry with the same id and type, or none exactly when no entry matches |
| CartItems.TotalQuantityUpdate | static/js/cart.js:456-462 | replacing one line's quantity changes the total units by the difference |
| CartItems.TotalQuantityAppend | static/js/cart.js:456-462 | appending a line adds its effective quantity to the total |
| CartItems.TotalQuantityRemove | static/js/cart.js:456-462 | removing a line subtracts its effective quantity from the total |
| Cart.IncreaseQuantity | static/js/cart.js:239-249 | a missing line is a no-op; below 99 the line gets `(quantity \|\| 1) + 1`; at 99 or more nothing changes; other lines are untouched |
| Cart.DecreaseQuantity | static/js/cart.js:254-263 | above 1 the line gets `(quantity \|\| 1) - 1`; at 1 nothing changes; other lines are untouched |
| Cart.ClampQuantity | static/js/cart.js:270 | `max(1, min(99, n))` of a number, and `NaN` for `NaN` |
| Cart.UpdateQuantity | static/js/cart.js:268-275 | an existing line gets the clamped quantity, whose effective value lies in 1..99; other lines are untouched |
| Cart.QuantityOperationsStayInRange | static/js/cart.js:239-275 | increase, decrease and update keep every quantity within 1..99 |
| Cart.IncreaseAddsOneUnit | static/js/cart.js:239-249 | the plus button adds one unit to the cart total, or none at the maximum |
| Cart.IncreaseBelowMax | static/js/cart.js:243-244 | below the maximum the plus button adds exactly one unit |
| Cart.DecreaseRemovesOneUnit | static/js/cart.js:254-263 | the minus button removes one unit, or none at 1 |
| Cart.OpenDeleteModal | static/js/cart.js:280-294 | remembers the line to delete; the cart is unchanged |
| Cart.CloseDeleteModal | static/js/cart.js:299-305 | forgets the line to delete; the cart is unchanged |
| Cart.ConfirmDelete | static/js/cart.js:310-327 | with a remembered existing line, exactly that line is spliced out and the modal closes; otherwise nothing changes |
| Cart.ConfirmDeleteRemovesOneLine | static/js/cart.js:310-327 | the deletion removes one copy of the line (as a multiset) and its units from the total |
| Cart.CancelKeepsCart | static/js/cart.js:280-305 | opening the modal and cancelling leaves the cart as it was, and a later confirm deletes nothing |
| Cart.CheckAuthentication | static/js/cart.js:486-541 | 401 or a thrown request shows the sign-in panel and disables checkout; a successful reply with no payment methods shows the payment panel and disables it; with methods it enables it; another status leaves the button as it was |
| Cart.HandleCheckout | static/js/cart.js:379-391 | the shipping form opens only for a present, enabled button and a non-empty cart; an empty cart gets only a notice |
| Cart.CheckoutNeedsPaymentMethod | static/js/cart.js:379-391 | from an enabled button, checkout opens exactly for a non-empty cart after a probe that answered without 401 and, if successful, with a payment method |
| AlbumPage.FirstAlbumMatch | static/js/album.js:181-185 | none exactly when the path has no `/album/<digit>`; otherwise the whole digit run after the leftmost such match |
| AlbumPage.AlbumIdFromUrl | static/js/album.js:181-185 | `unknown` exactly when the path has no match; otherwise the whole digit run after the leftmost `/album/` followed by a digit |
| AlbumPage.AlbumIdRoundTrip | static/js/album.js:181-185 | a path `/album/<n>` followed by a non-digit reads back as `n` |
| AlbumPage.UploadRedirectLandsOnAlbum | static/js/album.js:181-185 | the page an album upload redirects to yields the new album's id |
| AlbumPage.NoAlbumSegment | static/js/album.js:181-185 | a path without `/album/` gives `unknown` |
| AlbumPage.AddAlbumToCart | static/js/album.js:94-134 | an album already in the cart is not added again and nothing is saved; otherwise its entry is appended and saved |
| AlbumPage.AddAlbumKeepsAlbumsOnce | static/js/album.js:116-125 | the cart never holds one album twice, and adding it again is a no-op |
| AlbumPage.ToggleFavorite | static/js/album.js:139-155 | each click flips the favourite state |
| ArtistProfile.FollowRequestFor | static/js/ArtistProfile.js:45-60 | the remove endpoint exactly when following, and the body's artist id is `parseInt` of the attribute (`NaN` when missing) |
| ArtistProfile.FollowClick | static/js/ArtistProfile.js:62-101 | the button flips exactly on a successful status and then shows the success notice of the new state (now following, or unfollowed); otherwise the state is kept and an error or connection notice is shown |
| ArtistProfile.FollowUnfollow | static/js/ArtistProfile.js:45-72 | after a successful click the next click calls the other endpoint, and a second success restores the state |
| ArtistProfile.FormatDuration | static/js/ArtistProfile.js:257-261 | a non-negative whole number of seconds prints as `M:SS` that reads back as the same number |
| ArtistProfile.FormatNegativeDuration | static/js/ArtistProfile.js:257-261 | a negative duration prints with JavaScript's truncating `%`: -61 gives `-2:-1`, which is not a clock reading |
| ArtistProfile.ArtistIdFromPage | static/js/ArtistProfile.js:334-349 | the main element's id if non-empty, else the name element's if non-empty, else null |
| ArtistProfile.LabelUrlOfPage | static/js/ArtistProfile.js:293-296 | the label request names the main element's id whatever the name element says, the name element's id otherwise, and `null` only when both are missing |
| ArtistProfile.LabelUrl | static/js/ArtistProfile.js:296 | `/api/artist/<id>/label`, with `null` written for a missing id |
| ArtistProfile.LabelPanel | static/js/ArtistProfile.js:288-329 | shows the label for a successful reply naming one, the no-label panel with the owner flag for one that does not, the no-label panel without owner controls for 404, and the error panel for anything else |
| ArtistProfile.OwnerControlsNeedOwnerReply | static/js/ArtistProfile.js:303-312 | owner controls appear exactly when a successful reply says the visitor is the owner |
| UploadAlbum.FindOption | static/js/upload_album.js:75-76 | the option whose value matches, or none exactly when no option does |
| UploadAlbum.AddSong | static/js/upload_album.js:71-87 | an unreadable or zero selection is ignored, a song without an option is ignored, a song already listed is refused, and otherwise it is appended with its option's text |
| UploadAlbum.AddKeepsSongsUnique | static/js/upload_album.js:78-84 | adding keeps the song ids distinct |
| UploadAlbum.AddKeepsSongs | static/js/upload_album.js:71-87 | adding never drops a listed song |
| UploadAlbum.RemoveSong | static/js/upload_album.js:109-112 | exactly the clicked entry is spliced out |
| UploadAlbum.RemoveKeepsSongsUnique | static/js/upload_album.js:109-112 | removing keeps the ids distinct and the removed song is gone |
| UploadAlbum.Move | static/js/upload_album.js:144-146 | the dragged entry lands at the target index and the others keep their relative order |
| UploadAlbum.HandleDrop | static/js/upload_album.js:136-149 | a drop outside an entry or on the dragged entry changes nothing; otherwise the entry is moved |
| UploadAlbum.MovePermutes | static/js/upload_album.js:144-146 | a move is a permutation of the list |
| UploadAlbum.MoveBack | static/js/upload_album.js:144-146 | dragging the entry back restores the list |
| UploadAlbum.MoveKeepsSongsUnique | static/js/upload_album.js:144-146 | moving keeps the ids distinct |
| UploadAlbum.InsertKeepsSongsUnique | static/js/upload_album.js:146 | inserting a song not yet listed keeps the ids distinct |
| UploadAlbum.SongIds | static/js/upload_album.js:192 | the ids of the list, in the list's order |
| UploadAlbum.Submit | static/js/upload_album.js:161-193 | no cover is refused first, an empty list next; otherwise the body carries the trimmed fields, the price, the cover data and lower-cased extension, and the song ids in order |
| UploadAlbum.SubmittedSongsDistinct | static/js/upload_album.js:172-192 | the songs sent are pairwise distinct |
| UploadAlbum.FinishUpload | static/js/upload_album.js:204-222 | a successful reply shows its message or a default and moves to `/album/<id>`, or to the studio without a truthy id; a failure shows the reply's message or a fixed text |
| UploadAlbum.FinishUploadLandsOnAlbum | static/js/upload_album.js:211-212 | after a successful upload with a positive id, the album page reads that id back from the page it moved to |
| UploadSong.AlbumIdField | static/js/upload_song.js:89 | an empty album field sends null; otherwise its `parseInt` |
| UploadSong.AlbumIdOfPrinted | static/js/upload_song.js:89 | an album field holding a printed id sends that id |
| UploadSong.Submit | static/js/upload_song.js:42-95 | no audio is refused first, then no cover, then no readable genre; otherwise the body carries the genre and collaborator ids that parse, the album id, the files and the extension |
| UploadSong.SubmitSendsChosenGenres | static/js/upload_song.js:65-90 | with both files and genre options printed from ids, the upload carries exactly those genres in order |
| UploadSong.FinishUpload | static/js/upload_song.js:106-126 | a successful reply shows its message or a default and moves to `/song/<id>`, or to the studio without a truthy id; a failure shows the reply's message or a fixed text |
| UploadSong.FinishUploadLandsOnSong | static/js/upload_song.js:115-116 | after a successful upload with a truthy id, `parseInt` of the path after `/song/` gives back that id |
| Forms.TrimOrNull | static/js/upload_song.js:87 | `value.trim() \|\| null`: null exactly for an all-blank value, otherwise the trimmed text |
| Forms.EmptyOrNull | static/js/upload_song.js:88 | `value \|\| null` |
| Forms.MessageOr | static/js/upload_album.js:206 | the reply's message when non-empty, else the fallback |
| Forms.KeepNumbers | static/js/upload_song.js:66-68 | the readable ids only; none exactly when every value is unreadable; a single value is kept exactly when it is a number |
| Forms.KeepNumbersAppend | static/js/upload_song.js:66-68 | the filter distributes over concatenation, so with the single-value case every number is kept, in order, and exactly the `NaN`s are dropped |
| Forms.KeepNumbersAllInts | static/js/upload_song.js:66-68 | filtering a list of numbers keeps it whole |
| Forms.ParseEach | static/js/edit_album.js:35 | each value read with `parseInt`, `NaN` included |
| Forms.ParseIds | static/js/edit_song.js:95-102 | `parseInt` of each value with `NaN` dropped; none exactly when no value is readable; a single value gives its number, or nothing for `NaN` |
| Forms.ParseIdsAppend | static/js/edit_song.js:95-102 | the ids of two runs of options are those of the first followed by those of the second |
| Forms.ParseIdsOfPrinted | static/js/edit_song.js:95-102 | option values printed from ids read back as those ids |
| Forms.RedirectAfterUpload | static/js/upload_album.js:210-216 | the new item's page for a truthy id, otherwise the studio |
| Forms.AfterUpload | static/js/upload_song.js:108-126 | success exactly when the reply says so, with its message or a default; a failure shows the reply's message or a fixed text |
| EditSong.MissingElements | static/js/edit_song.js:65-71 | an element is listed exactly when it is absent, in the order title, price, description, release date, genres, collaborators, and at most once; none exactly when all are present |
| EditSong.Failing | static/js/edit_song.js:105-108 | each required field is listed exactly when its check fails, in the order title, price, genres |
| EditSong.MissingFields | static/js/edit_song.js:105-108 | the title is listed when blank, the price unless non-empty and positive, the genres when none is readable; in the order Título, Precio, Géneros |
| EditSong.Attached | static/js/edit_song.js:128-135 | a file field is sent exactly when the file was read to non-empty data |
| EditSong.Submit | static/js/edit_song.js:65-135 | missing elements are reported first, then the failing fields as MissingFields lists them; otherwise the body carries the trimmed fields, the parsed ids, and each new file only when read, with the cover's extension exactly alongside the cover |
| EditSong.MetadataOnlyEdit | static/js/edit_song.js:128-135 | with no new files no file field is sent |
| EditSong.FinishEdit | static/js/edit_song.js:146-167 | a save counts only with a successful status and a non-empty message, and moves to the song's page; an unreadable reply shows the connection message |
| EditSong.SavedLandsOnSong | static/js/edit_song.js:153-155 | a saved edit of a numeric song id moves to `/song/<id>`, and `parseInt` of the path after `/song/` gives back that id |
| EditAlbum.CurrentSongs | static/js/edit_album.js:143-145 | an absent or empty attribute gives no songs; otherwise each comma-separated piece read with `parseInt` |
| EditAlbum.CurrentSongsOfAttr | static/js/edit_album.js:143-155 | an attribute written from the album's ids reads back as those ids, so a song is preselected exactly when it belongs to the album |
| EditAlbum.DurationSuffix | static/js/edit_album.js:150 | nothing for a falsy duration; for a positive whole number of seconds, `(m:ss)` whose inside reads back as the duration |
| EditAlbum.SongOption | static/js/edit_album.js:147-155 | value is the song id, text is the title and duration suffix, selected exactly when the id is among the current songs |
| EditAlbum.Submit | static/js/edit_album.js:17-44 | refused without a title, a truthy price or a cover, then without songs; otherwise the body carries the trimmed fields and every selected value read with `parseInt` |
| EditAlbum.SubmitSendsChosenSongs | static/js/edit_album.js:17-44 | with the required fields present, song options printed from ids are sent as exactly those ids, in order |
| EditAlbum.PriceCheckIsTruthiness | static/js/edit_album.js:26 | the price check is truthiness: -1 passes while 0 and `NaN` are refused |
| EditAlbum.FinishEdit | static/js/edit_album.js:55-73 | success exactly for a successful status, moving to the studio; a failure shows the reply's `message`, else `detail`, else a fixed text; a thrown error shows its message |
| EditAlbum.FailureTextPrecedence | static/js/edit_album.js:64-69 | a non-empty `message` is shown whatever the `detail`; a `detail` only without a `message`; then the fixed text; a thrown error shows its own text or the connection text |
| Access.FavouriteGuard | controller/oversound_controller.py:1486-1490 | 401 without a session; otherwise the request goes through exactly for `songs`, `albums` or `artists`, and anything else gets 400 |
| Access.FavouriteTypes | controller/oversound_controller.py:1489 | only the three collection names reach the favourites service |
| Access.FavouriteGuardOrder | controller/oversound_controller.py:1480-1490 | the 401 does not depend on the content type, the 400 does not depend on the user, and the singular names of the route's own description are refused |
| Access.UploadRoute | controller/oversound_controller.py:1716-1749 | 401 without a session, 403 without a truthy artist id, 500 for an unreadable body, otherwise the body is forwarded with the session's artist id |
| Access.GuardsBeforeBody | controller/oversound_controller.py:1716-1723 | both guards come before the body: a refusal does not depend on the body, and happens exactly without an artist session |
| Access.ForwardedBody | controller/oversound_controller.py:1726 | the forwarded artist id is the session's whatever the client sent, and every other member is the client's |
| AlbumDetails.Truncate | controller/oversound_controller.py:738 | `int()` of a finite float truncates toward zero |
| AlbumDetails.ContributionOf | controller/oversound_controller.py:736-740 | a falsy duration is skipped; an int adds itself; text adds its `int()` or is skipped when that raises; an infinite float raises an error the loop does not catch |
| AlbumDetails.TotalDuration | controller/oversound_controller.py:734-740 | the loop computes the reference total, or none once an infinite duration is met |
| AlbumDetails.NoneStays | controller/oversound_controller.py:734-740 | once an infinite duration appears the page fails, whatever follows |
| AlbumDetails.TotalOfIntegers | controller/oversound_controller.py:734-740 | with integer durations the total is their sum |
| AlbumDetails.DurationLabel | controller/oversound_controller.py:743-745 | the `minutes:ss` label reads back as the total |
| AlbumDetails.SortTracksCorrect | controller/oversound_controller.py:709 | the tracks end ordered by `albumOrder`, with a missing one as 999; the result is a permutation; and tracks with equal keys keep their original order, as Python's sort is stable |
| AlbumDetails.SortTracks | controller/oversound_controller.py:709 | the tracks end ordered by `albumOrder`, with a missing one as 999, and are a permutation of the input |
| AlbumDetails.UnnumberedLast | controller/oversound_controller.py:708-709 | after sorting, a track without `albumOrder` comes after every track numbered below 999 |
| AlbumDetails.Others | controller/oversound_controller.py:717 | the owner's items other than the current one; a one-item list is kept unless it is the current id |
| AlbumDetails.OthersAppend | controller/oversound_controller.py:717 | the comprehension distributes over the owner's list, so the kept ids stay in their original order with their repeats |
| AlbumDetails.RelatedIds | controller/oversound_controller.py:714-717 | no related ids without an owner list; otherwise the first min(6, n) of the other items, never the current one; the merchandise page uses the same step |
| AlbumDetails.FewOthersAllRelated | controller/oversound_controller.py:717 | with at most six other items, every one of them is related |
| AlbumDetails.RelatedQuery | controller/oversound_controller.py:718-719 | no request for no ids; otherwise the comma-joined ids, which split back into the printed ids |
| Giftcard.UngroupCode | controller/oversound_controller.py:376 | removing the dashes of a code grouped by four gives back the original text when it held no dash |
| Giftcard.GroupSixteen | controller/oversound_controller.py:376 | sixteen characters grouped by four give 19 characters with dashes at 4, 9 and 14 and the characters in between in order |
| Giftcard.GroupCode | controller/oversound_controller.py:376 | joining the groups of four with dashes only inserts dashes: removing them gives back a dash-free input |
| Giftcard.UuidText | controller/oversound_controller.py:374 | `str(uuid)` is 36 characters with dashes at positions 8 and 13 and the first fourteen digits in order around them |
| Giftcard.CodeAsWritten | controller/oversound_controller.py:374-376 | the code as the route builds it is 19 characters, holds `--` at 9-10, and never has the `XXXX-XXXX-XXXX-XXXX` shape |
| Giftcard.CodeAsWrittenMisshapen | controller/oversound_controller.py:374-376 | the code as written holds `--` and never has the `XXXX-XXXX-XXXX-XXXX` shape |
| Giftcard.Code | controller/oversound_controller.py:374-376 | the corrected code has the promised shape and its digits are the UUID's first sixteen, upper-cased |
| Giftcard.PurchaseAsWritten | controller/oversound_controller.py:341-394 | 401 without a session, 500 for an unreadable body; then, each only once the earlier checks pass, 400 for the amount, its range, the e-mail and the message length, and 500 for a null message; when every check passes, a card, except that a `NaN` amount ends in the 500 of the failed success reply |
| Giftcard.NaNAmountServerError | controller/oversound_controller.py:360-394 | a `NaN` amount passes the amount checks of the route as written, and the request then ends in the generic 500 instead of the range refusal |
| Giftcard.Purchase | controller/oversound_controller.py:341-394 | the corrected route makes the same checks in the same order, with `NaN` refused by the range check; it issues a card exactly for a session, a finite amount from 5 to 500, an e-mail with `@`, and an absent or short enough message; the code has the promised shape |
| Giftcard.PurchaseAgrees | controller/oversound_controller.py:341-394 | both routes refuse the same requests; without a `NaN` amount with the same status and text, and with one the corrected route answers the range refusal where the route as written answers 500 |
| Clock.PyMinSec | controller/oversound_controller.py:743-745 | `f"{m}:{s:02d}"` of floor division and modulo reads back as the total, also for negative totals |
| Clock.JsMinSec | static/js/edit_album.js:150 | for a non-negative whole number of seconds the JavaScript label equals the Python one |
| Clock.JsRem | static/js/ArtistProfile.js:259 | JavaScript's `%`: the remainder differs from the dividend by a multiple of the divisor, lies strictly between minus and plus the divisor, and keeps the dividend's sign, which fixes its value; for non-negative dividends it agrees with Dafny's |
| Clock.JsMinSecRoundTrip | static/js/edit_album.js:150 | a non-negative whole duration's label reads back as the duration |
| Clock.JsMinSecNegative | static/js/edit_album.js:150 | -61 is labelled `-2:-1`, which is not a clock reading |
| Text.JsParseInt | static/js/edit_album.js:35 | `parseInt`: a number only when the text holds a digit; a leading digit always gives a non-negative number |
| Text.JsParseIntOfIntToString | static/js/edit_album.js:144-145 | `parseInt` of a printed integer followed by a non-digit gives the integer back |
| Text.CanonicalDigits | static/js/shop.js:101 | a digit run without a leading zero is the decimal printing of its value, so the value fixes the text |
| Text.SplitJoin | static/js/edit_album.js:144-145 | splitting comma-joined pieces without commas gives the pieces back |
| Text.JoinSplit | static/js/edit_album.js:144-145 | joining the pieces of a split gives the text back |
| Text.SplitPrintedIds | static/js/edit_album.js:144-145 | comma-joined printed ids split back into the printed ids |
| Text.Trim | static/js/edit_album.js:18 | `trim()`: empty exactly for an all-blank text |
| Text.ExtensionOf | static/js/upload_song.js:94 | `name.split('.').pop().toLowerCase()`: the lower-cased text after the last dot, or the whole name without one |
| Text.PyParseInt | controller/oversound_controller.py:738 | Python's `int()` of a digit string is its value |
| Text.PadStart2 | static/js/ArtistProfile.js:260 | `padStart(2, '0')` keeps the text at the end and fills with zeros to length 2 |
| JsArray.SlicePrefix | static/js/player.js:169 | `slice(0, end)` is a prefix, of length `end` when in range |
| JsArray.RemoveAt | static/js/cart.js:321 | `splice(i, 1)` with JavaScript's index clamping removes one element |
| JsArray.InsertAt | static/js/upload_album.js:146 | `splice(i, 0, x)` inserts `x` at the clamped index |
| JsArray.RemoveAtMultiset | static/js/cart.js:321 | removing an element drops exactly one copy of it |
| JsArray.RemoveAfterInsert | static/js/upload_album.js:145-146 | removing what was just inserted restores the array |
| JsArray.InsertAfterRemove | static/js/upload_album.js:145-146 | putting a removed element back where it was restores the array |
| Numbers.Clamp01 | static/js/player.js:29 | `max(0, min(1, v))` of a number lies in [0, 1] and is `v` inside that range |

## Left out

- Network requests, their timeouts and the forwarding to the catalogue, user and payment services. Each reply is a parameter.
- The player's audio streaming: the fetch, the chunked read into a blob and the metadata lookups. The race between overlapping `playTrack` calls is left out too. Only the state kept across calls is modelled: the queue, the abort controller and the object URL.
- Rendering, notifications, animations, timers and scrolling. Each reduces to the value it shows or the page it moves to.
- `parseFloat` and `new Date()`. Their results are inputs. A price or volume is a JavaScript number given to the model.
- Player.SeekForward, Player.SeekBackward: `currentTime ± step` is computed on exact reals, not on IEEE doubles, so the rounding of the sum and the difference is not modelled.
- `fileToBase64`. A chosen file is its name and its data text.
- `parseInt` of hexadecimal (`0x`) prefixes and of radix arguments. Also Unicode white space beyond the common spaces, and locale case mapping. The forms never rely on them.
- `int()` of text with `_` digit separators or non-ASCII digits. Same reason.
- Python values of unexpected types: a non-string e-mail or message, or a non-object body. The route's own error handling turns these into 500, and that is not modelled. Mixed-type `albumOrder` values are also out; comparing them raises, which the page does not catch.
- The duplicated cover-preview code and the unbalanced braces in the middle of `static/js/edit_album.js`. The stray `});` at line 167 has no opener, so the script as written is a syntax error and never loads: no listener is installed and the form submits natively. The EditAlbum members model the evidently intended submit handler and song picker.
- Clock.JsMinSec, ArtistProfile.FormatDuration, EditAlbum.DurationSuffix: durations are modelled as whole seconds. The API may send fractional ones, which JavaScript prints with a fractional seconds field (185.5 prints as `3:5.5`), and these members do not cover them.
- UploadAlbum.FinishUpload: a fetch that throws, or a reply that is not JSON, shows a fixed connection message. The model takes an already-read reply, so it does not cover this.
- UploadSong.FinishUpload: the same as UploadAlbum.FinishUpload.
- AlbumDetails.TotalDuration: an infinite duration makes the route raise an uncaught `OverflowError`. The model only says there is no total; the error page itself is not modelled.

## Findings

| source | as written | input that shows it | evidently intended | confidence | as-written member | corrected member |
|---|---|---|---|---|---|---|
| controller/oversound_controller.py:374-376 | the code is the first 16 characters of the upper-cased `str(uuid4())`, grouped by four | any UUID: characters 8 and 13 of its text are dashes, so `abcdef12-3456-4789-…` gives `ABCD-EF12--345-6-47`, which holds `--` | sixteen hexadecimal digits as `XXXX-XXXX-XXXX-XXXX`, the format the adjacent comment names | not executed; holds for every UUID | Giftcard.CodeAsWritten (Giftcard.CodeAsWrittenMisshapen) | Giftcard.Code |
| controller/oversound_controller.py:360-394 | the amount must be truthy, an `int` or `float`, and not below 5 or above 500; the success reply echoes the amount | body `{"amount": NaN, "recipient_email": "a@b"}`: Python's JSON reader accepts `NaN`, which is truthy, a `float`, and fails both comparisons, so it passes the checks; rendering it in the success `JSONResponse` then raises, and the `except` answers a generic 500 | the range refusal, 400 "El monto debe estar entre €5 y €500" | not executed; the 500 relies on the framework's JSON rendering refusing `NaN` | Giftcard.PurchaseAsWritten (Giftcard.NaNAmountServerError) | Giftcard.Purchase (Giftcard.PurchaseAgrees) |

=== FILE: access.dfy ===
/** The controller's request guards: the favourites routes' content-type whitelist
    and the upload routes' session and artist checks, made before the body is read. */
module Access {
  import opened Wrappers
  import opened Json

  /** What `obtain_user_data` gave for the session cookie; `artistId` is `None`
      when the user data has no such member or it is `null`. */
  datatype Session = Session(artistId: Option<int>)

  /** A refusal: the status and the `error` text of the JSON reply. */
  datatype Refusal = Refusal(status: int, error: string)

  const ContentTypes: seq<string> := ["songs", "albums", "artists"]

  /** The guard of `POST` and `DELETE /favs/{content_type}/{content_id}`: 401 without
      a session, then 400 for a content type outside the whitelist; `None` lets the
      request through to the favourites service. */
  function FavouriteGuard(session: Option<Session>, contentType: string): (r: Option<Refusal>)
    ensures session.None? ==> r == Some(Refusal(401, "No autenticado"))
    ensures session.Some? ==> (r.None? <==> contentType in ContentTypes)
    ensures session.Some? && r.Some? ==> r.value == Refusal(400, "Tipo de contenido inválido")
  {
    if session.None? then Some(Refusal(401, "No autenticado"))
    else if contentType !in ContentTypes then Some(Refusal(400, "Tipo de contenido inválido"))
    else None
  }

  /** Only the three collection names reach the favourites service. */
  lemma FavouriteTypes(session: Session, contentType: string)
    ensures FavouriteGuard(Some(session), contentType).None? <==>
            contentType == "songs" || contentType == "albums" || contentType == "artists"
  {
  }

  /** The sign-in check comes first and the whitelist second: without a session the
      content type does not matter, with one the user does not matter, and the
      singular names the route's own description uses are refused. */
  lemma FavouriteGuardOrder(s1: Session, s2: Session, t1: string, t2: string)
    ensures FavouriteGuard(None, t1) == FavouriteGuard(None, t2)
    ensures FavouriteGuard(Some(s1), t1) == FavouriteGuard(Some(s2), t1)
    ensures FavouriteGuard(Some(s1), "song") == FavouriteGuard(Some(s1), "album") == FavouriteGuard(Some(s1), "artist")
            == Some(Refusal(400, "Tipo de contenido inválido"))
  {
    assert "song" !in ContentTypes && "album" !in ContentTypes && "artist" !in ContentTypes;
  }

  /** A decoded request body: a JSON object. */
  type Body = map<string, JsonValue>

  /** Where an upload route goes: refused, failing on an unreadable body (500), or
      forwarding the body to the catalogue service. */
  datatype UploadStep = Refused(refusal: Refusal) | Unreadable | Forward(body: Body)

  /** An artist session: one whose `artistId` is truthy. */
  predicate IsArtist(session: Session)
  {
    session.artistId.Some? && session.artistId.value != 0
  }

  /** The opening of `POST /upload-song`, `/upload-album` and `/upload-merch`: 401
      without a session, 403 for a user who is not an artist, and only then the body
      is read; the forwarded body carries the session's artist id, whatever the
      client sent under that key. */
  function UploadRoute(session: Option<Session>, body: Option<Body>): (r: UploadStep)
    ensures session.None? ==> r == Refused(Refusal(401, "No autenticado"))
    ensures session.Some? && !IsArtist(session.value) ==> r == Refused(Refusal(403, "Debes ser un artista"))
    ensures session.Some? && IsArtist(session.value) && body.None? ==> r == Unreadable
    ensures r.Forward? ==>
              && session.Some? && IsArtist(session.value) && body.Some?
              && r.body == body.value["artistId" := IntValue(session.value.artistId.value)]
  {
    match session
    case None => Refused(Refusal(401, "No autenticado"))
    case Some(user) =>
      if !IsArtist(user) then Refused(Refusal(403, "Debes ser un artista"))
      else match body
        case None => Unreadable
        case Some(b) => Forward(b["artistId" := IntValue(user.artistId.value)])
  }

  /** Both checks come before the body: a refused request is refused the same way
      whatever its body, and an accepted one is never refused. */
  lemma GuardsBeforeBody(session: Option<Session>, b1: Option<Body>, b2: Option<Body>)
    ensures UploadRoute(session, b1).Refused? ==> UploadRoute(session, b2) == UploadRoute(session, b1)
    ensures UploadRoute(session, b1).Refused? <==> session.None? || !IsArtist(session.value)
  {
  }

  /** The artist id sent on is the session's, and every other member is the
      client's. */
  lemma ForwardedBody(session: Session, body: Body, key: string)
    requires IsArtist(session)
    ensures UploadRoute(Some(session), Some(body)).Forward?
    ensures UploadRoute(Some(session), Some(body)).body["artistId"] == IntValue(session.artistId.value)
    ensures key != "artistId" && key in body ==>
              key in UploadRoute(Some(session), Some(body)).body
              && UploadRoute(Some(session), Some(body)).body[key] == body[key]
  {
  }
}

=== FILE: album_details.dfy ===
/** The pure steps of the controller's album and merchandise pages: the track order,
    the album's total running time and its label, and the choice of related items. */
module AlbumDetails {
  import opened Wrappers
  import opened Text
  import opened Numbers
  import opened Json
  import Clock

  /** A track as the catalogue service returns it: its optional position in the
      album and its `duration` member (`Null` when absent). */
  datatype Track = Track(albumOrder: Option<int>, duration: JsonValue)

  // ---------------------------------------------------------------------------
  // Total duration

  /** `int(x)` of a finite real: truncation toward zero. */
  function Truncate(r: real): (n: int)
    ensures r >= 0.0 ==> n == r.Floor
    ensures r < 0.0 ==> n == -((-r).Floor)
  {
    if r >= 0.0 then r.Floor else -((-r).Floor)
  }

  /** What the loop makes of one track's duration: skipped (falsy, or `int()` raised
      `ValueError`/`TypeError`), added, or an `OverflowError`, which the loop does not
      catch. */
  datatype Contribution = Skipped | Adds(n: int) | Overflows

  function ContributionOf(d: JsonValue): (c: Contribution)
    ensures !Truthy(d) ==> c == Skipped
    ensures c.Overflows? <==> d.FloatValue? && (d.x.PosInf? || d.x.NegInf?)
    ensures d.IntValue? && d.i != 0 ==> c == Adds(d.i)
    ensures d.TextValue? && d.s != "" ==> c == (match PyParseInt(d.s) case Some(n) => Adds(n) case None => Skipped)
  {
    if !Truthy(d) then Skipped
    else match d
      case BoolValue(b) => Adds(1)
      case IntValue(i) => Adds(i)
      case FloatValue(x) =>
        (match x
         case NaN => Skipped
         case PosInf => Overflows
         case NegInf => Overflows
         case Finite(r) => Adds(Truncate(r)))
      case TextValue(s) =>
        (match PyParseInt(s)
         case Some(n) => Adds(n)
         case None => Skipped)
      case _ => Skipped
  }

  /** The reference sum: the readable durations added up, or `None` once an
      infinite one makes the page fail. */
  function TotalOf(tracks: seq<Track>): Option<int>
    decreases |tracks|
  {
    if |tracks| == 0 then Some(0)
    else
      match TotalOf(tracks[..|tracks| - 1])
      case None => None
      case Some(t) =>
        match ContributionOf(tracks[|tracks| - 1].duration)
        case Skipped => Some(t)
        case Adds(n) => Some(t + n)
        case Overflows => None
  }

  /** The loop of `get_album` over the sorted tracks. */
  method TotalDuration(tracks: seq<Track>) returns (total: Option<int>)
    ensures total == TotalOf(tracks)
  {
    var sum := 0;
    var i := 0;
    while i < |tracks|
      invariant 0 <= i <= |tracks|
      invariant TotalOf(tracks[..i]) == Some(sum)
    {
      assert tracks[..i + 1][..i] == tracks[..i];
      match ContributionOf(tracks[i].duration) {
        case Overflows =>
          assert tracks[..i + 1][i] == tracks[i];
          NoneStays(tracks, i + 1);
          return None;
        case Skipped =>
        case Adds(n) =>
          sum := sum + n;
      }
      i := i + 1;
    }
    assert tracks[..i] == tracks;
    return Some(sum);
  }

  /** Once the sum of a prefix fails, so does the sum of every longer prefix. */
  lemma {:induction false} NoneStays(tracks: seq<Track>, k: nat)
    requires k <= |tracks| && TotalOf(tracks[..k]) == None
    ensures TotalOf(tracks) == None
    decreases |tracks| - k
  {
    if k < |tracks| {
      assert tracks[..k + 1][..k] == tracks[..k];
      NoneStays(tracks, k + 1);
    } else {
      assert tracks[..k] == tracks;
    }
  }

  /** Tracks whose durations are plain integers contribute exactly those integers. */
  lemma {:induction false} TotalOfIntegers(tracks: seq<Track>)
    requires forall k :: 0 <= k < |tracks| ==> tracks[k].duration.IntValue?
    ensures TotalOf(tracks) == Some(IntSum(tracks))
    decreases |tracks|
  {
    if |tracks| > 0 {
      var init := tracks[..|tracks| - 1];
      assert forall k :: 0 <= k < |init| ==> init[k] == tracks[k];
      TotalOfIntegers(init);
    }
  }

  /** The sum of the `duration` members of integer tracks. */
  function IntSum(tracks: seq<Track>): int
    requires forall k :: 0 <= k < |tracks| ==> tracks[k].duration.IntValue?
    decreases |tracks|
  {
    if |tracks| == 0 then 0
    else IntSum(tracks[..|tracks| - 1]) + tracks[|tracks| - 1].duration.i
  }

  /** `f"{minutes}:{seconds:02d}"` with floor division: the label reads back as the
      total, negative totals included. */
  function DurationLabel(total: int): (shown: string)
    ensures Clock.ParseClock(shown) == Some(total)
  {
    Clock.PyMinSec(total)
  }

  // ---------------------------------------------------------------------------
  // Track order

  /** The sort key: `albumOrder`, or 999 when it is missing. */
  function Key(t: Track): int
  {
    t.albumOrder.GetOr(999)
  }

  predicate Sorted(s: seq<Track>)
  {
    forall i, j :: 0 <= i < j < |s| ==> Key(s[i]) <= Key(s[j])
  }

  /** The tracks with key `k`, in their order. */
  function WithKey(s: seq<Track>, k: int): seq<Track>
    decreases |s|
  {
    if |s| == 0 then []
    else (if Key(s[0]) == k then [s[0]] else []) + WithKey(s[1..], k)
  }

  /** `t` placed after every track whose key is not above its own. */
  function Insert(t: Track, s: seq<Track>): (r: seq<Track>)
    ensures |r| == |s| + 1
    decreases |s|
  {
    if |s| == 0 || Key(t) < Key(s[0]) then [t] + s
    else [s[0]] + Insert(t, s[1..])
  }

  /** `sorted(songs, key=…)`: Python's sort is stable, modelled as insertion of each
      track, in order, after the equal keys already placed. */
  function SortTracks(s: seq<Track>): (r: seq<Track>)
    ensures |r| == |s|
    ensures Sorted(r) && multiset(r) == multiset(s)
    decreases |s|
  {
    if |s| == 0 then []
    else
      var sorted := SortTracks(s[..|s| - 1]);
      InsertStep(s, sorted);
      Insert(s[|s| - 1], sorted)
  }

  /** Inserting the last track into the sorted rest keeps the order and the tracks. */
  lemma InsertStep(s: seq<Track>, sorted: seq<Track>)
    requires |s| > 0 && Sorted(sorted) && multiset(sorted) == multiset(s[..|s| - 1])
    ensures Sorted(Insert(s[|s| - 1], sorted))
    ensures multiset(Insert(s[|s| - 1], sorted)) == multiset(s)
  {
    var t := s[|s| - 1];
    InsertSorted(t, sorted);
    InsertMultiset(t, sorted);
    assert s == s[..|s| - 1] + [t];
  }

  lemma {:induction false} InsertMultiset(t: Track, s: seq<Track>)
    ensures multiset(Insert(t, s)) == multiset(s) + multiset{t}
    decreases |s|
  {
    if |s| > 0 && Key(t) >= Key(s[0]) {
      InsertMultiset(t, s[1..]);
      assert s == [s[0]] + s[1..];
    }
  }

  lemma {:induction false} InsertSorted(t: Track, s: seq<Track>)
    requires Sorted(s)
    ensures Sorted(Insert(t, s))
    decreases |s|
  {
    if |s| > 0 && Key(t) >= Key(s[0]) {
      var rest := Insert(t, s[1..]);
      InsertSorted(t, s[1..]);
      InsertMultiset(t, s[1..]);
      forall j | 0 <= j < |rest|
        ensures Key(s[0]) <= Key(rest[j])
      {
        assert rest[j] in multiset(rest);
        if rest[j] != t {
          assert rest[j] in multiset(s[1..]);
          var m :| 0 <= m < |s[1..]| && s[1..][m] == rest[j];
          assert s[m + 1] == rest[j];
        }
      }
    }
  }

  lemma {:induction false} WithKeyNone(s: seq<Track>, k: int)
    requires forall i :: 0 <= i < |s| ==> Key(s[i]) > k
    ensures WithKey(s, k) == []
    decreases |s|
  {
    if |s| > 0 {
      WithKeyNone(s[1..], k);
    }
  }

  /** Inserting into a sorted list puts the new track after the tracks with its key. */
  lemma {:induction false} InsertStable(t: Track, s: seq<Track>, k: int)
    requires Sorted(s)
    ensures WithKey(Insert(t, s), k) == WithKey(s, k) + (if Key(t) == k then [t] else [])
    decreases |s|
  {
    if |s| == 0 {
    } else if Key(t) < Key(s[0]) {
      var r := [t] + s;
      assert r[1..] == s;
      if Key(t) == k {
        assert forall i :: 0 <= i < |s| ==> Key(s[0]) <= Key(s[i]);
        WithKeyNone(s, k);
      }
    } else {
      assert Sorted(s[1..]);
      InsertStable(t, s[1..], k);
      var r := Insert(t, s);
      assert r == [s[0]] + Insert(t, s[1..]);
      assert r[1..] == Insert(t, s[1..]);
      assert WithKey(r, k) == (if Key(s[0]) == k then [s[0]] else []) + WithKey(r[1..], k);
    }
  }

  lemma {:induction false} WithKeyAppend(s: seq<Track>, t: Track, k: int)
    ensures WithKey(s + [t], k) == WithKey(s, k) + (if Key(t) == k then [t] else [])
    decreases |s|
  {
    if |s| > 0 {
      assert (s + [t])[1..] == s[1..] + [t];
      WithKeyAppend(s[1..], t, k);
    }
  }

  /** The sorted tracks are in key order, are the same tracks, and keep the relative
      order of tracks with equal keys. */
  lemma {:induction false} SortTracksCorrect(s: seq<Track>, k: int)
    ensures Sorted(SortTracks(s))
    ensures multiset(SortTracks(s)) == multiset(s)
    ensures WithKey(SortTracks(s), k) == WithKey(s, k)
    decreases |s|
  {
    if |s| > 0 {
      var init := s[..|s| - 1];
      var last := s[|s| - 1];
      SortTracksCorrect(init, k);
      InsertSorted(last, SortTracks(init));
      InsertMultiset(last, SortTracks(init));
      InsertStable(last, SortTracks(init), k);
      assert s == init + [last];
      WithKeyAppend(init, last, k);
    }
  }

  /** A track without a position goes after every track placed before 999. */
  lemma UnnumberedLast(s: seq<Track>, i: int, j: int)
    requires 0 <= i < |SortTracks(s)| && 0 <= j < |SortTracks(s)|
    requires SortTracks(s)[i].albumOrder.None? && SortTracks(s)[j].albumOrder.Some?
    requires SortTracks(s)[j].albumOrder.value < 999
    ensures j < i
  {
    SortTracksCorrect(s, 0);
  }

  // ---------------------------------------------------------------------------
  // Related items

  /** The owner's ids other than the current one, in order. */
  function Others(owned: seq<int>, current: int): (r: seq<int>)
    ensures current !in r
    ensures forall x :: x in r <==> x in owned && x != current
    ensures |owned| == 1 ==> r == (if owned[0] == current then [] else owned)
    decreases |owned|
  {
    if |owned| == 0 then []
    else (if owned[0] == current then [] else [owned[0]]) + Others(owned[1..], current)
  }

  /** Dropping the current id distributes over the owner's list: the others of two
      runs of ids are those of the first followed by those of the second, so the kept
      ids stay in their original order and keep their repeats. */
  lemma {:induction false} OthersAppend(a: seq<int>, b: seq<int>, current: int)
    ensures Others(a + b, current) == Others(a, current) + Others(b, current)
    decreases |a|
  {
    if |a| > 0 {
      assert (a + b)[0] == a[0];
      assert (a + b)[1..] == a[1..] + b;
      OthersAppend(a[1..], b, current);
    } else {
      assert a + b == b;
    }
  }

  const MaxRelated := 6

  /** `[aid for aid in owned if aid != current][:6]`, for the `owner_albums` of
      `get_album` and the `owner_merch` of `get_merch`; a missing or empty list gives
      none. */
  function RelatedIds(owned: Option<seq<int>>, current: int): (r: seq<int>)
    ensures owned.None? ==> r == []
    ensures owned.Some? ==> |r| == if |Others(owned.value, current)| < MaxRelated then |Others(owned.value, current)| else MaxRelated
    ensures owned.Some? ==> r == Others(owned.value, current)[..|r|]
    ensures current !in r
    ensures forall x :: x in r ==> owned.Some? && x in owned.value
  {
    match owned
    case None => []
    case Some(ids) =>
      var others := Others(ids, current);
      var r := if |others| <= MaxRelated then others else others[..MaxRelated];
      assert forall x :: x in r ==> x in others;
      r
  }

  /** With no more than six other ids, every one of them is related. */
  lemma FewOthersAllRelated(owned: seq<int>, current: int, x: int)
    requires |Others(owned, current)| <= MaxRelated
    requires x in owned && x != current
    ensures x in RelatedIds(Some(owned), current)
  {
  }

  /** The `ids` query of the related-items request: the ids joined by commas; the
      request is made only when there is at least one. */
  function RelatedQuery(related: seq<int>): (q: Option<string>)
    ensures related == [] <==> q.None?
    ensures q.Some? ==> Split(q.value, ',') == PrintedIds(related)
  {
    if related == [] then None
    else SplitPrintedIds(related); Some(Join(PrintedIds(related), ","))
  }
}

=== FILE: album_page.dfy ===
/** The album page: adding the album to the local cart, the favourite toggle and
    reading the album id from the page path. */
module AlbumPage {
  import opened Wrappers
  import opened Text
  import opened CartItems
  import Forms

  const AlbumKind := "album"
  const AlbumPrefix := "/album/"
  const Unknown := "unknown"

  predicate StartsWithAt(s: string, i: nat, prefix: string)
  {
    i + |prefix| <= |s| && s[i..i + |prefix|] == prefix
  }

  /** Whether the pattern `/\/album\/(\d+)/` matches at position `i`. */
  predicate AlbumMatchAt(path: string, i: nat)
  {
    StartsWithAt(path, i, AlbumPrefix) && i + |AlbumPrefix| < |path| && IsDigit(path[i + |AlbumPrefix|])
  }

  /** The leftmost match at or after position `i` is at `j`. */
  predicate LeftmostMatch(path: string, i: nat, j: nat)
  {
    i <= j && AlbumMatchAt(path, j) && forall j' :: i <= j' < j ==> !AlbumMatchAt(path, j')
  }

  /** The id captured at the first match found from position `i` on: the whole run
      of digits that follows the leftmost `/album/` with a digit after it. */
  function FirstAlbumMatch(path: string, i: nat): (r: Option<string>)
    ensures r.Some? ==> |r.value| > 0 && AllDigits(r.value)
    ensures r.None? <==> forall j :: i <= j <= |path| ==> !AlbumMatchAt(path, j)
    ensures r.Some? ==> exists j: nat :: LeftmostMatch(path, i, j) && r.value == DigitPrefix(path[j + |AlbumPrefix|..])
    decreases |path| - i
  {
    if i >= |path| then
      assert forall j :: i <= j <= |path| ==> !AlbumMatchAt(path, j);
      None
    else if AlbumMatchAt(path, i) then
      var id := DigitPrefix(path[i + |AlbumPrefix|..]);
      assert LeftmostMatch(path, i, i);
      Some(id)
    else
      var r := FirstAlbumMatch(path, i + 1);
      assert r.Some? ==> exists j: nat :: LeftmostMatch(path, i, j) && r.value == DigitPrefix(path[j + |AlbumPrefix|..]) by {
        if r.Some? {
          var j: nat :| LeftmostMatch(path, i + 1, j) && r.value == DigitPrefix(path[j + |AlbumPrefix|..]);
          assert LeftmostMatch(path, i, j);
        }
      }
      r
  }

  /** `getAlbumIdFromUrl()`: the digits after the first `/album/` that is followed by
      a digit, or `'unknown'`. */
  function AlbumIdFromUrl(path: string): (id: string)
    ensures id == Unknown || (|id| > 0 && AllDigits(id))
    ensures id == Unknown <==> forall j :: 0 <= j <= |path| ==> !AlbumMatchAt(path, j)
    ensures id != Unknown ==> exists j: nat :: LeftmostMatch(path, 0, j) && id == DigitPrefix(path[j + |AlbumPrefix|..])
  {
    match FirstAlbumMatch(path, 0)
    case Some(digits) =>
      assert Unknown[0] !in "0123456789";
      digits
    case None => Unknown
  }

  /** The album page's own path gives back the id it was built from, whatever
      follows the digits (a slash, a query, nothing). */
  lemma AlbumIdRoundTrip(n: nat, rest: string)
    requires |rest| == 0 || !IsDigit(rest[0])
    ensures AlbumIdFromUrl(AlbumPrefix + NatToString(n) + rest) == NatToString(n)
  {
    var digits := NatToString(n);
    var path := AlbumPrefix + digits + rest;
    assert path[0..|AlbumPrefix|] == AlbumPrefix;
    assert path[|AlbumPrefix|] == digits[0];
    assert AlbumMatchAt(path, 0);
    assert path[|AlbumPrefix|..] == digits + rest;
    DigitPrefixThen(digits, rest);
    assert FirstAlbumMatch(path, 0) == Some(DigitPrefix(path[|AlbumPrefix|..]));
  }

  /** After an album upload the form redirects to `/album/{albumId}`; the album page
      reads that same id back. */
  lemma UploadRedirectLandsOnAlbum(albumId: nat)
    requires albumId != 0
    ensures AlbumIdFromUrl(Forms.RedirectAfterUpload(AlbumPrefix, Some(albumId))) == IntToString(albumId)
  {
    AlbumIdRoundTrip(albumId, "");
    assert AlbumPrefix + NatToString(albumId) + "" == AlbumPrefix + IntToString(albumId);
  }

  /** A path without the pattern gives `'unknown'`. */
  lemma NoAlbumSegment(path: string)
    requires forall j :: 0 <= j <= |path| ==> !StartsWithAt(path, j, AlbumPrefix)
    ensures AlbumIdFromUrl(path) == Unknown
  {
  }

  /** An album entry for `id` is in the cart. */
  predicate HasAlbum(cart: seq<CartItem>, id: string)
  {
    exists k :: 0 <= k < |cart| && cart[k].id == id && cart[k].kind == AlbumKind
  }

  /** `handleAddAlbumToCart`: an album already in the cart leaves the cart as it is
      and unsaved (the second component says whether it was saved); otherwise the
      album entry, without a quantity, is appended and the cart saved. */
  function AddAlbumToCart(cart: seq<CartItem>, id: string, title: string): (r: (seq<CartItem>, bool))
    ensures HasAlbum(cart, id) ==> r == (cart, false)
    ensures !HasAlbum(cart, id) ==> r == (cart + [CartItem(id, AlbumKind, Some(title), NoQty)], true)
    ensures HasAlbum(r.0, id)
  {
    if HasAlbum(cart, id) then (cart, false)
    else
      var added := cart + [CartItem(id, AlbumKind, Some(title), NoQty)];
      assert added[|cart|].id == id && added[|cart|].kind == AlbumKind;
      (added, true)
  }

  /** At most one album entry per album id. */
  ghost predicate AlbumsOnce(cart: seq<CartItem>)
  {
    forall i, j :: 0 <= i < j < |cart| && cart[i].kind == AlbumKind && cart[j].kind == AlbumKind ==>
      cart[i].id != cart[j].id
  }

  /** Adding albums never puts one album in the cart twice, and adding the same album
      again changes nothing. */
  lemma AddAlbumKeepsAlbumsOnce(cart: seq<CartItem>, id: string, title: string, title2: string)
    requires AlbumsOnce(cart)
    ensures AlbumsOnce(AddAlbumToCart(cart, id, title).0)
    ensures var once := AddAlbumToCart(cart, id, title).0;
            AddAlbumToCart(once, id, title2) == (once, false)
  {
  }

  /** `handleToggleFavorite`: the `favorited` class flips on each click, so two
      clicks restore it. */
  function ToggleFavorite(favorited: bool): (r: bool)
    ensures r != favorited
  {
    !favorited
  }
}

=== FILE: artist_profile.dfy ===
/** The artist profile page: the follow button, the duration label of its cards,
    the record-label panel and where the page's artist id comes from. */
module ArtistProfile {
  import opened Wrappers
  import opened Text
  import opened Http
  import Clock

  // ---------------------------------------------------------------------------
  // Follow button

  const FollowAdd := "/api/follow/add"
  const FollowRemove := "/api/follow/remove"

  /** What the follow request came back with: a thrown fetch, or a status. */
  datatype FollowReply = FollowThrew | FollowStatus(status: int)

  /** The request a click sends: its endpoint and the `parseInt` of the button's
      `data-artist-id` (a missing attribute parses to `NaN`). */
  datatype FollowRequest = FollowRequest(endpoint: string, artistId: ParsedInt)

  /** The notification a click ends with: the success notice of `toggleFollowButton`
      for the new state, or an error notice when the state is kept. */
  datatype FollowNotice = NowFollowing | Unfollowed | RequestError | ConnectionError

  function FollowRequestFor(isFollowing: bool, artistAttr: Option<string>): (req: FollowRequest)
    ensures req.endpoint == FollowRemove <==> isFollowing
    ensures req.endpoint == FollowAdd <==> !isFollowing
    ensures artistAttr.None? ==> req.artistId.NaN?
    ensures artistAttr.Some? ==> req.artistId == JsParseInt(artistAttr.value)
  {
    FollowRequest(if isFollowing then FollowRemove else FollowAdd,
                  match artistAttr case None => NaN case Some(a) => JsParseInt(a))
  }

  /** The click handler's effect on the `following` state: it flips only when the
      server accepted the request; a failure status or a thrown fetch leaves it and
      shows an error. */
  function FollowClick(isFollowing: bool, reply: FollowReply): (r: (bool, FollowNotice))
    ensures r.0 != isFollowing <==> reply.FollowStatus? && Ok(reply.status)
    ensures (r.1.NowFollowing? || r.1.Unfollowed?) <==> r.0 != isFollowing
    ensures r.1 == NowFollowing <==> r.0 != isFollowing && r.0
    ensures r.1 == Unfollowed <==> r.0 != isFollowing && !r.0
    ensures r.1 == ConnectionError <==> reply.FollowThrew?
  {
    match reply
    case FollowThrew => (isFollowing, ConnectionError)
    case FollowStatus(status) =>
      if Ok(status) then (!isFollowing, if isFollowing then Unfollowed else NowFollowing)
      else (isFollowing, RequestError)
  }

  /** Two accepted clicks go through both endpoints and come back to the start. */
  lemma FollowUnfollow(isFollowing: bool, attr: Option<string>, s1: int, s2: int)
    requires Ok(s1) && Ok(s2)
    ensures var after := FollowClick(isFollowing, FollowStatus(s1)).0;
            && FollowRequestFor(after, attr).endpoint != FollowRequestFor(isFollowing, attr).endpoint
            && FollowClick(after, FollowStatus(s2)).0 == isFollowing
  {
  }

  // ---------------------------------------------------------------------------
  // Durations

  /** `formatDuration(seconds)`: minutes, a colon and the remainder padded to two
      digits; a whole non-negative duration reads back as itself. */
  function FormatDuration(seconds: int): (shown: string)
    ensures seconds >= 0 ==> Clock.ParseClock(shown) == Some(seconds)
  {
    if seconds >= 0 then Clock.JsMinSecRoundTrip(seconds); Clock.JsMinSec(seconds)
    else Clock.JsMinSec(seconds)
  }

  /** A negative duration prints with a negative remainder, which does not read
      back as a clock value. */
  lemma FormatNegativeDuration()
    ensures FormatDuration(-61) == "-2:-1"
    ensures Clock.ParseClock(FormatDuration(-61)) == None
  {
    Clock.JsMinSecNegative();
  }

  // ---------------------------------------------------------------------------
  // Artist id and label panel

  /** `getArtistIdFromPage()`: the `data-artist-id` of `.artist-main`, else that of
      `.artist-name`, else `null`; an absent element, an absent attribute and an
      empty one are all skipped. */
  function ArtistIdFromPage(mainId: Option<string>, nameId: Option<string>): (r: Option<string>)
    ensures r.Some? ==> r.value != ""
    ensures mainId.Some? && mainId.value != "" ==> r == mainId
    ensures (mainId.None? || mainId.value == "") && nameId.Some? && nameId.value != "" ==> r == nameId
    ensures r.None? <==> (mainId.None? || mainId.value == "") && (nameId.None? || nameId.value == "")
  {
    if mainId.Some? && mainId.value != "" then mainId
    else if nameId.Some? && nameId.value != "" then nameId
    else None
  }

  /** The label endpoint for an artist; a missing id is interpolated as `null`. */
  function LabelUrl(artistId: Option<string>): (url: string)
    ensures artistId.Some? ==> url == "/api/artist/" + artistId.value + "/label"
    ensures artistId.None? ==> url == "/api/artist/null/label"
  {
    "/api/artist/" + artistId.GetOr("null") + "/label"
  }
  /** The label request asks for the artist the page names first: the main
      element's id whatever the name element says, the name element's id when the
      main one is missing, and `null` only when both are missing. */
  lemma LabelUrlOfPage(main: string, n1: Option<string>, n2: Option<string>, name: string)
    ensures main != "" ==>
              LabelUrl(ArtistIdFromPage(Some(main), n1)) == LabelUrl(ArtistIdFromPage(Some(main), n2))
              == "/api/artist/" + main + "/label"
    ensures name != "" ==>
              LabelUrl(ArtistIdFromPage(None, Some(name))) == LabelUrl(ArtistIdFromPage(Some(""), Some(name)))
              == "/api/artist/" + name + "/label"
    ensures LabelUrl(ArtistIdFromPage(None, None)) == LabelUrl(ArtistIdFromPage(Some(""), Some("")))
            == "/api/artist/null/label"
  {
  }


  /** The JSON body of a successful label response. */
  datatype LabelBody = LabelBody(labelName: Option<string>, isOwner: bool)

  /** What the label request came back with: a thrown fetch, or a status and, for a
      successful status, the body if it was valid JSON. */
  datatype LabelReply = LabelThrew | LabelStatus(status: int, body: Option<LabelBody>)

  /** What the label panel shows. */
  datatype LabelView = ShowLabel(labelName: string, isOwner: bool) | NoLabel(isOwner: bool) | LabelError

  /** `loadArtistLabelInfo()`: the label with the owner flag for a successful reply
      naming one; the no-label panel with the owner flag for one that does not; the
      no-label panel without owner controls for 404; the error panel otherwise. */
  function LabelPanel(reply: LabelReply): (v: LabelView)
    ensures v.ShowLabel? <==> reply.LabelStatus? && Ok(reply.status) && reply.body.Some? && reply.body.value.labelName.Some?
    ensures v.ShowLabel? ==> v == ShowLabel(reply.body.value.labelName.value, reply.body.value.isOwner)
    ensures reply.LabelStatus? && reply.status == 404 ==> v == NoLabel(false)
    ensures v.LabelError? <==>
              reply.LabelThrew? || (Ok(reply.status) && reply.body.None?) || (!Ok(reply.status) && reply.status != 404)
  {
    match reply
    case LabelThrew => LabelError
    case LabelStatus(status, body) =>
      if Ok(status) then
        match body
        case None => LabelError
        case Some(b) =>
          match b.labelName
          case Some(l) => ShowLabel(l, b.isOwner)
          case None => NoLabel(b.isOwner)
      else if status == 404 then NoLabel(false)
      else LabelError
  }

  /** Owner controls appear only on a successful reply whose body says so. */
  lemma OwnerControlsNeedOwnerReply(reply: LabelReply)
    ensures var v := LabelPanel(reply);
            (v.ShowLabel? || v.NoLabel?) && v.isOwner <==>
            reply.LabelStatus? && Ok(reply.status) && reply.body.Some? && reply.body.value.isOwner
  {
  }
}

=== FILE: cart.dfy ===
/** The cart page: quantity controls bounded to [1, 99], deletion through a
    confirmation modal, and the checkout gate driven by the payment-method probe. */
module Cart {
  import opened Wrappers
  import opened Text
  import opened CartItems
  import opened Http

  const MaxQuantity: int := 99

  /** Every line holds between 1 and 99 units, counting a missing quantity as 1. */
  ghost predicate QuantitiesInRange(items: seq<CartItem>)
  {
    forall j :: 0 <= j < |items| ==> 1 <= EffectiveQuantity(items[j].quantity) <= MaxQuantity
  }

  predicate HasLine(items: seq<CartItem>, index: int)
  {
    0 <= index < |items|
  }

  /** `increaseQuantity(index)`: one more unit while the line is below 99. */
  function IncreaseQuantity(items: seq<CartItem>, index: int): (r: seq<CartItem>)
    ensures |r| == |items|
    ensures forall j :: 0 <= j < |items| && j != index ==> r[j] == items[j]
    ensures !HasLine(items, index) ==> r == items
    ensures HasLine(items, index) && EffectiveQuantity(items[index].quantity) < MaxQuantity ==>
              r[index] == items[index].(quantity := Num(EffectiveQuantity(items[index].quantity) + 1))
    ensures HasLine(items, index) && EffectiveQuantity(items[index].quantity) >= MaxQuantity ==>
              r == items
  {
    if !HasLine(items, index) then items
    else
      var current := EffectiveQuantity(items[index].quantity);
      if current < MaxQuantity then items[index := items[index].(quantity := Num(current + 1))]
      else items
  }

  /** `decreaseQuantity(index)`: one unit fewer while the line is above 1. */
  function DecreaseQuantity(items: seq<CartItem>, index: int): (r: seq<CartItem>)
    ensures |r| == |items|
    ensures forall j :: 0 <= j < |items| && j != index ==> r[j] == items[j]
    ensures !HasLine(items, index) ==> r == items
    ensures HasLine(items, index) && EffectiveQuantity(items[index].quantity) > 1 ==>
              r[index] == items[index].(quantity := Num(EffectiveQuantity(items[index].quantity) - 1))
    ensures HasLine(items, index) && EffectiveQuantity(items[index].quantity) <= 1 ==> r == items
  {
    if !HasLine(items, index) then items
    else
      var current := EffectiveQuantity(items[index].quantity);
      if current > 1 then items[index := items[index].(quantity := Num(current - 1))]
      else items
  }

  /** `Math.max(1, Math.min(99, n))` for the `parseInt` of the quantity field: a
      number is clamped, `NaN` stays `NaN`. */
  function ClampQuantity(input: ParsedInt): (q: Qty)
    ensures input.NaN? ==> q == NoQty
    ensures input.Int? ==> q.Num? && 1 <= q.n <= MaxQuantity
    ensures input.Int? && 1 <= input.value <= MaxQuantity ==> q == Num(input.value)
    ensures input.Int? && input.value < 1 ==> q == Num(1)
    ensures input.Int? && input.value > MaxQuantity ==> q == Num(MaxQuantity)
  {
    match input
    case NaN => NoQty
    case Int(n) => Num(if n < 1 then 1 else if n > MaxQuantity then MaxQuantity else n)
  }

  /** `updateQuantity(index, parseInt(value))`: the line takes the clamped value. */
  function UpdateQuantity(items: seq<CartItem>, index: int, input: ParsedInt): (r: seq<CartItem>)
    ensures |r| == |items|
    ensures forall j :: 0 <= j < |items| && j != index ==> r[j] == items[j]
    ensures !HasLine(items, index) ==> r == items
    ensures HasLine(items, index) ==>
              r[index] == items[index].(quantity := ClampQuantity(input))
    ensures HasLine(items, index) ==> 1 <= EffectiveQuantity(r[index].quantity) <= MaxQuantity
  {
    if !HasLine(items, index) then items
    else items[index := items[index].(quantity := ClampQuantity(input))]
  }

  /** Every quantity operation keeps all lines within [1, 99]. */
  lemma QuantityOperationsStayInRange(items: seq<CartItem>, index: int, input: ParsedInt)
    requires QuantitiesInRange(items)
    ensures QuantitiesInRange(IncreaseQuantity(items, index))
    ensures QuantitiesInRange(DecreaseQuantity(items, index))
    ensures QuantitiesInRange(UpdateQuantity(items, index, input))
  {
  }

  /** Increasing adds exactly one unit to the cart, or leaves it alone at 99. */
  lemma IncreaseAddsOneUnit(items: seq<CartItem>, index: int)
    requires HasLine(items, index) && QuantitiesInRange(items)
    ensures var q := EffectiveQuantity(items[index].quantity);
            TotalQuantity(IncreaseQuantity(items, index))
            == TotalQuantity(items) + (if q < MaxQuantity then 1 else 0)
  {
    var q := EffectiveQuantity(items[index].quantity);
    if q < MaxQuantity {
      IncreaseBelowMax(items, index, q);
    }
  }

  /** Below 99, increasing replaces the line's quantity and nothing else. */
  lemma IncreaseBelowMax(items: seq<CartItem>, index: int, q: int)
    requires HasLine(items, index) && q == EffectiveQuantity(items[index].quantity)
    requires 1 <= q < MaxQuantity
    ensures TotalQuantity(IncreaseQuantity(items, index)) == TotalQuantity(items) + 1
  {
    assert IncreaseQuantity(items, index) == items[index := items[index].(quantity := Num(q + 1))];
    TotalQuantityUpdate(items, index, Num(q + 1));
  }

  /** Decreasing takes exactly one unit off the cart, or leaves it alone at 1. */
  lemma DecreaseRemovesOneUnit(items: seq<CartItem>, index: int)
    requires HasLine(items, index) && QuantitiesInRange(items)
    ensures var q := EffectiveQuantity(items[index].quantity);
            TotalQuantity(DecreaseQuantity(items, index))
            == TotalQuantity(items) - (if q > 1 then 1 else 0)
  {
    var q := EffectiveQuantity(items[index].quantity);
    if q > 1 {
      TotalQuantityUpdate(items, index, Num(q - 1));
    }
  }

  // ---------------------------------------------------------------------------
  // Deletion

  /** The page's cart and the line the delete modal was opened for. */
  datatype CartPage = CartPage(items: seq<CartItem>, deleteIndex: Option<int>)

  /** `openDeleteModal(index)`. */
  function OpenDeleteModal(page: CartPage, index: int): (r: CartPage)
    ensures r.items == page.items && r.deleteIndex == Some(index)
  {
    page.(deleteIndex := Some(index))
  }

  /** `closeDeleteModal()`: forgets the pending line. */
  function CloseDeleteModal(page: CartPage): (r: CartPage)
    ensures r.items == page.items && r.deleteIndex.None?
  {
    page.(deleteIndex := None)
  }

  /** `confirmDeleteProduct()`: with a pending line that exists, that line is removed,
      the others keep their order, and the modal closes; otherwise nothing happens. */
  function ConfirmDelete(page: CartPage): (r: CartPage)
    ensures page.deleteIndex.None? || !HasLine(page.items, page.deleteIndex.value) ==> r == page
    ensures page.deleteIndex.Some? && HasLine(page.items, page.deleteIndex.value) ==>
              var i := page.deleteIndex.value;
              && r.deleteIndex.None?
              && |r.items| == |page.items| - 1
              && r.items[..i] == page.items[..i]
              && r.items[i..] == page.items[i + 1..]
  {
    match page.deleteIndex
    case Some(i) =>
      if HasLine(page.items, i) then
        CloseDeleteModal(page.(items := page.items[..i] + page.items[i + 1..]))
      else page
    case None => page
  }

  /** Deleting removes exactly one occurrence of the chosen line and its units. */
  lemma ConfirmDeleteRemovesOneLine(page: CartPage)
    requires page.deleteIndex.Some? && HasLine(page.items, page.deleteIndex.value)
    ensures var i := page.deleteIndex.value;
            && multiset(ConfirmDelete(page).items) + multiset{page.items[i]} == multiset(page.items)
            && TotalQuantity(ConfirmDelete(page).items)
               == TotalQuantity(page.items) - EffectiveQuantity(page.items[i].quantity)
  {
    var i := page.deleteIndex.value;
    assert page.items == page.items[..i] + [page.items[i]] + page.items[i + 1..];
    TotalQuantityRemove(page.items, i);
  }

  /** Opening the modal and cancelling it leaves the cart as it was. */
  lemma CancelKeepsCart(page: CartPage, index: int)
    ensures CloseDeleteModal(OpenDeleteModal(page, index)).items == page.items
    ensures ConfirmDelete(CloseDeleteModal(OpenDeleteModal(page, index)))
            == CloseDeleteModal(page)
  {
  }

  // ---------------------------------------------------------------------------
  // Checkout gate

  /** What `GET /payment` gave: a thrown fetch or JSON read, or a status with, for a
      successful status, the number of payment methods (`payment_methods || []`). */
  datatype PaymentProbe = ProbeFailed | Answer(status: int, methods: nat)

  /** The panel the cart page shows below the summary. */
  datatype Panel = CheckoutPanel | NoPaymentPanel | NotAuthenticatedPanel

  /** `checkAuthenticationStatus`: the panel shown and whether the checkout button is
      disabled afterwards; another failure status leaves the button as it was. */
  function CheckAuthentication(probe: PaymentProbe, wasDisabled: bool): (r: (Panel, bool))
    ensures probe.ProbeFailed? ==> r == (NotAuthenticatedPanel, true)
    ensures probe.Answer? && probe.status == 401 ==> r == (NotAuthenticatedPanel, true)
    ensures probe.Answer? && Ok(probe.status) && probe.methods == 0 ==> r == (NoPaymentPanel, true)
    ensures probe.Answer? && Ok(probe.status) && probe.methods > 0 ==> r == (CheckoutPanel, false)
    ensures probe.Answer? && probe.status != 401 && !Ok(probe.status) ==> r == (CheckoutPanel, wasDisabled)
  {
    match probe
    case ProbeFailed => (NotAuthenticatedPanel, true)
    case Answer(status, methods) =>
      if status == 401 then (NotAuthenticatedPanel, true)
      else if Ok(status) then
        (if methods == 0 then (NoPaymentPanel, true) else (CheckoutPanel, false))
      else (CheckoutPanel, wasDisabled)
  }

  /** What a click on the checkout button leads to. */
  datatype CheckoutOutcome = Ignored | EmptyCartNotice | ShippingModal

  /** `handleCheckout`: a missing or disabled button does nothing, an empty cart only
      shows a notice, anything else opens the shipping form. */
  function HandleCheckout(buttonPresent: bool, disabled: bool, items: seq<CartItem>): (o: CheckoutOutcome)
    ensures o == ShippingModal <==> buttonPresent && !disabled && |items| > 0
    ensures o == EmptyCartNotice <==> buttonPresent && !disabled && |items| == 0
  {
    if !buttonPresent || disabled then Ignored
    else if |items| == 0 then EmptyCartNotice
    else ShippingModal
  }

  /** Starting from an enabled button, the shipping form opens only for a non-empty
      cart of a signed-in user with at least one payment method, or after a probe
      that failed with some other status. */
  lemma CheckoutNeedsPaymentMethod(probe: PaymentProbe, items: seq<CartItem>)
    ensures var disabled := CheckAuthentication(probe, false).1;
            HandleCheckout(true, disabled, items) == ShippingModal
            <==> |items| > 0 && probe.Answer? && probe.status != 401
                 && (Ok(probe.status) ==> probe.methods > 0)
  {
  }
}

=== FILE: cart_items.dfy ===
/** The shopping-cart entries the pages keep in local storage under `oversound_cart`.
    The shop page, the album page and the cart page each write them in their own way;
    this module holds only what they share: the entry and its quantity. */
module CartItems {
  import opened Wrappers

  /** A stored quantity. `NoQty` stands for an absent or `null` field and for `NaN`
      (which `JSON.stringify` writes as `null`). */
  datatype Qty = NoQty | Num(n: int)

  /** `item.quantity || 1`: an absent, `NaN` or zero quantity counts as one. */
  function EffectiveQuantity(q: Qty): (r: int)
    ensures q.NoQty? ==> r == 1
    ensures q.Num? && q.n != 0 ==> r == q.n
    ensures r != 0
  {
    match q
    case NoQty => 1
    case Num(n) => if n == 0 then 1 else n
  }

  /** One cart entry: the product id and type (`song`, `album`, `merch`) identify it. */
  datatype CartItem = CartItem(id: string, kind: string, name: Option<string>, quantity: Qty)

  predicate SameProduct(item: CartItem, id: string, kind: string)
  {
    item.id == id && item.kind == kind
  }

  /** The position of the first entry for product `(id, kind)`, if there is one. */
  function FindProduct(cart: seq<CartItem>, id: string, kind: string): (r: Option<nat>)
    ensures r.Some? ==> r.value < |cart| && SameProduct(cart[r.value], id, kind)
    ensures r.Some? ==> forall j :: 0 <= j < r.value ==> !SameProduct(cart[j], id, kind)
    ensures r.None? <==> forall j :: 0 <= j < |cart| ==> !SameProduct(cart[j], id, kind)
    decreases |cart|
  {
    if |cart| == 0 then None
    else if SameProduct(cart[0], id, kind) then Some(0)
    else
      match FindProduct(cart[1..], id, kind)
      case None => None
      case Some(k) => Some(k + 1)
  }

  /** No two entries are for the same product. */
  ghost predicate UniqueProducts(cart: seq<CartItem>)
  {
    forall i, j :: 0 <= i < j < |cart| ==>
      !SameProduct(cart[j], cart[i].id, cart[i].kind)
  }

  /** The number of units in the cart, as the totals count them. */
  function TotalQuantity(cart: seq<CartItem>): int
  {
    if |cart| == 0 then 0
    else TotalQuantity(cart[..|cart| - 1]) + EffectiveQuantity(cart[|cart| - 1].quantity)
  }

  /** Replacing one entry's quantity changes the total by the difference. */
  lemma {:induction false} TotalQuantityUpdate(cart: seq<CartItem>, k: nat, q: Qty)
    requires k < |cart|
    ensures TotalQuantity(cart[k := cart[k].(quantity := q)])
            == TotalQuantity(cart) - EffectiveQuantity(cart[k].quantity) + EffectiveQuantity(q)
    decreases |cart|
  {
    var updated := cart[k := cart[k].(quantity := q)];
    if k < |cart| - 1 {
      assert updated[..|cart| - 1] == cart[..|cart| - 1][k := cart[k].(quantity := q)];
      TotalQuantityUpdate(cart[..|cart| - 1], k, q);
    } else {
      assert updated[..|cart| - 1] == cart[..|cart| - 1];
    }
  }

  /** Appending an entry adds its quantity to the total. */
  lemma TotalQuantityAppend(cart: seq<CartItem>, item: CartItem)
    ensures TotalQuantity(cart + [item]) == TotalQuantity(cart) + EffectiveQuantity(item.quantity)
  {
    assert (cart + [item])[..|cart|] == cart;
  }

  /** Removing the entry at `k` takes its quantity off the total. */
  lemma {:induction false} TotalQuantityRemove(cart: seq<CartItem>, k: nat)
    requires k < |cart|
    ensures TotalQuantity(cart[..k] + cart[k + 1..])
            == TotalQuantity(cart) - EffectiveQuantity(cart[k].quantity)
    decreases |cart|
  {
    var rest := cart[..k] + cart[k + 1..];
    if k == |cart| - 1 {
      assert rest == cart[..|cart| - 1];
    } else {
      var init := cart[..|cart| - 1];
      assert rest[..|rest| - 1] == init[..k] + init[k + 1..];
      assert rest[|rest| - 1] == cart[|cart| - 1];
      TotalQuantityRemove(init, k);
    }
  }
}

=== FILE: clock.dfy ===
/** Minute:second labels. Three scripts and the controller print durations this way;
    `ParseClock` reads such a label back and is the partner of every printer. */
module Clock {
  import opened Wrappers
  import opened Text

  /** The value of a two-digit field below 60 (`"07"` is 7), if `p` is one. */
  function SexagesimalField(p: string): (r: Option<nat>)
    ensures r.Some? ==> r.value < 60
  {
    if |p| == 2 && AllDigits(p) && ParseDigits(p) < 60 then Some(ParseDigits(p)) else None
  }

  /** Reads `M:SS` (M possibly negative) or `H:MM:SS` back into seconds. */
  function ParseClock(s: string): Option<int>
  {
    var pieces := Split(s, ':');
    if |pieces| == 2 then
      match (ParseSigned(pieces[0]), SexagesimalField(pieces[1]))
      case (Some(m), Some(sec)) => Some(m * 60 + sec)
      case _ => None
    else if |pieces| == 3 && |pieces[0]| >= 1 && AllDigits(pieces[0]) then
      match (SexagesimalField(pieces[1]), SexagesimalField(pieces[2]))
      case (Some(m), Some(sec)) => Some(ParseDigits(pieces[0]) * 3600 + m * 60 + sec)
      case _ => None
    else None
  }

  /** Python `f"{t // 60}:{t % 60:02d}"`: floor division, a seconds field in [0, 60). */
  function PyMinSec(total: int): (shown: string)
    ensures ParseClock(shown) == Some(total)
  {
    var minutes := total / 60;
    var seconds := total % 60;
    var shown := IntToString(minutes) + ":" + Pad2(seconds);
    TwoFieldRoundTrip(minutes, seconds);
    shown
  }

  /** JavaScript `` `${Math.floor(d/60)}:${String(d % 60).padStart(2,'0')}` ``; the
      remainder operator truncates toward zero, so a negative `d` gives a negative
      seconds field. */
  function JsMinSec(d: int): (shown: string)
    ensures d >= 0 ==> shown == PyMinSec(d)
  {
    IntToString(d / 60) + ":" + PadStart2(IntToString(JsRem(d, 60)))
  }

  /** JavaScript `a % b` for a positive divisor: the sign follows the dividend. */
  function JsRem(a: int, b: int): (r: int)
    requires b > 0
    ensures -b < r < b
    ensures a >= 0 ==> r == a % b
    ensures a < 0 ==> r <= 0
    ensures (a - r) % b == 0
  {
    if a >= 0 then
      assert a - a % b == b * (a / b);
      MultipleRem(a / b, b);
      a % b
    else
      NegativeRem(a, b);
      -((-a) % b)
  }

  /** The truncating remainder of a negative dividend differs from it by a multiple
      of the divisor. */
  lemma NegativeRem(a: int, b: int)
    requires a < 0 && b > 0
    ensures (a + (-a) % b) % b == 0
  {
    var q := (-a) / b;
    assert -a == b * q + (-a) % b;
    assert a + (-a) % b == b * (-q);
    MultipleRem(-q, b);
  }

  /** A multiple of a positive divisor leaves no remainder. */
  lemma MultipleRem(q: int, b: int)
    requires b > 0
    ensures (b * q) % b == 0
  {
    var k, m := (b * q) / b, (b * q) % b;
    var d := q - k;
    assert b * q == b * k + m;
    assert m == b * d by { assert b * d == b * q - b * k; }
    if d >= 1 {
      assert false;
    } else if d <= -1 {
      assert false;
    }
  }

  /** Non-negative durations printed by the JavaScript pages read back exactly. */
  lemma JsMinSecRoundTrip(d: int)
    requires d >= 0
    ensures ParseClock(JsMinSec(d)) == Some(d)
  {
  }

  /** A negative duration that is not a whole number of minutes gets a negative
      seconds field, which no clock reader accepts. */
  lemma JsMinSecNegative()
    ensures JsMinSec(-61) == "-2:-1"
    ensures ParseClock(JsMinSec(-61)) == None
  {
    assert NatToString(2) == "2" && NatToString(1) == "1";
    assert (-61) / 60 == -2;
    assert JsRem(-61, 60) == -1;
    var shown := JsMinSec(-61);
    assert shown == "-2" + ":" + "-1";
    SplitJoin(["-2", "-1"], ':');
    assert Join(["-2", "-1"], ":") == "-2:-1";
    assert Split(shown, ':') == ["-2", "-1"];
    assert SexagesimalField("-1") == None by { assert !IsDigit('-'); }
  }

  /** Two colon-free fields joined by a colon split back into the two. */
  lemma SplitTwo(a: string, b: string)
    requires ':' !in a && ':' !in b
    ensures Split(a + ":" + b, ':') == [a, b]
  {
    SplitJoin([a, b], ':');
    assert Join([a, b], ":") == a + ":" + b;
  }

  /** Three colon-free fields joined by colons split back into the three. */
  lemma SplitThree(a: string, b: string, c: string)
    requires ':' !in a && ':' !in b && ':' !in c
    ensures Split(a + ":" + b + ":" + c, ':') == [a, b, c]
  {
    SplitJoin([a, b, c], ':');
    assert [a, b, c][1..] == [b, c];
    assert Join([b, c], ":") == b + ":" + c;
    assert Join([a, b, c], ":") == a + ":" + (b + ":" + c);
    assert a + ":" + (b + ":" + c) == a + ":" + b + ":" + c;
  }

  lemma TwoFieldRoundTrip(m: int, sec: nat)
    requires sec < 60
    ensures Split(IntToString(m) + ":" + Pad2(sec), ':') == [IntToString(m), Pad2(sec)]
    ensures ParseClock(IntToString(m) + ":" + Pad2(sec)) == Some(m * 60 + sec)
  {
    var a := IntToString(m);
    var b := Pad2(sec);
    assert ':' !in a;
    assert ':' !in b by { assert AllDigits(b); }
    SplitTwo(a, b);
    ParseIntToString(m);
  }

  lemma ThreeFieldRoundTrip(h: nat, m: nat, sec: nat)
    requires m < 60 && sec < 60
    ensures Split(NatToString(h) + ":" + Pad2(m) + ":" + Pad2(sec), ':') == [NatToString(h), Pad2(m), Pad2(sec)]
    ensures ParseClock(NatToString(h) + ":" + Pad2(m) + ":" + Pad2(sec))
            == Some(h * 3600 + m * 60 + sec)
  {
    var a := NatToString(h);
    var b := Pad2(m);
    var c := Pad2(sec);
    assert ':' !in a && ':' !in b && ':' !in c by {
      assert AllDigits(a) && AllDigits(b) && AllDigits(c);
    }
    SplitThree(a, b, c);
    ParseNatToString(h);
    ReadThree(a + ":" + b + ":" + c, a, b, c, m, sec);
  }

  /** `ParseClock` of a text whose three pieces are already known. */
  lemma ReadThree(s: string, a: string, b: string, c: string, m: nat, sec: nat)
    requires Split(s, ':') == [a, b, c]
    requires |a| >= 1 && AllDigits(a)
    requires m < 60 && sec < 60 && SexagesimalField(b) == Some(m) && SexagesimalField(c) == Some(sec)
    ensures ParseClock(s) == Some(ParseDigits(a) * 3600 + m * 60 + sec)
  {
  }
}

=== FILE: edit_album.dfy ===
/** The album edit form: its required-field check, the song multi-select with the
    album's current songs preselected, the JSON body of the `PATCH /album/{id}/edit`
    request and the reading of the reply. */
module EditAlbum {
  import opened Wrappers
  import opened Text
  import opened Numbers
  import opened Forms
  import Clock

  // ---------------------------------------------------------------------------
  // The song picker

  /** A song of `GET /api/my-songs`; `duration` is `None` when absent or `null`. */
  datatype MySong = MySong(songId: int, title: string, duration: Option<int>)

  /** The album's current songs, from the `data-current-songs` attribute: each
      comma-separated piece read with `parseInt`; an absent or empty attribute gives
      none. */
  function CurrentSongs(attr: Option<string>): (current: seq<ParsedInt>)
    ensures attr.None? || attr.value == "" ==> current == []
    ensures attr.Some? && attr.value != "" ==> current == ParseEach(Split(attr.value, ','))
  {
    if attr.Some? && attr.value != "" then ParseEach(Split(attr.value, ',')) else []
  }

  /** The ` (m:ss)` suffix of an option's text, left out for a falsy duration. */
  function DurationSuffix(duration: Option<int>): (suffix: string)
    ensures duration.None? || duration.value == 0 ==> suffix == ""
    ensures duration.Some? && duration.value > 0 ==>
              suffix == "(" + Clock.JsMinSec(duration.value) + ")"
              && Clock.ParseClock(suffix[1..|suffix| - 1]) == Some(duration.value)
  {
    match duration
    case None => ""
    case Some(d) =>
      if d == 0 then ""
      else
        var shown := Clock.JsMinSec(d);
        var suffix := "(" + shown + ")";
        assert suffix[1..|suffix| - 1] == shown;
        if d > 0 then Clock.JsMinSecRoundTrip(d); suffix else suffix
  }

  /** One `<option>` of the song picker. */
  datatype PickerOption = PickerOption(value: string, text: string, selected: bool)

  /** The option built for a song: its id as value, title and duration as text, and
      selected exactly when the id is among the current songs. */
  function SongOption(song: MySong, current: seq<ParsedInt>): (o: PickerOption)
    ensures o.value == IntToString(song.songId)
    ensures o.text == song.title + " " + DurationSuffix(song.duration)
    ensures o.selected <==> Int(song.songId) in current
  {
    PickerOption(IntToString(song.songId), song.title + " " + DurationSuffix(song.duration),
                 Int(song.songId) in current)
  }

  /** The attribute value a page writes for an album's songs: their ids joined by
      commas. */
  function CurrentSongsAttr(ids: seq<int>): string
  {
    Join(PrintedIds(ids), ",")
  }

  /** Written from the album's song ids, the attribute reads back as those ids, so
      the picker preselects exactly the album's songs. */
  lemma CurrentSongsOfAttr(ids: seq<int>, song: MySong)
    requires |ids| > 0
    ensures CurrentSongs(Some(CurrentSongsAttr(ids))) == seq(|ids|, k requires 0 <= k < |ids| => Int(ids[k]))
    ensures SongOption(song, CurrentSongs(Some(CurrentSongsAttr(ids)))).selected <==> song.songId in ids
  {
    ReadAttr(ids);
    var current := CurrentSongs(Some(CurrentSongsAttr(ids)));
    if song.songId in ids {
      var k :| 0 <= k < |ids| && ids[k] == song.songId;
      assert current[k] == Int(song.songId);
    }
  }

  /** The attribute, split at its commas and read with `parseInt`, gives the ids. */
  lemma ReadAttr(ids: seq<int>)
    requires |ids| > 0
    ensures CurrentSongs(Some(CurrentSongsAttr(ids))) == seq(|ids|, k requires 0 <= k < |ids| => Int(ids[k]))
  {
    var printed := PrintedIds(ids);
    var attr := CurrentSongsAttr(ids);
    SplitPrintedIds(ids);
    assert attr != "" by {
      assert Split("", ',') == [""] && printed[0] != "";
    }
    assert CurrentSongs(Some(attr)) == ParseEach(printed);
    ParseEachOfPrinted(ids);
  }


  // ---------------------------------------------------------------------------
  // Submit

  /** The form's fields; `price` is the `parseFloat` of the price field and
      `songValues` the values of the selected options. */
  datatype AlbumFields = AlbumFields(
    title: string,
    price: JsNumber,
    description: string,
    cover: string,
    releaseDate: string,
    songValues: seq<string>)

  /** The JSON body. The song ids are not filtered: an unreadable value is sent as
      `NaN` (which `JSON.stringify` writes as `null`). */
  datatype EditAlbumPayload = EditAlbumPayload(
    title: string,
    price: JsNumber,
    description: Option<string>,
    cover: string,
    releaseDate: Option<string>,
    songs: seq<ParsedInt>)

  datatype SubmitResult = Incomplete | NoSongs | Send(payload: EditAlbumPayload)

  /** The required-field check: a trimmed title, a truthy price and a trimmed cover
      URL must all be present. */
  predicate RequiredPresent(f: AlbumFields)
  {
    Trim(f.title) != "" && f.price.Truthy() && Trim(f.cover) != ""
  }

  /** The submit handler up to the request. */
  function Submit(f: AlbumFields): (r: SubmitResult)
    ensures r == Incomplete <==> !RequiredPresent(f)
    ensures r == NoSongs <==> RequiredPresent(f) && |f.songValues| == 0
    ensures r.Send? ==>
              && r.payload.title == Trim(f.title) && r.payload.title != ""
              && r.payload.price == f.price && f.price.Truthy()
              && r.payload.description == TrimOrNull(f.description)
              && r.payload.cover == Trim(f.cover) && r.payload.cover != ""
              && r.payload.releaseDate == EmptyOrNull(f.releaseDate)
              && r.payload.songs == ParseEach(f.songValues) && |r.payload.songs| > 0
  {
    if !RequiredPresent(f) then Incomplete
    else if |f.songValues| == 0 then NoSongs
    else Send(EditAlbumPayload(Trim(f.title), f.price, TrimOrNull(f.description), Trim(f.cover),
                               EmptyOrNull(f.releaseDate), ParseEach(f.songValues)))
  }

  /** Song options written from integer ids are sent as exactly those ids, in the
      order they were selected. */
  lemma SubmitSendsChosenSongs(f: AlbumFields, ids: seq<int>)
    requires RequiredPresent(f) && |ids| > 0
    requires f.songValues == seq(|ids|, k requires 0 <= k < |ids| => IntToString(ids[k]))
    ensures Submit(f).Send?
    ensures Submit(f).payload.songs == seq(|ids|, k requires 0 <= k < |ids| => Int(ids[k]))
  {
    ParseEachOfPrinted(ids);
  }

  /** The check is truthiness, not positivity: a negative price goes through, while
      0 and an unreadable price are refused. */
  lemma PriceCheckIsTruthiness(f: AlbumFields)
    ensures Trim(f.title) != "" && Trim(f.cover) != "" && |f.songValues| > 0 && f.price == Finite(-1.0) ==>
              Submit(f).Send?
    ensures f.price == Finite(0.0) || f.price == JsNumber.NaN ==> Submit(f) == Incomplete
  {
  }

  /** What the edit request came back with: a thrown fetch or JSON read with its
      error message, or a status with the reply's `message` and `detail`. */
  datatype EditAlbumReply = Threw(error: string) | Reply(ok: bool, message: Option<string>, detail: Option<string>)

  datatype EditOutcome = Saved(url: string) | SaveFailed(message: string)

  /** A successful status moves to the studio; a failure shows `message`, else
      `detail`, else a fixed text; a thrown error shows its own message. */
  function FinishEdit(reply: EditAlbumReply): (o: EditOutcome)
    ensures o.Saved? <==> reply.Reply? && reply.ok
    ensures o.Saved? ==> o.url == "/artist/studio"
    ensures reply.Reply? && !reply.ok ==>
              o == SaveFailed(MessageOr(reply.message, MessageOr(reply.detail, "Error al actualizar el álbum")))
    ensures reply.Threw? ==> o == SaveFailed(MessageOr(Some(reply.error), "Error de conexión con el servidor"))
    ensures o.SaveFailed? ==> o.message != ""
  {
    match reply
    case Threw(error) => SaveFailed(MessageOr(Some(error), "Error de conexión con el servidor"))
    case Reply(ok, message, detail) =>
      if ok then Saved("/artist/studio")
      else
        // the thrown Error's message is shown by the same catch
        var thrown := MessageOr(message, MessageOr(detail, "Error al actualizar el álbum"));
        SaveFailed(MessageOr(Some(thrown), "Error de conexión con el servidor"))
  }

  /** The failure text comes from the reply in a fixed precedence: a non-empty
      `message` is shown whatever the `detail`, and a non-empty `detail` only when
      there is no `message`; a thrown error shows its own text when it has one. */
  lemma FailureTextPrecedence(message: string, d1: Option<string>, d2: Option<string>, detail: string, error: string)
    ensures message != "" ==>
              FinishEdit(Reply(false, Some(message), d1)) == FinishEdit(Reply(false, Some(message), d2))
              == SaveFailed(message)
    ensures detail != "" ==> FinishEdit(Reply(false, None, Some(detail))) == SaveFailed(detail)
    ensures FinishEdit(Reply(false, None, None)) == SaveFailed("Error al actualizar el álbum")
    ensures error != "" ==> FinishEdit(Threw(error)) == SaveFailed(error)
    ensures FinishEdit(Threw("")) == SaveFailed("Error de conexión con el servidor")
  {
  }
}

=== FILE: edit_song.dfy ===
/** The song edit form: the check that its elements exist, the required-field
    check, the JSON body of the `PATCH /song/{id}/edit` request with the optional
    new files, and the reading of the reply. */
module EditSong {
  import opened Wrappers
  import opened Text
  import opened Numbers
  import opened Forms

  /** Which of the form's elements the page contains. */
  datatype Elements = Elements(
    title: bool, price: bool, description: bool, releaseDate: bool, genres: bool, collaborators: bool)

  /** One of the form's elements. */
  datatype Element = TitleInput | PriceInput | DescriptionInput | ReleaseDateInput | GenresSelect | CollaboratorsSelect
  {
    /** How the error message names the element. */
    function Label(): string
    {
      match this
      case TitleInput => "Título"
      case PriceInput => "Precio"
      case DescriptionInput => "Descripción"
      case ReleaseDateInput => "Fecha de lanzamiento"
      case GenresSelect => "Géneros"
      case CollaboratorsSelect => "Colaboradores"
    }

    /** The element's place in the order the form checks them. */
    function Rank(): nat
    {
      match this
      case TitleInput => 0
      case PriceInput => 1
      case DescriptionInput => 2
      case ReleaseDateInput => 3
      case GenresSelect => 4
      case CollaboratorsSelect => 5
    }
  }

  function Present(e: Elements, x: Element): bool
  {
    match x
    case TitleInput => e.title
    case PriceInput => e.price
    case DescriptionInput => e.description
    case ReleaseDateInput => e.releaseDate
    case GenresSelect => e.genres
    case CollaboratorsSelect => e.collaborators
  }

  predicate AllPresent(e: Elements)
  {
    e.title && e.price && e.description && e.releaseDate && e.genres && e.collaborators
  }

  /** Each listed element is checked before the next one. */
  predicate Ascending(m: seq<Element>)
    decreases |m|
  {
    |m| <= 1 || (m[0].Rank() < m[1].Rank() && Ascending(m[1..]))
  }

  /** In an ascending list every element is checked before all later ones. */
  lemma {:induction false} AscendingOrdered(m: seq<Element>)
    requires Ascending(m)
    ensures forall a, b :: 0 <= a < b < |m| ==> m[a].Rank() < m[b].Rank()
    decreases |m|
  {
    if |m| > 1 {
      AscendingOrdered(m[1..]);
      forall a, b | 0 <= a < b < |m|
        ensures m[a].Rank() < m[b].Rank()
      {
        assert m[b] == m[1..][b - 1];
        if a > 0 {
          assert m[a] == m[1..][a - 1];
        } else if b > 1 {
          assert m[1] == m[1..][0];
        }
      }
    }
  }

  /** The elements in the order the form checks them. */
  const CheckOrder: seq<Element> := [TitleInput, PriceInput, DescriptionInput, ReleaseDateInput, GenresSelect, CollaboratorsSelect]

  /** Each element sits in the check order at its rank. */
  lemma RankInCheckOrder(x: Element)
    ensures x.Rank() < |CheckOrder| && CheckOrder[x.Rank()] == x
  {
  }

  /** The checks from rank `k` on: each absent element is listed, in check order. */
  function AbsentFrom(e: Elements, k: nat): (missing: seq<Element>)
    requires k <= |CheckOrder|
    ensures Ascending(missing) && |missing| <= |CheckOrder| - k
    ensures |missing| > 0 ==> k <= missing[0].Rank()
    ensures forall x :: x in missing <==> k <= x.Rank() && !Present(e, x)
    decreases |CheckOrder| - k
  {
    if k == |CheckOrder| then
      assert forall x: Element :: x.Rank() < k by {
        forall x: Element
          ensures x.Rank() < k
        {
          RankInCheckOrder(x);
        }
      }
      []
    else
      var x := CheckOrder[k];
      assert x.Rank() == k;
      var rest := AbsentFrom(e, k + 1);
      assert forall y: Element :: y.Rank() == k ==> y == x by {
        forall y: Element | y.Rank() == k
          ensures y == x
        {
          RankInCheckOrder(y);
        }
      }
      if Present(e, x) then rest
      else
        var missing := [x] + rest;
        assert missing[1..] == rest;
        missing
  }

  /** The `missingElements` list: every absent element, in the order they are
      checked. */
  function MissingElements(e: Elements): (missing: seq<Element>)
    ensures forall x :: x in missing <==> !Present(e, x)
    ensures |missing| == 0 <==> AllPresent(e)
    ensures |missing| <= 6
    ensures forall a, b :: 0 <= a < b < |missing| ==> missing[a].Rank() < missing[b].Rank()
  {
    AscendingOrdered(AbsentFrom(e, 0));
    NoneMissing(e);
    AbsentFrom(e, 0)
  }

  /** Nothing is listed exactly when every element is present. */
  lemma NoneMissing(e: Elements)
    ensures |AbsentFrom(e, 0)| == 0 <==> AllPresent(e)
  {
    var missing := AbsentFrom(e, 0);
    if !e.title { assert TitleInput in missing; }
    else if !e.price { assert PriceInput in missing; }
    else if !e.description { assert DescriptionInput in missing; }
    else if !e.releaseDate { assert ReleaseDateInput in missing; }
    else if !e.genres { assert GenresSelect in missing; }
    else if !e.collaborators { assert CollaboratorsSelect in missing; }
  }

  /** The field values once the elements exist; `price` is the `parseFloat` of
      `priceText`. */
  datatype SongFields = SongFields(
    title: string,
    priceText: string,
    price: JsNumber,
    description: string,
    releaseDate: string,
    genreValues: seq<string>,
    collaboratorValues: seq<string>)

  /** A required field that failed its check. */
  datatype Field = TitleField | PriceField | GenresField
  {
    /** How the error message names the field. */
    function Label(): string
    {
      match this
      case TitleField => "Título"
      case PriceField => "Precio (debe ser un número positivo)"
      case GenresField => "Géneros"
    }

    /** The field's place in the order the form checks them. */
    function Rank(): nat
    {
      match this
      case TitleField => 0
      case PriceField => 1
      case GenresField => 2
    }
  }

  /** A price is accepted when the field is not empty and parses to a number above 0. */
  predicate PriceAccepted(f: SongFields)
  {
    f.priceText != "" && f.price.Positive()
  }

  predicate TitleBlank(f: SongFields)
  {
    forall i :: 0 <= i < |f.title| ==> IsJsSpace(f.title[i])
  }

  /** The failing fields among title, price and genres, in that order. */
  function Failing(titleFails: bool, priceFails: bool, genresFail: bool): (missing: seq<Field>)
    ensures TitleField in missing <==> titleFails
    ensures PriceField in missing <==> priceFails
    ensures GenresField in missing <==> genresFail
    ensures |missing| == 0 <==> !titleFails && !priceFails && !genresFail
    ensures forall a, b :: 0 <= a < b < |missing| ==> missing[a].Rank() < missing[b].Rank()
  {
    (if titleFails then [TitleField] else [])
    + (if priceFails then [PriceField] else [])
    + (if genresFail then [GenresField] else [])
  }

  /** The `missingFields` list, given the genres already read from the
      multi-select: title, price and genres, each present when it fails. */
  function MissingFields(f: SongFields, genres: seq<int>): (missing: seq<Field>)
    ensures TitleField in missing <==> TitleBlank(f)
    ensures PriceField in missing <==> !PriceAccepted(f)
    ensures GenresField in missing <==> |genres| == 0
    ensures |missing| == 0 <==> !TitleBlank(f) && PriceAccepted(f) && |genres| > 0
    ensures forall a, b :: 0 <= a < b < |missing| ==> missing[a].Rank() < missing[b].Rank()
  {
    Failing(Trim(f.title) == "", f.priceText == "" || f.price.NaN? || !f.price.Positive(), |genres| == 0)
  }

  /** The JSON body; the file fields are absent (`None`) unless a new file was read
      to a non-empty string. */
  datatype EditPayload = EditPayload(
    title: string,
    price: JsNumber,
    description: Option<string>,
    releaseDate: Option<string>,
    genres: seq<int>,
    collaborators: seq<int>,
    audioFile: Option<string>,
    coverFile: Option<string>,
    coverExtension: Option<string>)

  datatype EditResult = ElementsMissing(elements: seq<Element>) | FieldsMissing(fields: seq<Field>) | Send(payload: EditPayload)

  /** `data.x = value` only when `value` is truthy. */
  function Attached(file: Option<File>): (data: Option<string>)
    ensures data.Some? <==> file.Some? && file.value.base64 != ""
    ensures data.Some? ==> data.value == file.value.base64
  {
    if file.Some? && file.value.base64 != "" then Some(file.value.base64) else None
  }

  /** The submit handler up to the request. */
  function Submit(elements: Elements, audio: Option<File>, cover: Option<File>, f: SongFields): (r: EditResult)
    ensures r.ElementsMissing? <==> !AllPresent(elements)
    ensures r.ElementsMissing? ==> r.elements == MissingElements(elements)
    ensures r.FieldsMissing? <==> AllPresent(elements) && |MissingFields(f, ParseIds(f.genreValues))| > 0
    ensures r.FieldsMissing? ==> r.fields == MissingFields(f, ParseIds(f.genreValues))
    ensures r.Send? ==>
              && !TitleBlank(f) && PriceAccepted(f) && |r.payload.genres| > 0
              && r.payload.title == Trim(f.title)
              && r.payload.price == f.price
              && r.payload.description == TrimOrNull(f.description)
              && r.payload.releaseDate == EmptyOrNull(f.releaseDate)
              && r.payload.genres == ParseIds(f.genreValues)
              && r.payload.collaborators == ParseIds(f.collaboratorValues)
              && r.payload.audioFile == Attached(audio)
              && r.payload.coverFile == Attached(cover)
              && (r.payload.coverExtension.Some? <==> r.payload.coverFile.Some?)
              && (r.payload.coverExtension.Some? ==> r.payload.coverExtension.value == ExtensionOf(cover.value.name))
  {
    if !AllPresent(elements) then ElementsMissing(MissingElements(elements))
    else
      var genres := ParseIds(f.genreValues);
      var missing := MissingFields(f, genres);
      if |missing| > 0 then FieldsMissing(missing)
      else
        var coverData := Attached(cover);
        Send(EditPayload(Trim(f.title), f.price, TrimOrNull(f.description), EmptyOrNull(f.releaseDate),
                         genres, ParseIds(f.collaboratorValues), Attached(audio), coverData,
                         if coverData.Some? then Some(ExtensionOf(cover.value.name)) else None))
  }

  /** Leaving both file inputs empty edits only the metadata: no file field is sent. */
  lemma MetadataOnlyEdit(elements: Elements, f: SongFields)
    ensures var r := Submit(elements, None, None, f);
            r.Send? ==> r.payload.audioFile.None? && r.payload.coverFile.None? && r.payload.coverExtension.None?
  {
  }

  /** The edit reply: `None` when it could not be read as JSON. */
  datatype EditReply = EditReply(ok: bool, message: Option<string>)

  datatype EditOutcome = Saved(message: string, url: string) | SaveFailed(message: string)

  /** A save counts only with a successful status and a non-empty `message`; the
      page then moves to the song's own page. */
  function FinishEdit(songId: string, reply: Option<EditReply>): (o: EditOutcome)
    ensures o.Saved? <==> reply.Some? && reply.value.ok && reply.value.message.Some? && reply.value.message.value != ""
    ensures o.Saved? ==> o == Saved(reply.value.message.value, "/song/" + songId)
    ensures reply.None? ==> o == SaveFailed("Error de conexión. Intenta de nuevo.")
    ensures reply.Some? && o.SaveFailed? ==> o.message == MessageOr(reply.value.message, "No se pudo actualizar la canción.")
  {
    match reply
    case None => SaveFailed("Error de conexión. Intenta de nuevo.")
    case Some(r) =>
      if r.message.Some? && r.message.value != "" && r.ok then Saved(MessageOr(r.message, "Canción actualizada exitosamente!"), "/song/" + songId)
      else SaveFailed(MessageOr(r.message, "No se pudo actualizar la canción."))
  }

  /** A saved edit moves to the page of the song it edited: `parseInt` of the path
      after `/song/` gives back a numeric song id. */
  lemma SavedLandsOnSong(id: int, reply: EditReply)
    requires reply.ok && reply.message.Some? && reply.message.value != ""
    ensures var o := FinishEdit(IntToString(id), Some(reply));
            o.Saved? && o.url[..6] == "/song/" && JsParseInt(o.url[6..]) == Int(id)
  {
    var o := FinishEdit(IntToString(id), Some(reply));
    assert o.url[6..] == IntToString(id) + "";
    JsParseIntOfIntToString(id, "");
  }
}

=== FILE: forms.dfy ===
/** Pieces shared by the upload and edit forms: optional text fields, chosen files,
    multi-select id lists and post-submit redirects. */
module Forms {
  import opened Wrappers
  import opened Text

  /** `value.trim() || null`. */
  function TrimOrNull(value: string): (r: Option<string>)
    ensures r.None? <==> forall i :: 0 <= i < |value| ==> IsJsSpace(value[i])
    ensures r.Some? ==> r.value == Trim(value) && |r.value| > 0
  {
    var t := Trim(value);
    if t == "" then None else Some(t)
  }

  /** `value || null`. */
  function EmptyOrNull(value: string): (r: Option<string>)
    ensures r.None? <==> value == ""
    ensures r.Some? ==> r.value == value
  {
    if value == "" then None else Some(value)
  }

  /** A file picked in a file input: its name and what the page's `fileToBase64`
      resolves to for it (the data URL's part after the comma, empty for an empty
      file). */
  datatype File = File(name: string, base64: string)

  /** `message || fallback` for an optional text field of a JSON reply. */
  function MessageOr(message: Option<string>, fallback: string): (shown: string)
    ensures message.Some? && message.value != "" ==> shown == message.value
    ensures message.None? || message.value == "" ==> shown == fallback
  {
    if message.Some? && message.value != "" then message.value else fallback
  }

  /** `.filter(id => !isNaN(id))` over parsed values. */
  function KeepNumbers(parsed: seq<ParsedInt>): (ids: seq<int>)
    ensures |ids| <= |parsed|
    ensures forall id :: id in ids ==> Int(id) in parsed
    ensures |ids| == 0 <==> forall k :: 0 <= k < |parsed| ==> parsed[k].NaN?
    ensures |parsed| == 1 ==> ids == (if parsed[0].Int? then [parsed[0].value] else [])
    decreases |parsed|
  {
    if |parsed| == 0 then []
    else
      var rest := KeepNumbers(parsed[1..]);
      assert forall id :: Int(id) in parsed[1..] ==> Int(id) in parsed;
      match parsed[0]
      case NaN => rest
      case Int(id) => [id] + rest
  }

  /** The filter distributes over concatenation; with the single-value case this
      keeps every number, in order, and drops exactly the `NaN`s. */
  lemma {:induction false} KeepNumbersAppend(a: seq<ParsedInt>, b: seq<ParsedInt>)
    ensures KeepNumbers(a + b) == KeepNumbers(a) + KeepNumbers(b)
    decreases |a|
  {
    if |a| > 0 {
      assert (a + b)[0] == a[0];
      assert (a + b)[1..] == a[1..] + b;
      KeepNumbersAppend(a[1..], b);
    } else {
      assert a + b == b;
    }
  }

  /** A list without `NaN` keeps all its numbers, in order. */
  lemma {:induction false} KeepNumbersAllInts(ids: seq<int>)
    ensures KeepNumbers(seq(|ids|, k requires 0 <= k < |ids| => Int(ids[k]))) == ids
    decreases |ids|
  {
    if |ids| > 0 {
      var parsed := seq(|ids|, k requires 0 <= k < |ids| => Int(ids[k]));
      assert parsed[1..] == seq(|ids[1..]|, k requires 0 <= k < |ids[1..]| => Int(ids[1..][k]));
      KeepNumbersAllInts(ids[1..]);
      assert ids == [ids[0]] + ids[1..];
    }
  }

  /** `parseInt` applied to each selected option's value. */
  function ParseEach(values: seq<string>): (parsed: seq<ParsedInt>)
    ensures |parsed| == |values|
    ensures forall k :: 0 <= k < |values| ==> parsed[k] == JsParseInt(values[k])
    decreases |values|
  {
    if |values| == 0 then [] else [JsParseInt(values[0])] + ParseEach(values[1..])
  }

  lemma {:induction false} ParseEachAppend(a: seq<string>, b: seq<string>)
    ensures ParseEach(a + b) == ParseEach(a) + ParseEach(b)
    decreases |a|
  {
    if |a| > 0 {
      assert (a + b)[0] == a[0];
      assert (a + b)[1..] == a[1..] + b;
      ParseEachAppend(a[1..], b);
    } else {
      assert a + b == b;
    }
  }

  /** `Array.from(select.selectedOptions).map(o => parseInt(o.value)).filter(id => !isNaN(id))`. */
  function ParseIds(values: seq<string>): (ids: seq<int>)
    ensures |ids| <= |values|
    ensures |ids| == 0 <==> forall k :: 0 <= k < |values| ==> JsParseInt(values[k]).NaN?
    ensures |values| == 1 ==> ids == (if JsParseInt(values[0]).Int? then [JsParseInt(values[0]).value] else [])
  {
    KeepNumbers(ParseEach(values))
  }

  /** Reading ids distributes over the selected options: the ids of two runs of
      options are those of the first followed by those of the second. */
  lemma ParseIdsAppend(a: seq<string>, b: seq<string>)
    ensures ParseIds(a + b) == ParseIds(a) + ParseIds(b)
  {
    ParseEachAppend(a, b);
    KeepNumbersAppend(ParseEach(a), ParseEach(b));
  }

  /** Option values written from integer ids parse back one by one to those ids. */
  lemma ParseEachOfPrinted(ids: seq<int>)
    ensures ParseEach(seq(|ids|, k requires 0 <= k < |ids| => IntToString(ids[k])))
            == seq(|ids|, k requires 0 <= k < |ids| => Int(ids[k]))
  {
    var values := seq(|ids|, k requires 0 <= k < |ids| => IntToString(ids[k]));
    forall k | 0 <= k < |ids|
      ensures JsParseInt(values[k]) == Int(ids[k])
    {
      JsParseIntOfIntToString(ids[k], "");
      assert IntToString(ids[k]) + "" == values[k];
    }
  }

  /** Option values written from integer ids read back as those ids, in order. */
  lemma ParseIdsOfPrinted(ids: seq<int>)
    ensures ParseIds(seq(|ids|, k requires 0 <= k < |ids| => IntToString(ids[k]))) == ids
  {
    ParseEachOfPrinted(ids);
    KeepNumbersAllInts(ids);
  }

  /** JavaScript truthiness of an id in a JSON response: absent, `null` and `0` are
      falsy. */
  function TruthyId(id: Option<int>): bool
  {
    id.Some? && id.value != 0
  }

  /** The page a successful upload moves to: the new item's page when the response
      names it, otherwise the artist studio. */
  function RedirectAfterUpload(kindPath: string, id: Option<int>): (url: string)
    ensures TruthyId(id) ==> url == kindPath + IntToString(id.value)
    ensures !TruthyId(id) ==> url == "/artist/studio"
  {
    if TruthyId(id) then kindPath + IntToString(id.value) else "/artist/studio"
  }

  /** The JSON reply of an upload endpoint: its `success` flag, `message`, and the
      new item's id. */
  datatype UploadReply = UploadReply(success: bool, message: Option<string>, newId: Option<int>)

  /** How an upload form ends: a success message and the page it moves to, or an
      error message with the button enabled again. */
  datatype UploadOutcome = Uploaded(message: string, url: string) | UploadFailed(message: string)

  /** The reply handling shared by the song and album upload forms. */
  function AfterUpload(kindPath: string, reply: UploadReply, done: string, failed: string): (o: UploadOutcome)
    ensures o.Uploaded? <==> reply.success
    ensures o.Uploaded? ==> o == Uploaded(MessageOr(reply.message, done), RedirectAfterUpload(kindPath, reply.newId))
    ensures o.UploadFailed? ==> o.message == MessageOr(reply.message, failed)
  {
    if reply.success then Uploaded(MessageOr(reply.message, done), RedirectAfterUpload(kindPath, reply.newId))
    else UploadFailed(MessageOr(reply.message, failed))
  }
}

=== FILE: giftcard.dfy ===
/** `POST /giftcard`: the checks on the request body, in the order the route makes
    them, and the formatting of the gift-card code into dash-separated groups of
    four characters. Reading the session and generating the UUID are inputs. */
module Giftcard {
  import opened Wrappers
  import opened Text
  import opened Numbers
  import opened Json

  // ---------------------------------------------------------------------------
  // Code grouping

  /** `[s[i:i+4] for i in range(0, len(s), 4)]`. */
  function Chunks(s: string): (parts: seq<string>)
    ensures |s| == 0 <==> |parts| == 0
    ensures forall k :: 0 <= k < |parts| ==> 1 <= |parts[k]| <= 4
    ensures forall k :: 0 <= k < |parts| - 1 ==> |parts[k]| == 4
    decreases |s|
  {
    if |s| == 0 then []
    else if |s| <= 4 then [s]
    else [s[..4]] + Chunks(s[4..])
  }

  /** The pieces written one after another. */
  function Concat(parts: seq<string>): string
    decreases |parts|
  {
    if |parts| == 0 then "" else parts[0] + Concat(parts[1..])
  }


  /** The chunks put back together give the input. */
  lemma {:induction false} ChunksConcat(s: string)
    ensures Concat(Chunks(s)) == s
    decreases |s|
  {
    if |s| > 4 {
      ChunksConcat(s[4..]);
      assert Chunks(s)[1..] == Chunks(s[4..]);
      assert s == s[..4] + s[4..];
    } else if |s| > 0 {
      assert Chunks(s)[1..] == [];
    }
  }

  /** Every character other than `-`, in order. */
  function RemoveDashes(s: string): (r: string)
    ensures '-' !in r
    decreases |s|
  {
    if |s| == 0 then ""
    else if s[0] == '-' then RemoveDashes(s[1..])
    else [s[0]] + RemoveDashes(s[1..])
  }

  lemma {:induction false} RemoveDashesAppend(a: string, b: string)
    ensures RemoveDashes(a + b) == RemoveDashes(a) + RemoveDashes(b)
    decreases |a|
  {
    if |a| > 0 {
      assert (a + b)[1..] == a[1..] + b;
      RemoveDashesAppend(a[1..], b);
    } else {
      assert a + b == b;
    }
  }

  lemma {:induction false} RemoveDashesNone(s: string)
    requires '-' !in s
    ensures RemoveDashes(s) == s
    decreases |s|
  {
    if |s| > 0 {
      RemoveDashesNone(s[1..]);
      assert s == [s[0]] + s[1..];
    }
  }

  /** One group and a dash, then the grouping of the rest. */
  lemma GroupStep(s: string)
    requires |s| > 4
    ensures Join(Chunks(s), "-") == s[..4] + "-" + Join(Chunks(s[4..]), "-")
  {
    var rest := s[4..];
    assert Chunks(s) == [s[..4]] + Chunks(rest);
    assert Chunks(s)[1..] == Chunks(rest);
    assert |Chunks(rest)| >= 1;
  }

  /** Joining the groups of four with dashes only inserts dashes: taking them out
      again gives back a dash-free input. */
  lemma {:induction false} UngroupCode(s: string)
    requires '-' !in s
    ensures RemoveDashes(Join(Chunks(s), "-")) == s
    decreases |s|
  {
    if |s| > 4 {
      var rest := s[4..];
      GroupStep(s);
      RemoveDashesAppend(s[..4] + "-", Join(Chunks(rest), "-"));
      RemoveDashesAppend(s[..4], "-");
      RemoveDashesNone(s[..4]);
      UngroupCode(rest);
      assert s == s[..4] + rest;
    } else if |s| > 0 {
      assert Join(Chunks(s), "-") == s;
      RemoveDashesNone(s);
    }
  }

  /** The grouping step: `'-'.join(chunks)`. It only inserts dashes: taking them
      out again gives back a dash-free input. */
  function GroupCode(s: string): (code: string)
    ensures '-' !in s ==> RemoveDashes(code) == s
  {
    if '-' !in s then UngroupCode(s); Join(Chunks(s), "-")
    else Join(Chunks(s), "-")
  }

  /** Sixteen characters make four groups of four separated by three dashes. */
  lemma GroupSixteen(s: string)
    requires |s| == 16
    ensures GroupCode(s) == s[..4] + "-" + s[4..8] + "-" + s[8..12] + "-" + s[12..]
    ensures |GroupCode(s)| == 19
  {
    var t1 := s[4..];
    var t2 := t1[4..];
    var t3 := t2[4..];
    GroupStep(s);
    GroupStep(t1);
    GroupStep(t2);
    assert GroupCode(t3) == t3;
    assert t1[..4] == s[4..8] && t2[..4] == s[8..12] && t3 == s[12..];
  }

  // ---------------------------------------------------------------------------
  // Code from a UUID

  predicate IsLowerHex(c: char) { '0' <= c <= '9' || 'a' <= c <= 'f' }
  predicate IsUpperHex(c: char) { '0' <= c <= '9' || 'A' <= c <= 'F' }

  /** The 32 hexadecimal digits of a random UUID, as `uuid.hex` spells them. */
  predicate UuidDigits(hex: string)
  {
    |hex| == 32 && forall i :: 0 <= i < 32 ==> IsLowerHex(hex[i])
  }

  /** `str(uuid)`: the digits in groups of 8, 4, 4, 4 and 12 separated by dashes
      (the textual layout of RFC 4122, section 3). */
  function UuidText(hex: string): (text: string)
    requires |hex| == 32
    ensures |text| == 36 && text[8] == '-' && text[13] == '-'
    ensures text[..8] == hex[..8] && text[9..13] == hex[8..12] && text[14..16] == hex[12..14]
  {
    var text := hex[..8] + "-" + hex[8..12] + "-" + hex[12..16] + "-" + hex[16..20] + "-" + hex[20..];
    assert text[14..16] == hex[12..14] by {
      assert forall i :: 14 <= i < 16 ==> text[i] == hex[i - 2];
    }
    text
  }

  /** The shape the route's own comment gives the code: `XXXX-XXXX-XXXX-XXXX` with
      upper-case hexadecimal digits. */
  predicate CodeShape(code: string)
  {
    |code| == 19 && forall i :: 0 <= i < 19 ==> (if i % 5 == 4 then code[i] == '-' else IsUpperHex(code[i]))
  }

  /** The code as the route builds it: the first 16 characters of the upper-cased
      `str(uuid4())`, grouped by four. Those 16 characters include two of the UUID's
      own dashes. */
  function CodeAsWritten(hex: string): (code: string)
    requires |hex| == 32
    ensures |code| == 19 && code[9..11] == "--" && !CodeShape(code)
  {
    var head := Upper(UuidText(hex))[..16];
    GroupSixteen(head);
    assert head[8] == '-';
    var code := GroupCode(head);
    assert code[9] == '-' && code[10] == head[8];
    assert !IsUpperHex(code[10]);
    code
  }

  /** The code built as written never has the promised shape: its third group
      starts with the UUID's first dash, so the code holds `--`. */
  lemma CodeAsWrittenMisshapen(hex: string)
    requires UuidDigits(hex)
    ensures |CodeAsWritten(hex)| == 19
    ensures CodeAsWritten(hex)[9..11] == "--"
    ensures !CodeShape(CodeAsWritten(hex))
  {
  }

  /** The code built from the UUID's digits alone (`uuid4().hex`): 16 upper-case
      digits grouped by four. */
  function Code(hex: string): (code: string)
    requires UuidDigits(hex)
    ensures CodeShape(code)
    ensures RemoveDashes(code) == Upper(hex)[..16]
  {
    var head := Upper(hex)[..16];
    assert forall i :: 0 <= i < 16 ==> IsUpperHex(head[i]);
    GroupedShape(head);
    assert '-' !in head by {
      assert forall i :: 0 <= i < 16 ==> head[i] != '-';
    }
    UngroupCode(head);
    GroupCode(head)
  }

  /** Sixteen upper-case hex digits in groups of four have the shape of a code. */
  lemma GroupedShape(head: string)
    requires |head| == 16 && forall i :: 0 <= i < 16 ==> IsUpperHex(head[i])
    ensures CodeShape(GroupCode(head))
  {
    GroupSixteen(head);
    var code := GroupCode(head);
    var flat := head[..4] + "-" + head[4..8] + "-" + head[8..12] + "-" + head[12..];
    assert code == flat;
    forall i | 0 <= i < 19
      ensures if i % 5 == 4 then flat[i] == '-' else IsUpperHex(flat[i])
    {
      if i % 5 != 4 {
        assert flat[i] == head[i - i / 5];
      }
    }
  }

  // ---------------------------------------------------------------------------
  // Body checks

  /** `isinstance(amount, (int, float))`; a `bool` is an `int` in Python. */
  predicate IsNumber(v: JsonValue)
  {
    v.BoolValue? || v.IntValue? || v.FloatValue?
  }

  /** `amount < 5 or amount > 500` for a number; every comparison with `NaN` is
      false. */
  predicate OutOfRange(v: JsonValue)
    requires IsNumber(v)
  {
    match v
    case BoolValue(b) => true
    case IntValue(i) => i < 5 || i > 500
    case FloatValue(x) =>
      match x
      case NaN => false
      case PosInf => true
      case NegInf => true
      case Finite(r) => r < 5.0 || r > 500.0
  }

  /** The `message` member: absent (read as `''`), `null`, or text. */
  datatype MessageField = Absent | MessageNull | MessageText(text: string)

  /** The request body; `email` is `None` when the member is absent or `null`. */
  datatype GiftBody = GiftBody(amount: JsonValue, email: Option<string>, message: MessageField)

  datatype GiftReply = GiftRejected(status: int, error: string) | GiftIssued(code: string, amount: JsonValue, email: string)

  const MaxMessage := 200

  /** The amount check of the route: a truthy number within 5..500, where every
      comparison with `NaN` is false. */
  predicate AmountPasses(v: JsonValue)
  {
    Truthy(v) && IsNumber(v) && !OutOfRange(v)
  }

  /** `recipient_email` is truthy and contains `@`. */
  predicate EmailPasses(b: GiftBody)
  {
    b.email.Some? && '@' in b.email.value
  }

  /** `len(message) <= 200` can be evaluated and holds. */
  predicate MessagePasses(b: GiftBody)
  {
    b.message.Absent? || (b.message.MessageText? && |b.message.text| <= MaxMessage)
  }

  /** A `NaN` float: `json.loads` reads the bare token `NaN`. */
  predicate IsNaN(v: JsonValue)
  {
    v.FloatValue? && v.x.NaN?
  }

  /** The route as written: 401 without a session; 500 for an unreadable body; then
      400 for the amount, its range, the e-mail and the message length, in that
      order; 500 when measuring a `null` message throws. The success reply echoes
      the amount, and rendering a `NaN` in it throws inside the `try`, so that case
      ends in the same 500; otherwise the code. */
  function PurchaseAsWritten(signedIn: bool, body: Option<GiftBody>, hex: string): (r: GiftReply)
    requires |hex| == 32
    ensures !signedIn <==> r == GiftRejected(401, "No autenticado")
    ensures signedIn && body.None? ==> r == GiftRejected(500, "Error al procesar la compra")
    ensures signedIn && body.Some? && (!Truthy(body.value.amount) || !IsNumber(body.value.amount)) ==>
              r == GiftRejected(400, "Monto inválido")
    ensures signedIn && body.Some? && Truthy(body.value.amount) && IsNumber(body.value.amount)
              && OutOfRange(body.value.amount) ==>
              r == GiftRejected(400, "El monto debe estar entre €5 y €500")
    ensures signedIn && body.Some? && AmountPasses(body.value.amount) && !EmailPasses(body.value) ==>
              r == GiftRejected(400, "Email inválido")
    ensures signedIn && body.Some? && AmountPasses(body.value.amount) && EmailPasses(body.value)
              && body.value.message.MessageText? && |body.value.message.text| > MaxMessage ==>
              r == GiftRejected(400, "El mensaje es demasiado largo")
    ensures signedIn && body.Some? && AmountPasses(body.value.amount) && EmailPasses(body.value)
              && body.value.message.MessageNull? ==>
              r == GiftRejected(500, "Error al procesar la compra")
    ensures signedIn && body.Some? && AmountPasses(body.value.amount) && EmailPasses(body.value)
              && MessagePasses(body.value) ==>
              r == (if IsNaN(body.value.amount) then GiftRejected(500, "Error al procesar la compra")
                    else GiftIssued(CodeAsWritten(hex), body.value.amount, body.value.email.value))
  {
    if !signedIn then GiftRejected(401, "No autenticado")
    else match body
      case None => GiftRejected(500, "Error al procesar la compra")
      case Some(b) =>
        if !Truthy(b.amount) || !IsNumber(b.amount) then GiftRejected(400, "Monto inválido")
        else if OutOfRange(b.amount) then GiftRejected(400, "El monto debe estar entre €5 y €500")
        else if b.email.None? || b.email.value == "" || '@' !in b.email.value then GiftRejected(400, "Email inválido")
        else match b.message
          case MessageNull => GiftRejected(500, "Error al procesar la compra")
          case Absent => IssuedReply(CodeAsWritten(hex), b.amount, b.email.value)
          case MessageText(m) =>
            if |m| > MaxMessage then GiftRejected(400, "El mensaje es demasiado largo")
            else IssuedReply(CodeAsWritten(hex), b.amount, b.email.value)
  }

  /** The success `JSONResponse`: its body is rendered with `NaN` disallowed, so a
      `NaN` amount raises there and the route's `except` answers 500. */
  function IssuedReply(code: string, amount: JsonValue, email: string): (r: GiftReply)
    ensures r.GiftIssued? <==> !IsNaN(amount)
    ensures r.GiftIssued? ==> r == GiftIssued(code, amount, email)
    ensures r.GiftRejected? ==> r == GiftRejected(500, "Error al procesar la compra")
  {
    if IsNaN(amount) then GiftRejected(500, "Error al procesar la compra") else GiftIssued(code, amount, email)
  }

  /** A `NaN` amount is truthy, a `float`, and fails both range comparisons, so it
      passes the amount checks; the request then ends in the generic 500 of the
      failed success reply, where the range refusal is intended. */
  lemma NaNAmountServerError(hex: string)
    requires |hex| == 32
    ensures AmountPasses(FloatValue(JsNumber.NaN))
    ensures PurchaseAsWritten(true, Some(GiftBody(FloatValue(JsNumber.NaN), Some("a@b"), Absent)), hex)
            == GiftRejected(500, "Error al procesar la compra")
  {
    assert '@' in "a@b";
  }

  /** The intended amount check: a finite number from 5 to 500. */
  predicate AmountAccepted(v: JsonValue)
  {
    match v
    case IntValue(i) => 5 <= i <= 500
    case FloatValue(x) => x.Finite? && 5.0 <= x.value <= 500.0
    case _ => false
  }

  /** The route with the amount check closed against `NaN` and with the code built
      from the UUID's digits. */
  function Purchase(signedIn: bool, body: Option<GiftBody>, hex: string): (r: GiftReply)
    requires UuidDigits(hex)
    ensures !signedIn <==> r == GiftRejected(401, "No autenticado")
    ensures signedIn && body.None? ==> r == GiftRejected(500, "Error al procesar la compra")
    ensures signedIn && body.Some? && (!Truthy(body.value.amount) || !IsNumber(body.value.amount)) ==>
              r == GiftRejected(400, "Monto inválido")
    ensures signedIn && body.Some? && Truthy(body.value.amount) && IsNumber(body.value.amount)
              && !AmountAccepted(body.value.amount) ==>
              r == GiftRejected(400, "El monto debe estar entre €5 y €500")
    ensures signedIn && body.Some? && AmountAccepted(body.value.amount) && !EmailPasses(body.value) ==>
              r == GiftRejected(400, "Email inválido")
    ensures signedIn && body.Some? && AmountAccepted(body.value.amount) && EmailPasses(body.value)
              && body.value.message.MessageText? && |body.value.message.text| > MaxMessage ==>
              r == GiftRejected(400, "El mensaje es demasiado largo")
    ensures signedIn && body.Some? && AmountAccepted(body.value.amount) && EmailPasses(body.value)
              && body.value.message.MessageNull? ==>
              r == GiftRejected(500, "Error al procesar la compra")
    ensures r.GiftIssued? <==>
              signedIn && body.Some? && AmountAccepted(body.value.amount)
              && EmailPasses(body.value) && MessagePasses(body.value)
    ensures r.GiftIssued? ==> CodeShape(r.code) && r.amount == body.value.amount && r.email == body.value.email.value
  {
    if !signedIn then GiftRejected(401, "No autenticado")
    else match body
      case None => GiftRejected(500, "Error al procesar la compra")
      case Some(b) =>
        if !Truthy(b.amount) || !IsNumber(b.amount) then GiftRejected(400, "Monto inválido")
        else if OutOfRange(b.amount) || (b.amount.FloatValue? && b.amount.x.NaN?) then
          GiftRejected(400, "El monto debe estar entre €5 y €500")
        else if b.email.None? || b.email.value == "" || '@' !in b.email.value then GiftRejected(400, "Email inválido")
        else match b.message
          case MessageNull => GiftRejected(500, "Error al procesar la compra")
          case Absent => GiftIssued(Code(hex), b.amount, b.email.value)
          case MessageText(m) =>
            if |m| > MaxMessage then GiftRejected(400, "El mensaje es demasiado largo")
            else GiftIssued(Code(hex), b.amount, b.email.value)
  }

  /** The two routes refuse the same requests. Apart from `NaN` amounts they refuse
      with the same status and text; a `NaN` amount that passes the later checks
      gets the range refusal from the corrected route and the generic 500 from the
      route as written. */
  lemma PurchaseAgrees(signedIn: bool, body: Option<GiftBody>, hex: string)
    requires UuidDigits(hex)
    ensures Purchase(signedIn, body, hex).GiftRejected? <==> PurchaseAsWritten(signedIn, body, hex).GiftRejected?
    ensures !(body.Some? && IsNaN(body.value.amount)) && Purchase(signedIn, body, hex).GiftRejected? ==>
              Purchase(signedIn, body, hex) == PurchaseAsWritten(signedIn, body, hex)
    ensures signedIn && body.Some? && IsNaN(body.value.amount) && EmailPasses(body.value) && MessagePasses(body.value) ==>
              && Purchase(signedIn, body, hex) == GiftRejected(400, "El monto debe estar entre €5 y €500")
              && PurchaseAsWritten(signedIn, body, hex) == GiftRejected(500, "Error al procesar la compra")
  {
  }
}

=== FILE: http.dfy ===
/** HTTP status classes as the scripts test them. */
module Http {
  /** `response.ok`: a status in the 2xx range. */
  predicate Ok(status: int)
  {
    200 <= status <= 299
  }
}

=== FILE: js_array.dfy ===
/** The JavaScript array methods the page scripts rely on, on sequences: where a
    `slice` or `splice` index lands, removing one element and inserting one. */
module JsArray {

  /** Where a `slice`/`splice` index lands in an array of `len` elements: a negative
      index counts back from the end, and the result is clamped to [0, len]. */
  function SliceBound(x: int, len: nat): (b: nat)
    ensures b <= len
    ensures 0 <= x <= len ==> b == x
    ensures x > len ==> b == len
    ensures x < 0 ==> b == (if len + x < 0 then 0 else len + x)
  {
    if x < 0 then (if len + x < 0 then 0 else len + x)
    else if x > len then len
    else x
  }

  /** `a.slice(0, end)`. */
  function SlicePrefix<T>(a: seq<T>, end: int): (r: seq<T>)
    ensures |r| <= |a| && r == a[..|r|]
    ensures 0 <= end <= |a| ==> |r| == end
  {
    a[..SliceBound(end, |a|)]
  }

  /** `a.splice(i, 1)` applied to `a`: the element at the landing index, if any, is
      dropped. */
  function RemoveAt<T>(a: seq<T>, i: int): (r: seq<T>)
    ensures var k := SliceBound(i, |a|);
            && (k < |a| ==> |r| == |a| - 1 && r[..k] == a[..k] && r[k..] == a[k + 1..])
            && (k == |a| ==> r == a)
  {
    var k := SliceBound(i, |a|);
    if k < |a| then a[..k] + a[k + 1..] else a
  }

  /** `a.splice(i, 0, x)` applied to `a`: `x` goes in at the landing index. */
  function InsertAt<T>(a: seq<T>, i: int, x: T): (r: seq<T>)
    ensures var k := SliceBound(i, |a|);
            |r| == |a| + 1 && r[k] == x && r[..k] == a[..k] && r[k + 1..] == a[k..]
  {
    var k := SliceBound(i, |a|);
    a[..k] + [x] + a[k..]
  }

  /** Removing at a valid index drops exactly one occurrence of that element. */
  lemma RemoveAtMultiset<T>(a: seq<T>, i: int)
    requires 0 <= i < |a|
    ensures multiset(RemoveAt(a, i)) + multiset{a[i]} == multiset(a)
  {
    assert a == a[..i] + [a[i]] + a[i + 1..];
  }

  /** Inserting and then removing at the same valid index gives the array back. */
  lemma RemoveAfterInsert<T>(a: seq<T>, i: int, x: T)
    requires 0 <= i <= |a|
    ensures RemoveAt(InsertAt(a, i, x), i) == a
  {
    var b := InsertAt(a, i, x);
    assert b[..i] == a[..i] && b[i + 1..] == a[i..];
  }

  /** Removing at a valid index and putting the element back there gives the array
      back. */
  lemma InsertAfterRemove<T>(a: seq<T>, i: int)
    requires 0 <= i < |a|
    ensures InsertAt(RemoveAt(a, i), i, a[i]) == a
  {
    var b := RemoveAt(a, i);
    assert b[..i] == a[..i] && b[i..] == a[i + 1..];
  }
}

=== FILE: json.dfy ===
/** JSON values as the Python controller receives them from `request.json()`. */
module Json {
  import opened Numbers

  /** A decoded JSON value; `FloatValue` holds a double, which Python's decoder also
      produces for `NaN` and `Infinity`, and `Other` an array or object with its
      truthiness. */
  datatype JsonValue = Null | BoolValue(b: bool) | IntValue(i: int) | FloatValue(x: JsNumber) | TextValue(s: string) | Other(truthy: bool)

  /** Python truthiness; unlike JavaScript, Python counts `NaN` as true. */
  function Truthy(v: JsonValue): bool
  {
    match v
    case Null => false
    case BoolValue(b) => b
    case IntValue(i) => i != 0
    case FloatValue(x) => !(x.Finite? && x.value == 0.0)
    case TextValue(s) => s != ""
    case Other(t) => t
  }
}

=== FILE: numbers.dfy ===
/** JavaScript numbers as the scripts see them: finite values (as exact reals), `NaN`
    and the two infinities. Comparisons, truthiness, `Math.min`/`Math.max` and
    `Math.floor` are exact on doubles; the seek sums and differences of the player are
    computed on exact reals here, without the rounding of IEEE doubles. */
module Numbers {

  datatype JsNumber = NaN | PosInf | NegInf | Finite(value: real)
  {
    /** `isFinite(x)`. */
    predicate IsFinite() { Finite? }

    /** JavaScript truthiness of a number: everything except `0` and `NaN`. */
    predicate Truthy() { !NaN? && !(Finite? && value == 0.0) }

    /** `x > 0`: false for `NaN`. */
    predicate Positive() { PosInf? || (Finite? && value > 0.0) }
  }

  function Min(a: real, b: real): real { if a <= b then a else b }

  function Max(a: real, b: real): real { if a >= b then a else b }

  /** `Math.max(0, Math.min(1, x))` for a number that is not `NaN`. */
  function Clamp01(x: JsNumber): (r: real)
    requires !x.NaN?
    ensures 0.0 <= r <= 1.0
    ensures x.Finite? && 0.0 <= x.value <= 1.0 ==> r == x.value
    ensures x.Finite? && x.value < 0.0 ==> r == 0.0
    ensures x.Finite? && x.value > 1.0 ==> r == 1.0
    ensures x.PosInf? ==> r == 1.0
    ensures x.NegInf? ==> r == 0.0
  {
    match x
    case PosInf => 1.0
    case NegInf => 0.0
    case Finite(v) => Max(0.0, Min(1.0, v))
  }
}

=== FILE: player.dfy ===
/** The mini audio player: its play queue (a browser-history-like list of played
    tracks), the abort/revoke bookkeeping of track loads, seeking, the volume control,
    the time display and cover-URL resolution. The network fetches, the media element
    and the DOM are left out; what they would observe is passed in as plain values. */
module Player {
  import opened Wrappers
  import opened Text
  import opened Numbers
  import opened JsArray
  import Clock

  /** One played track as remembered by the queue. */
  datatype QueueEntry = QueueEntry(
    trackId: string,
    songId: Option<string>,
    artistId: Option<string>,
    title: Option<string>,
    artistName: Option<string>,
    cover: Option<string>)

  /** The `options` argument of `playTrack`. */
  datatype PlayOptions = PlayOptions(
    addToQueue: bool,
    title: Option<string>,
    artist: Option<string>,
    cover: Option<string>)

  const DefaultOptions := PlayOptions(true, None, None, None)

  /** The player's state record. `pendingFetch` names the abort controller of the
      in-flight request; `nextController` is the name the next one will get. */
  datatype PlayerState = PlayerState(
    currentTrackId: Option<string>,
    currentSongId: Option<string>,
    currentArtistId: Option<string>,
    isLoading: bool,
    visible: bool,
    queue: seq<QueueEntry>,
    queueIndex: int,
    pendingFetch: Option<nat>,
    nextController: nat,
    objectUrl: Option<nat>)

  const Initial := PlayerState(None, None, None, false, false, [], -1, None, 0, None)

  /** `x || null` for an optional string: the empty string is falsy. */
  function OrNull(x: Option<string>): (r: Option<string>)
    ensures r.Some? <==> x.Some? && x.value != ""
    ensures r.Some? ==> r == x
  {
    if x.Some? && x.value != "" then x else None
  }

  // ---------------------------------------------------------------------------
  // Queue

  /** No two neighbouring entries play the same track. */
  ghost predicate NoAdjacentDuplicates(q: seq<QueueEntry>)
  {
    forall k :: 0 < k < |q| ==> q[k - 1].trackId != q[k].trackId
  }

  /** The queue invariants: the index points into the queue, it is -1 exactly when
      the queue is empty, neighbours differ, and every entry has a track id. */
  ghost predicate Valid(s: PlayerState)
  {
    && -1 <= s.queueIndex < |s.queue|
    && (s.queueIndex == -1 <==> |s.queue| == 0)
    && NoAdjacentDuplicates(s.queue)
    && (forall k :: 0 <= k < |s.queue| ==> s.queue[k].trackId != "")
  }

  lemma InitialValid()
    ensures Valid(Initial)
  {
  }

  /** The queue update of `playTrack` with `addToQueue`: forward history past the
      index is dropped, then the entry is appended unless the last entry already
      plays the same track; the index moves to the end either way. */
  function Enqueue(q: seq<QueueEntry>, index: int, e: QueueEntry): (r: (seq<QueueEntry>, int))
    ensures var kept := if index < |q| - 1 then SlicePrefix(q, index + 1) else q;
            && (|kept| > 0 && kept[|kept| - 1].trackId == e.trackId ==> r.0 == kept)
            && (|kept| == 0 || kept[|kept| - 1].trackId != e.trackId ==> r.0 == kept + [e])
    ensures r.1 == |r.0| - 1 && |r.0| >= 1
    ensures r.0[|r.0| - 1].trackId == e.trackId
  {
    var kept := if index < |q| - 1 then SlicePrefix(q, index + 1) else q;
    if |kept| == 0 || kept[|kept| - 1].trackId != e.trackId then
      (kept + [e], |kept|)
    else
      (kept, |kept| - 1)
  }

  /** `playTrack(trackId, songId, artistId, options)` up to the moment its request is
      issued: a falsy track id changes nothing; otherwise the current ids are set, the
      player shows as loading, the queue is updated when `addToQueue` holds, and the
      previous request's abort controller is replaced by a fresh one. */
  function PlayTrack(s: PlayerState, trackId: Option<string>, songId: Option<string>,
                     artistId: Option<string>, opts: PlayOptions): (r: PlayerState)
    ensures OrNull(trackId).None? ==> r == s
    ensures OrNull(trackId).Some? ==>
              && r.currentTrackId == trackId
              && r.currentSongId == OrNull(songId)
              && r.currentArtistId == OrNull(artistId)
              && r.isLoading && r.visible
              && r.pendingFetch == Some(s.nextController)
              && r.nextController == s.nextController + 1
              && r.objectUrl == s.objectUrl
    ensures OrNull(trackId).Some? && !opts.addToQueue ==>
              r.queue == s.queue && r.queueIndex == s.queueIndex
    ensures OrNull(trackId).Some? && opts.addToQueue ==>
              && |r.queue| >= 1 && r.queueIndex == |r.queue| - 1
              && r.queue[|r.queue| - 1].trackId == trackId.value
    ensures Valid(s) && OrNull(trackId).Some? && opts.addToQueue ==>
              var kept := s.queue[..s.queueIndex + 1];
              && (|kept| > 0 && kept[|kept| - 1].trackId == trackId.value ==> r.queue == kept)
              && (|kept| == 0 || kept[|kept| - 1].trackId != trackId.value ==>
                    r.queue == kept + [r.queue[|r.queue| - 1]])
    ensures Valid(s) && OrNull(trackId).Some? && opts.addToQueue ==>
              var kept := s.queue[..s.queueIndex + 1];
              |kept| == 0 || kept[|kept| - 1].trackId != trackId.value ==>
                r.queue == kept + [QueueEntry(trackId.value, OrNull(songId), OrNull(artistId),
                                              OrNull(opts.title), OrNull(opts.artist), OrNull(opts.cover))]
    ensures Valid(s) ==> Valid(r)
  {
    if OrNull(trackId).None? then s
    else
      var id := trackId.value;
      var (queue, index) :=
        if opts.addToQueue then
          Enqueue(s.queue, s.queueIndex,
                  QueueEntry(id, OrNull(songId), OrNull(artistId),
                             OrNull(opts.title), OrNull(opts.artist), OrNull(opts.cover)))
        else (s.queue, s.queueIndex);
      var r := PlayerState(trackId, OrNull(songId), OrNull(artistId), true, true,
                           queue, index, Some(s.nextController), s.nextController + 1,
                           s.objectUrl);
      assert Valid(s) && opts.addToQueue ==> Valid(r) by {
        if Valid(s) && opts.addToQueue {
          EnqueueKeepsValid(s.queue, s.queueIndex,
                            QueueEntry(id, OrNull(songId), OrNull(artistId),
                                       OrNull(opts.title), OrNull(opts.artist), OrNull(opts.cover)));
        }
      }
      r
  }

  /** On a valid queue, the entries `Enqueue` keeps are those up to the index, and
      the queue it gives is valid again. */
  lemma EnqueueKeepsValid(q: seq<QueueEntry>, index: int, e: QueueEntry)
    requires -1 <= index < |q| && (index == -1 <==> |q| == 0)
    requires NoAdjacentDuplicates(q) && forall k :: 0 <= k < |q| ==> q[k].trackId != ""
    requires e.trackId != ""
    ensures (if index < |q| - 1 then SlicePrefix(q, index + 1) else q) == q[..index + 1]
    ensures var r := Enqueue(q, index, e);
            && -1 <= r.1 < |r.0| && NoAdjacentDuplicates(r.0)
            && forall k :: 0 <= k < |r.0| ==> r.0[k].trackId != ""
  {
    assert q[..|q|] == q;
  }

  /** `playQueueIndex(i)`: out of range it does nothing; otherwise the index moves to
      `i` and entry `i` is played again without touching the queue. */
  function PlayQueueIndex(s: PlayerState, i: int): (r: PlayerState)
    ensures !(0 <= i < |s.queue|) ==> r == s
    ensures 0 <= i < |s.queue| ==> r.queue == s.queue && r.queueIndex == i
    ensures Valid(s) && 0 <= i < |s.queue| ==>
              r.currentTrackId == Some(s.queue[i].trackId) && r.isLoading
    ensures Valid(s) ==> Valid(r)
  {
    if i < 0 || i >= |s.queue| then s
    else
      var e := s.queue[i];
      PlayTrack(s.(queueIndex := i), Some(e.trackId), e.songId, e.artistId,
                PlayOptions(false, e.title, e.artistName, e.cover))
  }

  /** `nextInQueue`: moves forward only when there is a later entry. */
  function NextInQueue(s: PlayerState): (r: PlayerState)
    ensures s.queueIndex < |s.queue| - 1 ==> r == PlayQueueIndex(s, s.queueIndex + 1)
    ensures s.queueIndex >= |s.queue| - 1 ==> r == s
    ensures r.queue == s.queue
    ensures Valid(s) ==> Valid(r)
  {
    if s.queueIndex < |s.queue| - 1 then PlayQueueIndex(s, s.queueIndex + 1) else s
  }

  /** `prevInQueue`: moves back only when there is an earlier entry. */
  function PrevInQueue(s: PlayerState): (r: PlayerState)
    ensures s.queueIndex > 0 ==> r == PlayQueueIndex(s, s.queueIndex - 1)
    ensures s.queueIndex <= 0 ==> r == s
    ensures r.queue == s.queue
    ensures Valid(s) ==> Valid(r)
  {
    if s.queueIndex > 0 then PlayQueueIndex(s, s.queueIndex - 1) else s
  }

  function TrackIds(q: seq<QueueEntry>): seq<string>
  {
    seq(|q|, k requires 0 <= k < |q| => q[k].trackId)
  }

  /** A track clicked on a page: `playTrack(id)` with the default options. An empty
      id is ignored; otherwise the track becomes current and ends the queue. */
  function Play(s: PlayerState, id: string): (r: PlayerState)
    ensures id == "" ==> r == s
    ensures id != "" ==> && r.currentTrackId == Some(id)
                         && 0 <= r.queueIndex == |r.queue| - 1 && r.queue[r.queueIndex].trackId == id
    ensures Valid(s) ==> Valid(r)
  {
    PlayTrack(s, Some(id), None, None, DefaultOptions)
  }

  /** Browser-history behaviour: after playing A, B, C, stepping back to B and
      playing D, the queue is A, B, D (C is discarded) and the index is on D. */
  lemma HistoryTruncation(a: string, b: string, c: string, d: string)
    requires a != "" && b != "" && c != "" && d != ""
    requires a != b && b != c && b != d
    ensures var s := Play(PrevInQueue(Play(Play(Play(Initial, a), b), c)), d);
            TrackIds(s.queue) == [a, b, d] && s.queueIndex == 2
  {
    var s1 := Play(Initial, a);
    PlayKeepsHistory(Initial, a);
    var s2 := Play(s1, b);
    PlayKeepsHistory(s1, b);
    var s3 := Play(s2, c);
    PlayKeepsHistory(s2, c);
    assert s3.queue[..2] == s2.queue;
    var s4 := PrevInQueue(s3);
    assert s4.queueIndex == 1 && s4.queue == s3.queue;
    PlayKeepsHistory(s4, d);
  }

  /** Playing a track other than the current one keeps the history up to the
      current entry and appends the new one after it. */
  lemma PlayKeepsHistory(s: PlayerState, id: string)
    requires Valid(s) && id != ""
    requires s.queueIndex == -1 || s.queue[s.queueIndex].trackId != id
    ensures Play(s, id).queue == s.queue[..s.queueIndex + 1] + [QueueEntry(id, None, None, None, None, None)]
    ensures Play(s, id).queueIndex == s.queueIndex + 1
    ensures Valid(Play(s, id))
  {
  }


  /** No script calls the queue navigation, so from the initial state only
      `playTrack` moves the index: it starts on the last entry (-1 for the empty
      queue) and stays there, and the history slice never drops an entry. */
  lemma PlayTrackAtEndNeverTruncates(s: PlayerState, trackId: Option<string>, songId: Option<string>,
                                     artistId: Option<string>, opts: PlayOptions)
    requires Valid(s) && s.queueIndex == |s.queue| - 1
    ensures var r := PlayTrack(s, trackId, songId, artistId, opts);
            && r.queueIndex == |r.queue| - 1
            && |s.queue| <= |r.queue| <= |s.queue| + 1
            && r.queue[..|s.queue|] == s.queue
  {
    var r := PlayTrack(s, trackId, songId, artistId, opts);
    assert s.queue[..s.queueIndex + 1] == s.queue;
    if OrNull(trackId).Some? && opts.addToQueue {
      assert (r.queue[..|s.queue|] == s.queue) by {
        if |s.queue| == 0 || s.queue[|s.queue| - 1].trackId != trackId.value {
          assert r.queue == s.queue + [r.queue[|r.queue| - 1]];
        }
      }
    }
  }

  /** Playing the same track twice in a row adds it to the queue once. */
  lemma DuplicateSuppressed(s: PlayerState, x: string)
    requires Valid(s) && x != ""
    ensures Play(Play(s, x), x).queue == Play(s, x).queue
    ensures Play(Play(s, x), x).queueIndex == Play(s, x).queueIndex
  {
    var s1 := Play(s, x);
    assert s1.queue[..s1.queueIndex + 1] == s1.queue;
  }

  /** Stepping back and then forward returns to the same entry. */
  lemma PrevThenNext(s: PlayerState)
    requires Valid(s) && s.queueIndex > 0
    ensures NextInQueue(PrevInQueue(s)).queueIndex == s.queueIndex
    ensures NextInQueue(PrevInQueue(s)).currentTrackId == Some(s.queue[s.queueIndex].trackId)
  {
  }

  // ---------------------------------------------------------------------------
  // Object URLs

  /** Installing a new audio blob URL revokes the previous one, if any. The second
      component is the revoked URL. */
  function InstallAudio(s: PlayerState, url: nat): (r: (PlayerState, Option<nat>))
    ensures r.0.objectUrl == Some(url)
    ensures r.1 == s.objectUrl
    ensures r.0.queue == s.queue && r.0.queueIndex == s.queueIndex
  {
    (s.(objectUrl := Some(url)), s.objectUrl)
  }

  /** Installs `urls` one after another and lists the URLs revoked on the way. */
  function InstallAll(s: PlayerState, urls: seq<nat>): (r: (PlayerState, seq<nat>))
    decreases |urls|
  {
    if |urls| == 0 then (s, [])
    else
      var (s1, revoked) := InstallAudio(s, urls[0]);
      var (s2, later) := InstallAll(s1, urls[1..]);
      (s2, (if revoked.Some? then [revoked.value] else []) + later)
  }

  /** Across any run of track switches each installed URL is revoked exactly once,
      when its successor is installed, and only the last one stays live. */
  lemma {:induction false} EveryUrlRevokedOnce(s: PlayerState, urls: seq<nat>)
    requires |urls| >= 1
    ensures InstallAll(s, urls).1
            == (if s.objectUrl.Some? then [s.objectUrl.value] else []) + urls[..|urls| - 1]
    ensures InstallAll(s, urls).0.objectUrl == Some(urls[|urls| - 1])
    decreases |urls|
  {
    var s1 := InstallAudio(s, urls[0]).0;
    if |urls| > 1 {
      EveryUrlRevokedOnce(s1, urls[1..]);
      assert urls[1..][..|urls| - 2] == urls[1..|urls| - 1];
      assert [urls[0]] + urls[1..|urls| - 1] == urls[..|urls| - 1];
    }
  }

  // ---------------------------------------------------------------------------
  // Seeking

  /** The media element as seeking sees it. */
  datatype Media = Media(currentTime: real, duration: JsNumber)

  /** `seekForward(seconds)`: clamped at the duration when it is known and finite. */
  function SeekForward(audio: Option<Media>, seconds: real): (r: Option<Media>)
    ensures audio.None? <==> r.None?
    ensures audio.Some? ==> r.value.duration == audio.value.duration
    ensures audio.Some? && audio.value.duration.Truthy() && audio.value.duration.IsFinite() ==>
              r.value.currentTime == Min(audio.value.duration.value,
                                         audio.value.currentTime + seconds)
    ensures audio.Some? && !(audio.value.duration.Truthy() && audio.value.duration.IsFinite()) ==>
              r.value.currentTime == audio.value.currentTime + seconds
  {
    match audio
    case None => None
    case Some(m) =>
      var target := m.currentTime + seconds;
      if m.duration.Truthy() && m.duration.IsFinite() then
        Some(m.(currentTime := Min(m.duration.value, target)))
      else Some(m.(currentTime := target))
  }

  /** `seekBackward(seconds)`: clamped at zero. */
  function SeekBackward(audio: Option<Media>, seconds: real): (r: Option<Media>)
    ensures audio.None? <==> r.None?
    ensures audio.Some? ==> r.value.duration == audio.value.duration
    ensures audio.Some? ==> r.value.currentTime == Max(0.0, audio.value.currentTime - seconds)
  {
    match audio
    case None => None
    case Some(m) => Some(m.(currentTime := Max(0.0, m.currentTime - seconds)))
  }

  /** With a known finite duration, seeking by a non-negative step in either direction
      keeps the position inside [0, duration]; backward seeks stay at or above zero
      whatever the duration. */
  lemma SeekStaysInRange(m: Media, seconds: real)
    requires seconds >= 0.0 && m.currentTime >= 0.0
    ensures SeekBackward(Some(m), seconds).value.currentTime >= 0.0
    ensures SeekBackward(Some(m), seconds).value.currentTime <= m.currentTime
    ensures m.duration.Finite? && m.duration.value > 0.0 && m.currentTime <= m.duration.value ==>
              && m.currentTime <= SeekForward(Some(m), seconds).value.currentTime
                                <= m.duration.value
              && SeekBackward(Some(m), seconds).value.currentTime <= m.duration.value
  {
  }

  // ---------------------------------------------------------------------------
  // Volume

  /** What local storage yields for the saved volume: reading may throw, the key may
      be absent, or it holds a string that `parseFloat` turned into a number. */
  datatype StoredVolume = StorageError | NotStored | Stored(parsed: JsNumber)

  /** The volume and the level remembered by the mute button. */
  datatype VolumeState = VolumeState(volume: real, previous: real)

  ghost predicate VolumeValid(v: VolumeState)
  {
    0.0 <= v.volume <= 1.0 && 0.0 <= v.previous <= 1.0
  }

  /** Volume at start-up: 1 when nothing (or `NaN`) is stored or storage fails,
      otherwise the stored value clamped to [0, 1]. */
  function InitialVolume(stored: StoredVolume): (r: VolumeState)
    ensures VolumeValid(r) && r.previous == r.volume
    ensures stored.Stored? && stored.parsed.Finite? && 0.0 <= stored.parsed.value <= 1.0 ==>
              r.volume == stored.parsed.value
    ensures !stored.Stored? || stored.parsed.NaN? ==> r.volume == 1.0
    ensures stored.Stored? && (stored.parsed.PosInf? || (stored.parsed.Finite? && stored.parsed.value > 1.0)) ==>
              r.volume == 1.0
    ensures stored.Stored? && (stored.parsed.NegInf? || (stored.parsed.Finite? && stored.parsed.value < 0.0)) ==>
              r.volume == 0.0
  {
    var v := match stored
      case Stored(x) => if x.NaN? then 1.0 else Clamp01(x)
      case _ => 1.0;
    VolumeState(v, v)
  }

  /** The slider's `input` handler: a `NaN` reading is ignored, anything else is
      clamped to [0, 1]. The value stored for the next visit is the new volume. */
  function SliderInput(v: VolumeState, input: JsNumber): (r: VolumeState)
    ensures VolumeValid(v) ==> VolumeValid(r)
    ensures r.previous == v.previous
    ensures input.NaN? ==> r.volume == v.volume
    ensures input.Finite? && 0.0 <= input.value <= 1.0 ==> r.volume == input.value
    ensures input.PosInf? || (input.Finite? && input.value > 1.0) ==> r.volume == 1.0
    ensures input.NegInf? || (input.Finite? && input.value < 0.0) ==> r.volume == 0.0
  {
    if input.NaN? then v else v.(volume := Clamp01(input))
  }

  /** The mute button: a sounding player remembers its level and goes silent; a
      silent one returns to the remembered level, or to 1 if that level is 0. */
  function MuteToggle(v: VolumeState): (r: VolumeState)
    ensures VolumeValid(v) ==> VolumeValid(r)
    ensures v.volume > 0.0 ==> r.volume == 0.0 && r.previous == v.volume
    ensures v.volume <= 0.0 ==> r.previous == v.previous
    ensures v.volume <= 0.0 && v.previous != 0.0 ==> r.volume == v.previous
    ensures v.volume <= 0.0 && v.previous == 0.0 ==> r.volume == 1.0
  {
    if v.volume > 0.0 then VolumeState(0.0, v.volume)
    else VolumeState(if v.previous == 0.0 then 1.0 else v.previous, v.previous)
  }

  /** Muting and unmuting gives back the level the player had. */
  lemma MuteUnmute(v: VolumeState)
    requires v.volume > 0.0
    ensures MuteToggle(MuteToggle(v)).volume == v.volume
  {
  }

  /** A level set with the slider is the level found on the next visit. */
  lemma VolumePersists(v: VolumeState, input: JsNumber)
    requires VolumeValid(v) && !input.NaN?
    ensures InitialVolume(Stored(Finite(SliderInput(v, input).volume))).volume
            == SliderInput(v, input).volume
  {
  }

  // ---------------------------------------------------------------------------
  // Time display

  /** `formatTime(sec)`: `--:--` unless finite; otherwise whole seconds (floored, at
      least 0) as `M:SS`, or `H:MM:SS` from one hour on. */
  function FormatTime(x: JsNumber): (r: string)
    ensures !x.IsFinite() ==> r == "--:--"
    ensures x.IsFinite() ==>
              var total := if x.value.Floor < 0 then 0 else x.value.Floor;
              && Clock.ParseClock(r) == Some(total)
              && (|Split(r, ':')| == 3 <==> total >= 3600)
  {
    if !x.IsFinite() then "--:--"
    else FormatSeconds(if x.value.Floor < 0 then 0 else x.value.Floor)
  }

  /** Whole seconds as `M:SS` below an hour and `H:MM:SS` from one hour on. */
  function FormatSeconds(total: nat): (r: string)
    ensures Clock.ParseClock(r) == Some(total)
    ensures |Split(r, ':')| == 3 <==> total >= 3600
  {
    var h := total / 3600;
    var m := (total % 3600) / 60;
    var s := total % 60;
    assert h * 3600 + m * 60 + s == total;
    if h > 0 then
      Clock.ThreeFieldRoundTrip(h, m, s);
      NatToString(h) + ":" + Pad2(m) + ":" + Pad2(s)
    else
      Clock.TwoFieldRoundTrip(m, s);
      NatToString(m) + ":" + Pad2(s)
  }

  // ---------------------------------------------------------------------------
  // Cover URLs

  predicate StartsWith(s: string, prefix: string)
  {
    |prefix| <= |s| && s[..|prefix|] == prefix
  }

  /** The regular expression `/^https?:\/\//i`. */
  predicate IsHttpUrl(s: string)
  {
    || StartsWith(Lower(s), "http://")
    || StartsWith(Lower(s), "https://")
  }

  /** `resolveCoverUrl(path)`: empty gives null, protocol-relative paths get the page
      protocol in front, everything else (absolute http(s) URLs included) is returned
      unchanged. */
  function ResolveCoverUrl(path: Option<string>, pageProtocol: string): (r: Option<string>)
    ensures OrNull(path).None? <==> r.None?
    ensures OrNull(path).Some? && IsHttpUrl(path.value) ==> r == path
    ensures OrNull(path).Some? && StartsWith(path.value, "//") ==>
              r == Some(pageProtocol + path.value)
    ensures OrNull(path).Some? && !StartsWith(path.value, "//") ==> r == path
  {
    if OrNull(path).None? then None
    else if IsHttpUrl(path.value) then
      ProtocolRelativeIsNotHttp(path.value);
      path
    else if StartsWith(path.value, "//") then Some(pageProtocol + path.value)
    else path
  }

  lemma ProtocolRelativeIsNotHttp(s: string)
    ensures StartsWith(s, "//") ==> !IsHttpUrl(s)
  {
    if StartsWith(s, "//") {
      assert Lower(s)[0] == LowerChar(s[0]);
    }
  }

  /** With a real page protocol (`https:`, `http:`, ...), resolving twice is the same
      as resolving once. */
  lemma ResolveIdempotent(path: Option<string>, pageProtocol: string)
    requires |pageProtocol| >= 1 && pageProtocol[0] != '/'
    ensures ResolveCoverUrl(ResolveCoverUrl(path, pageProtocol), pageProtocol)
            == ResolveCoverUrl(path, pageProtocol)
  {
    var r := ResolveCoverUrl(path, pageProtocol);
    if r.Some? && r != path {
      assert r.value[0] == pageProtocol[0];
      assert !StartsWith(r.value, "//");
    }
  }
}

=== FILE: shop.dfy ===
/** The shop page: per-section pagination of the product cards, the page-button bar,
    the multi-select dropdown summary and the local cart merge. */
module Shop {
  import opened Wrappers
  import opened Text
  import opened CartItems
  import opened JsArray

  const ItemsPerPage: nat := 9
  const MaxButtons: nat := 5

  // ---------------------------------------------------------------------------
  // Pages

  /** `Math.ceil(total / itemsPerPage)`. */
  function TotalPages(total: nat): (pages: nat)
    ensures pages == 0 <==> total == 0
    ensures total > 0 ==> (pages - 1) * ItemsPerPage < total <= pages * ItemsPerPage
  {
    (total + ItemsPerPage - 1) / ItemsPerPage
  }

  /** A section's pagination state: the page shown, the page count, the card count. */
  datatype Section = Section(currentPage: int, totalPages: nat, cards: nat)

  ghost predicate SectionValid(sec: Section)
  {
    sec.cards > 0 && sec.totalPages == TotalPages(sec.cards)
    && 1 <= sec.currentPage <= sec.totalPages
  }

  /** `setupPaginationForSection`: nothing is set up for an empty grid; otherwise the
      first page is shown. */
  function Setup(cards: nat): (r: Option<Section>)
    ensures r.None? <==> cards == 0
    ensures r.Some? ==> SectionValid(r.value) && r.value.currentPage == 1
  {
    if cards == 0 then None else Some(Section(1, TotalPages(cards), cards))
  }

  /** `showPage(p)`: which cards carry the `visible` class afterwards. */
  function ShowPage(cards: nat, p: int): (visible: seq<bool>)
    ensures |visible| == cards
    ensures p >= 1 ==> forall i :: 0 <= i < cards ==>
              (visible[i] <==> (p - 1) * ItemsPerPage <= i < p * ItemsPerPage)
  {
    var start := (p - 1) * ItemsPerPage;
    var end := start + ItemsPerPage;
    var visible := seq(cards, i requires 0 <= i < cards =>
                         SliceBound(start, cards) <= i < SliceBound(end, cards));
    assert p >= 1 ==> forall i :: 0 <= i < cards ==>
                        (visible[i] <==> (p - 1) * ItemsPerPage <= i < p * ItemsPerPage) by {
      if p >= 1 {
        assert start >= 0 && end == p * ItemsPerPage;
        forall i | 0 <= i < cards
          ensures visible[i] <==> start <= i < end
        {
          assert visible[i] == (SliceBound(start, cards) <= i < SliceBound(end, cards));
        }
      }
    }
    visible
  }

  /** The pages partition the cards: card `i` is shown on page `i / 9 + 1`, which
      exists, and on no other page. */
  lemma PagesPartitionCards(cards: nat, i: nat)
    requires i < cards
    ensures 1 <= i / ItemsPerPage + 1 <= TotalPages(cards)
    ensures ShowPage(cards, i / ItemsPerPage + 1)[i]
    ensures forall q :: q >= 1 && q != i / ItemsPerPage + 1 ==> !ShowPage(cards, q)[i]
  {
    var p := i / ItemsPerPage + 1;
    forall q | q >= 1 && q != p
      ensures !ShowPage(cards, q)[i]
    {
      if q < p {
        assert q * ItemsPerPage <= (p - 1) * ItemsPerPage;
      } else {
        assert (q - 1) * ItemsPerPage >= p * ItemsPerPage;
      }
    }
  }

  /** Going to a page: `showPage` records it as the current page. From a valid
      section, a page that exists gives a valid section again, and only such a page
      does. */
  function GoTo(sec: Section, p: int): (r: Section)
    ensures r.currentPage == p && r.totalPages == sec.totalPages && r.cards == sec.cards
    ensures SectionValid(sec) ==> (SectionValid(r) <==> 1 <= p <= sec.totalPages)
  {
    sec.(currentPage := p)
  }

  /** The `‹ Anterior` button's handler: it only acts above page 1. */
  function PrevClick(sec: Section): (r: Section)
    ensures sec.currentPage > 1 ==> r.currentPage == sec.currentPage - 1
    ensures sec.currentPage <= 1 ==> r == sec
    ensures SectionValid(sec) ==> SectionValid(r)
  {
    if sec.currentPage > 1 then GoTo(sec, sec.currentPage - 1) else sec
  }

  /** The `Siguiente ›` button's handler: it only acts below the last page. */
  function NextClick(sec: Section): (r: Section)
    ensures sec.currentPage < sec.totalPages ==> r.currentPage == sec.currentPage + 1
    ensures sec.currentPage >= sec.totalPages ==> r == sec
    ensures SectionValid(sec) ==> SectionValid(r)
  {
    if sec.currentPage < sec.totalPages then GoTo(sec, sec.currentPage + 1) else sec
  }

  // ---------------------------------------------------------------------------
  // Page-button bar

  /** The page buttons shown around the current page: `(startPage, endPage)`. */
  function PageWindow(current: int, totalPages: int): (w: (int, int))
    ensures 1 <= current <= totalPages ==>
              && 1 <= w.0 <= current <= w.1 <= totalPages
              && w.1 - w.0 + 1 == (if totalPages < MaxButtons then totalPages else MaxButtons)
    ensures totalPages > 1 ==> 1 <= w.0 < w.1 <= totalPages
  {
    var start0 := if current - MaxButtons / 2 > 1 then current - MaxButtons / 2 else 1;
    var end := if totalPages < start0 + MaxButtons - 1 then totalPages else start0 + MaxButtons - 1;
    var start := if end - start0 < MaxButtons - 1 then
                   (if end - MaxButtons + 1 > 1 then end - MaxButtons + 1 else 1)
                 else start0;
    (start, end)
  }

  /** One element of the pagination bar. */
  datatype Control = Prev(disabled: bool) | PageButton(page: int, active: bool) | Ellipsis | Next(disabled: bool)

  function Button(p: int, current: int): Control
  {
    PageButton(p, p == current)
  }

  function Range(lo: int, hi: int, current: int): (r: seq<Control>)
    requires lo <= hi
    ensures |r| == hi - lo + 1
    ensures forall k :: 0 <= k < |r| ==> r[k] == Button(lo + k, current)
  {
    seq(hi - lo + 1, k => Button(lo + k, current))
  }

  /** The first-page button, followed by an ellipsis when page 2 is not in the window. */
  function Leading(start: int, current: int): seq<Control>
  {
    if start > 1 then [Button(1, current)] + (if start > 2 then [Ellipsis] else []) else []
  }

  /** The last-page button, after an ellipsis when the window ends two or more pages
      before it. */
  function Trailing(end: int, totalPages: int, current: int): seq<Control>
  {
    if end < totalPages then
      (if end < totalPages - 1 then [Ellipsis] else []) + [Button(totalPages, current)]
    else []
  }

  /** `createPaginationControls`: nothing for a single page; otherwise the previous
      button, the first page (and an ellipsis) when the window does not reach it, the
      window, the last page (after an ellipsis) when the window does not reach it,
      and the next button. */
  function Controls(current: int, totalPages: int): (r: seq<Control>)
    ensures |r| == 0 <==> totalPages <= 1
    ensures |r| > 0 ==> r[0] == Prev(current == 1) && r[|r| - 1] == Next(current == totalPages)
  {
    if totalPages <= 1 then []
    else
      var (start, end) := PageWindow(current, totalPages);
      var pages := Leading(start, current) + Range(start, end, current)
                   + Trailing(end, totalPages, current);
      [Prev(current == 1)] + pages + [Next(current == totalPages)]
  }

  /** A run of page buttons and ellipses that starts with a button and in which
      every button is followed either by the button for the next page or by an
      ellipsis and then a button at least two pages further on. */
  predicate WellSpaced(m: seq<Control>)
    decreases |m|
  {
    && |m| >= 1 && m[0].PageButton?
    && (|m| == 1
        || (m[1].PageButton? && m[1].page == m[0].page + 1 && WellSpaced(m[1..]))
        || (|m| >= 3 && m[1].Ellipsis? && m[2].PageButton? && m[2].page >= m[0].page + 2
            && WellSpaced(m[2..])))
  }

  /** Exactly the current page's button is highlighted. */
  ghost predicate ActiveIsCurrent(m: seq<Control>, current: int)
  {
    forall k :: 0 <= k < |m| && m[k].PageButton? ==> (m[k].active <==> m[k].page == current)
  }

  /** A well-spaced run ends with a button for a page no earlier than its first. */
  lemma {:induction false} WellSpacedEnds(m: seq<Control>)
    requires WellSpaced(m)
    ensures m[|m| - 1].PageButton? && m[|m| - 1].page >= m[0].page
    decreases |m|
  {
    if |m| > 1 {
      if m[1].PageButton? && m[1].page == m[0].page + 1 && WellSpaced(m[1..]) {
        WellSpacedEnds(m[1..]);
      } else {
        WellSpacedEnds(m[2..]);
      }
    }
  }

  lemma {:induction false} RangeWellSpaced(lo: int, hi: int, current: int)
    requires lo <= hi
    ensures WellSpaced(Range(lo, hi, current)) && ActiveIsCurrent(Range(lo, hi, current), current)
    decreases hi - lo
  {
    var r := Range(lo, hi, current);
    if lo < hi {
      RangeWellSpaced(lo + 1, hi, current);
      assert r[1..] == Range(lo + 1, hi, current);
    }
  }

  lemma {:induction false} JoinAdjacent(a: seq<Control>, b: seq<Control>)
    requires WellSpaced(a) && WellSpaced(b) && a[|a| - 1].PageButton?
    requires b[0].page == a[|a| - 1].page + 1
    ensures WellSpaced(a + b)
    decreases |a|
  {
    var m := a + b;
    if |a| == 1 {
      assert m[1..] == b;
    } else if a[1].PageButton? && a[1].page == a[0].page + 1 && WellSpaced(a[1..]) {
      JoinAdjacent(a[1..], b);
      assert m[1..] == a[1..] + b;
    } else {
      JoinAdjacent(a[2..], b);
      assert m[2..] == a[2..] + b;
    }
  }

  lemma {:induction false} JoinElided(a: seq<Control>, b: seq<Control>)
    requires WellSpaced(a) && WellSpaced(b) && a[|a| - 1].PageButton?
    requires b[0].page >= a[|a| - 1].page + 2
    ensures WellSpaced(a + [Ellipsis] + b)
    decreases |a|
  {
    var m := a + [Ellipsis] + b;
    if |a| == 1 {
      assert m[2..] == b;
    } else if a[1].PageButton? && a[1].page == a[0].page + 1 && WellSpaced(a[1..]) {
      JoinElided(a[1..], b);
      assert m[1..] == a[1..] + [Ellipsis] + b;
    } else {
      JoinElided(a[2..], b);
      assert m[2..] == a[2..] + [Ellipsis] + b;
    }
  }

  lemma ActiveAppend(a: seq<Control>, b: seq<Control>, current: int)
    requires ActiveIsCurrent(a, current) && ActiveIsCurrent(b, current)
    ensures ActiveIsCurrent(a + b, current)
  {
    forall k | 0 <= k < |a + b| && (a + b)[k].PageButton?
      ensures (a + b)[k].active <==> (a + b)[k].page == current
    {
      if k < |a| { assert (a + b)[k] == a[k]; } else { assert (a + b)[k] == b[k - |a|]; }
    }
  }

  /** The leading part of the bar followed by the window. */
  lemma LeadingThenWindow(start: int, end: int, current: int)
    requires 1 <= start < end
    ensures var m := Leading(start, current) + Range(start, end, current);
            && WellSpaced(m) && ActiveIsCurrent(m, current)
            && m[0] == Button(1, current) && m[|m| - 1] == Button(end, current)
            && |m| >= 2 && (m[1].Ellipsis? <==> start > 2)
            && m[|m| - 2] == Button(end - 1, current)
  {
    LeadingWindowSpaced(start, end, current);
    var range := Range(start, end, current);
    var m := Leading(start, current) + range;
    if start > 2 {
      assert m[1] == Ellipsis;
    } else if start == 2 {
      assert m[1] == range[0];
    }
    assert m[|m| - 1] == range[|range| - 1] && m[|m| - 2] == range[|range| - 2];
  }

  lemma LeadingWindowSpaced(start: int, end: int, current: int)
    requires 1 <= start < end
    ensures var m := Leading(start, current) + Range(start, end, current);
            WellSpaced(m) && ActiveIsCurrent(m, current)
  {
    var range := Range(start, end, current);
    RangeWellSpaced(start, end, current);
    var one := [Button(1, current)];
    assert WellSpaced(one) && ActiveIsCurrent(one, current);
    if start > 2 {
      JoinElided(one, range);
      assert Leading(start, current) + range == one + [Ellipsis] + range;
      assert ActiveIsCurrent(one + [Ellipsis], current);
      ActiveAppend(one + [Ellipsis], range, current);
    } else if start == 2 {
      JoinAdjacent(one, range);
      ActiveAppend(one, range, current);
    } else {
      assert Leading(start, current) + range == range;
    }
  }



  /** A well-spaced run ending at the window's last page, followed by the trailing
      part of the bar. */
  lemma ThenTrailing(m: seq<Control>, end: int, totalPages: int, current: int)
    requires WellSpaced(m) && ActiveIsCurrent(m, current) && |m| >= 2
    requires m[|m| - 1] == Button(end, current) && m[|m| - 2] == Button(end - 1, current)
    requires end <= totalPages
    ensures var n := m + Trailing(end, totalPages, current);
            && WellSpaced(n) && ActiveIsCurrent(n, current)
            && n[..|m|] == m && n[|n| - 1] == Button(totalPages, current)
            && (n[|n| - 2].Ellipsis? <==> end < totalPages - 1)
  {
    var last := [Button(totalPages, current)];
    assert WellSpaced(last) && ActiveIsCurrent(last, current);
    if end < totalPages - 1 {
      JoinElided(m, last);
      assert m + Trailing(end, totalPages, current) == m + [Ellipsis] + last;
      assert ActiveIsCurrent([Ellipsis] + last, current);
      ActiveAppend(m, [Ellipsis] + last, current);
    } else if end == totalPages - 1 {
      assert Trailing(end, totalPages, current) == last;
      JoinAdjacent(m, last);
      ActiveAppend(m, last, current);
    } else {
      assert m + Trailing(end, totalPages, current) == m;
    }
  }

  /** The shape of the pagination bar for a valid current page. The bar opens with
      `‹ Anterior` (disabled exactly on page 1) and closes with `Siguiente ›`
      (disabled exactly on the last page). Between them the first and the last page
      always have a button, pages run in order, every skipped page is behind an
      ellipsis, and only the current page is highlighted. An ellipsis follows the
      first page exactly when the window starts after page 2, and one precedes the
      last page exactly when the window ends before the second-to-last page. */
  lemma ControlsShape(current: int, totalPages: int)
    requires 1 <= current <= totalPages && totalPages > 1
    ensures var r := Controls(current, totalPages);
            var m := PageRun(r);
            var w := PageWindow(current, totalPages);
            && |r| >= 4 && |m| == |r| - 2
            && r[0] == Prev(current == 1) && r[|r| - 1] == Next(current == totalPages)
            && WellSpaced(m) && ActiveIsCurrent(m, current)
            && m[0] == Button(1, current) && m[|m| - 1] == Button(totalPages, current)
            && (m[1].Ellipsis? <==> w.0 > 2)
            && (m[|m| - 2].Ellipsis? <==> w.1 < totalPages - 1)
  {
    var w := PageWindow(current, totalPages);
    var mid := Leading(w.0, current) + Range(w.0, w.1, current) + Trailing(w.1, totalPages, current);
    BarShape(w.0, w.1, totalPages, current);
    Framed(Prev(current == 1), mid, Next(current == totalPages));
    assert Controls(current, totalPages) == [Prev(current == 1)] + mid + [Next(current == totalPages)];
  }

  /** The page buttons and ellipses of the bar, for a window from `start` to `end`. */
  lemma BarShape(start: int, end: int, totalPages: int, current: int)
    requires 1 <= start < end <= totalPages
    ensures var m := Leading(start, current) + Range(start, end, current) + Trailing(end, totalPages, current);
            && WellSpaced(m) && ActiveIsCurrent(m, current)
            && m[0] == Button(1, current) && m[|m| - 1] == Button(totalPages, current)
            && (m[1].Ellipsis? <==> start > 2)
            && (m[|m| - 2].Ellipsis? <==> end < totalPages - 1)
  {
    var lw := Leading(start, current) + Range(start, end, current);
    LeadingThenWindow(start, end, current);
    ThenTrailing(lw, end, totalPages, current);
    var m := lw + Trailing(end, totalPages, current);
    assert m[0] == lw[0] && m[1] == lw[1];
  }


  lemma Framed(first: Control, mid: seq<Control>, last: Control)
    ensures var r := [first] + mid + [last];
            |r| == |mid| + 2 && r[0] == first && r[|r| - 1] == last && PageRun(r) == mid
  {
    var r := [first] + mid + [last];
    assert r[1..|r| - 1] == mid;
  }

  /** The bar without its previous and next buttons. */
  function PageRun(r: seq<Control>): seq<Control>
  {
    if |r| >= 2 then r[1..|r| - 1] else []
  }

  /** Every page has a button in the bar or lies behind one of its ellipses. */
  lemma EveryPageReachable(current: int, totalPages: int, p: int)
    requires 1 <= current <= totalPages && totalPages > 1 && 1 <= p <= totalPages
    ensures var m := PageRun(Controls(current, totalPages));
            exists k :: 0 <= k < |m| && Covers(m, k, p)
  {
    ControlsShape(current, totalPages);
    var r := Controls(current, totalPages);
    var m := r[1..|r| - 1];
    WellSpacedCovers(m, p);
    var k :| 0 <= k < |m| && Covers(m, k, p);
  }

  /** In a well-spaced run, every page between the first and the last button has a
      button or falls strictly inside an ellipsis' gap. */
  lemma {:induction false} WellSpacedCovers(m: seq<Control>, p: int)
    requires WellSpaced(m) && m[|m| - 1].PageButton? && m[0].page <= p <= m[|m| - 1].page
    ensures exists k :: 0 <= k < |m| && Covers(m, k, p)
    decreases |m|
  {
    if m[0].page == p {
      assert Covers(m, 0, p);
    } else if m[1].PageButton? && m[1].page == m[0].page + 1 && WellSpaced(m[1..]) {
      WellSpacedCovers(m[1..], p);
      var k :| 0 <= k < |m| - 1 && Covers(m[1..], k, p);
      assert Covers(m, k + 1, p);
    } else if p < m[2].page {
      assert Covers(m, 1, p);
    } else {
      WellSpacedCovers(m[2..], p);
      var k :| 0 <= k < |m| - 2 && Covers(m[2..], k, p);
      assert Covers(m, k + 2, p);
    }
  }

  /** In a well-spaced run, every button's page lies between the first button's and
      the last button's. */
  lemma {:induction false} WellSpacedBetween(m: seq<Control>, k: int)
    requires WellSpaced(m) && 0 <= k < |m| && m[k].PageButton?
    ensures m[|m| - 1].PageButton? && m[0].page <= m[k].page <= m[|m| - 1].page
    decreases |m|
  {
    WellSpacedEnds(m);
    if k > 0 {
      if m[1].PageButton? && m[1].page == m[0].page + 1 && WellSpaced(m[1..]) {
        WellSpacedBetween(m[1..], k - 1);
        assert m[1..][k - 1] == m[k];
      } else {
        assert k >= 2;
        WellSpacedBetween(m[2..], k - 2);
        assert m[2..][k - 2] == m[k];
      }
    }
  }

  /** Clicking any page button of a valid section's bar goes to an existing page:
      the section stays valid and exactly that page's cards are shown. */
  lemma PageButtonClick(sec: Section, k: int)
    requires SectionValid(sec)
    requires 0 <= k < |Controls(sec.currentPage, sec.totalPages)|
    requires Controls(sec.currentPage, sec.totalPages)[k].PageButton?
    ensures var p := Controls(sec.currentPage, sec.totalPages)[k].page;
            && 1 <= p <= sec.totalPages
            && SectionValid(GoTo(sec, p))
            && forall i :: 0 <= i < sec.cards ==>
                 (ShowPage(sec.cards, p)[i] <==> (p - 1) * ItemsPerPage <= i < p * ItemsPerPage)
  {
    var r := Controls(sec.currentPage, sec.totalPages);
    ControlsShape(sec.currentPage, sec.totalPages);
    var m := PageRun(r);
    assert r[k] == m[k - 1];
    WellSpacedBetween(m, k - 1);
  }

  /** Position `k` of the run shows page `p`, or is an ellipsis standing for it. */
  ghost predicate Covers(m: seq<Control>, k: int, p: int)
    requires 0 <= k < |m|
  {
    || (m[k].PageButton? && m[k].page == p)
    || (0 < k < |m| - 1 && m[k].Ellipsis? && m[k - 1].PageButton? && m[k + 1].PageButton?
        && m[k - 1].page < p < m[k + 1].page)
  }

  // ---------------------------------------------------------------------------
  // Filter dropdown

  /** A filter checkbox: its state and its `data-name`. */
  datatype Checkbox = Checkbox(checked: bool, name: string)

  /** The names of the checked boxes, in page order. */
  function SelectedNames(boxes: seq<Checkbox>): (names: seq<string>)
    ensures |names| <= |boxes|
    ensures forall n :: n in names ==> exists k :: 0 <= k < |boxes| && boxes[k].checked && boxes[k].name == n
    ensures (forall k :: 0 <= k < |boxes| ==> !boxes[k].checked) <==> |names| == 0
    ensures |boxes| == 1 ==> names == (if boxes[0].checked then [boxes[0].name] else [])
    decreases |boxes|
  {
    if |boxes| == 0 then []
    else
      var rest := SelectedNames(boxes[1..]);
      assert forall n :: n in rest ==> exists k :: 0 <= k < |boxes| && boxes[k].checked && boxes[k].name == n by {
        forall n | n in rest
          ensures exists k :: 0 <= k < |boxes| && boxes[k].checked && boxes[k].name == n
        {
          var j :| 0 <= j < |boxes[1..]| && boxes[1..][j].checked && boxes[1..][j].name == n;
          assert boxes[j + 1] == boxes[1..][j];
        }
      }
      if boxes[0].checked then [boxes[0].name] + rest else rest
  }

  /** Selecting distributes over the page order: the names from two runs of boxes
      are the names from the first run followed by those from the second. With the
      single-box case this fixes the result to every checked name, in order. */
  lemma {:induction false} SelectedNamesAppend(a: seq<Checkbox>, b: seq<Checkbox>)
    ensures SelectedNames(a + b) == SelectedNames(a) + SelectedNames(b)
    decreases |a|
  {
    if |a| > 0 {
      assert (a + b)[0] == a[0];
      assert (a + b)[1..] == a[1..] + b;
      SelectedNamesAppend(a[1..], b);
    } else {
      assert a + b == b;
    }
  }

  const Suffix := " seleccionados"

  /** `updateDropdownText`: a placeholder for nothing selected, the one name for a
      single selection, and the count followed by ` seleccionados` otherwise. */
  function DropdownText(kind: string, selected: seq<string>): (text: string)
    ensures |selected| == 0 && kind == "genre" ==> text == "Seleccionar géneros"
    ensures |selected| == 0 && kind != "genre" ==> text == "Seleccionar artistas"
    ensures |selected| == 1 ==> text == selected[0]
    ensures |selected| >= 2 ==>
              && JsParseInt(text) == Int(|selected|)
              && |text| > |Suffix| && text[|text| - |Suffix|..] == Suffix
    ensures |selected| >= 2 ==>
              var count := text[..|text| - |Suffix|];
              && AllDigits(count) && count[0] != '0' && ParseDigits(count) == |selected|
  {
    if |selected| == 0 then
      (if kind == "genre" then "Seleccionar géneros" else "Seleccionar artistas")
    else if |selected| == 1 then selected[0]
    else
      JsParseIntOfIntToString(|selected|, Suffix);
      ParseNatToString(|selected|);
      var text := IntToString(|selected|) + Suffix;
      assert text[..|text| - |Suffix|] == NatToString(|selected|);
      text
  }

  /** The count before ` seleccionados` is exactly the decimal printing of the number
      of selected options: no other digit text satisfies the label's contract. */
  lemma DropdownCount(kind: string, selected: seq<string>)
    requires |selected| >= 2
    ensures DropdownText(kind, selected) == NatToString(|selected|) + Suffix
  {
    var text := DropdownText(kind, selected);
    var count := text[..|text| - |Suffix|];
    CanonicalDigits(count);
    assert text == count + text[|text| - |Suffix|..];
  }

  // ---------------------------------------------------------------------------
  // Cart merge

  /** `addToCart(productId, productType)`: the first entry for the product gets one
      more unit (a missing quantity counts as one); without such an entry a new one
      with quantity 1 is appended. */
  function AddToCart(cart: seq<CartItem>, id: string, kind: string): (r: seq<CartItem>)
    ensures FindProduct(cart, id, kind).Some? ==>
              var k := FindProduct(cart, id, kind).value;
              && |r| == |cart|
              && r[k] == cart[k].(quantity := Num(EffectiveQuantity(cart[k].quantity) + 1))
              && forall j :: 0 <= j < |cart| && j != k ==> r[j] == cart[j]
    ensures FindProduct(cart, id, kind).None? ==>
              && |r| == |cart| + 1 && r[..|cart|] == cart
              && r[|cart|] == CartItem(id, kind, None, Num(1))
    ensures FindProduct(r, id, kind).Some?
  {
    match FindProduct(cart, id, kind)
    case Some(k) => cart[k := cart[k].(quantity := Num(EffectiveQuantity(cart[k].quantity) + 1))]
    case None =>
      var r := cart + [CartItem(id, kind, None, Num(1))];
      assert SameProduct(r[|cart|], id, kind);
      r
  }

  /** With positive quantities, adding a product adds exactly one unit to the cart. */
  lemma AddToCartAddsOneUnit(cart: seq<CartItem>, id: string, kind: string)
    requires forall j :: 0 <= j < |cart| ==> EffectiveQuantity(cart[j].quantity) >= 1
    ensures TotalQuantity(AddToCart(cart, id, kind)) == TotalQuantity(cart) + 1
  {
    match FindProduct(cart, id, kind)
    case Some(k) =>
      var q := Num(EffectiveQuantity(cart[k].quantity) + 1);
      AddToCartFound(cart, id, kind, k);
      TotalQuantityUpdate(cart, k, q);
    case None =>
      var item := CartItem(id, kind, None, Num(1));
      assert AddToCart(cart, id, kind) == cart + [item];
      TotalQuantityAppend(cart, item);
  }

  /** A product already in the cart gets one more unit on its own line. */
  lemma AddToCartFound(cart: seq<CartItem>, id: string, kind: string, k: nat)
    requires FindProduct(cart, id, kind) == Some(k)
    ensures AddToCart(cart, id, kind) == cart[k := cart[k].(quantity := Num(EffectiveQuantity(cart[k].quantity) + 1))]
  {
  }

  /** A cart without duplicate products keeps having none. */
  lemma AddToCartKeepsProductsUnique(cart: seq<CartItem>, id: string, kind: string)
    requires UniqueProducts(cart)
    ensures UniqueProducts(AddToCart(cart, id, kind))
  {
    var r := AddToCart(cart, id, kind);
    forall i, j | 0 <= i < j < |r|
      ensures !SameProduct(r[j], r[i].id, r[i].kind)
    {
      if j == |cart| {
        assert FindProduct(cart, id, kind).None?;
        assert !SameProduct(cart[i], id, kind);
      } else {
        assert SameProduct(r[i], cart[i].id, cart[i].kind);
        assert SameProduct(r[j], cart[j].id, cart[j].kind);
      }
    }
  }
}

=== FILE: text.dfy ===
/** String helpers shared by the page scripts and the controller: decimal printing and
    parsing, the `split`/`join` pair of both host languages, whitespace trimming, ASCII
    case mapping, and the integer parsers `parseInt` (JavaScript) and `int()` (Python). */
module Text {
  import opened Wrappers

  /** The result of JavaScript's `parseInt`: an integer or `NaN`. */
  datatype ParsedInt = NaN | Int(value: int)

  // ---------------------------------------------------------------------------
  // Decimal digits

  predicate IsDigit(c: char) { '0' <= c <= '9' }

  predicate AllDigits(s: string)
  {
    forall i :: 0 <= i < |s| ==> IsDigit(s[i])
  }

  function DigitChar(d: nat): (c: char)
    requires d < 10
    ensures IsDigit(c)
  {
    ((('0' as int) + d) as char)
  }

  function DigitValue(c: char): (d: nat)
    requires IsDigit(c)
    ensures d < 10
  {
    c as int - '0' as int
  }

  lemma DigitRoundTrip(d: nat)
    requires d < 10
    ensures DigitValue(DigitChar(d)) == d
  {
  }

  /** Decimal rendering of a natural number, as `String(n)` and `str(n)` print it. */
  function NatToString(n: nat): (s: string)
    ensures 1 <= |s| && AllDigits(s)
    ensures |s| == 1 <==> n < 10
    ensures s[0] == '0' <==> n == 0
    decreases n
  {
    if n < 10 then [DigitChar(n)] else NatToString(n / 10) + [DigitChar(n % 10)]
  }

  /** The value of a run of decimal digits (the empty run is 0). */
  function ParseDigits(s: string): nat
    requires AllDigits(s)
    decreases |s|
  {
    if |s| == 0 then 0 else ParseDigits(s[..|s| - 1]) * 10 + DigitValue(s[|s| - 1])
  }

  /** Printing a natural number and reading it back gives the number. */
  lemma {:induction false} ParseNatToString(n: nat)
    ensures ParseDigits(NatToString(n)) == n
  {
    var s := NatToString(n);
    if n < 10 {
      DigitRoundTrip(n);
    } else {
      assert s[..|s| - 1] == NatToString(n / 10);
      ParseNatToString(n / 10);
      DigitRoundTrip(n % 10);
    }
  }

  /** A digit run without a leading zero is the printing of its value: such a run is
      fixed by the number it denotes. */
  lemma {:induction false} CanonicalDigits(s: string)
    requires 1 <= |s| && AllDigits(s) && s[0] != '0'
    ensures ParseDigits(s) >= 1
    ensures s == NatToString(ParseDigits(s))
    decreases |s|
  {
    var n := ParseDigits(s);
    var last := s[|s| - 1];
    if |s| == 1 {
      assert DigitChar(DigitValue(last)) == last;
    } else {
      var init := s[..|s| - 1];
      CanonicalDigits(init);
      assert n / 10 == ParseDigits(init) && n % 10 == DigitValue(last);
      assert DigitChar(DigitValue(last)) == last;
      assert s == init + [last];
    }
  }

  /** A leading zero does not change the value of a digit run. */
  lemma {:induction false} ParseLeadingZero(s: string)
    requires AllDigits(s)
    ensures AllDigits("0" + s) && ParseDigits("0" + s) == ParseDigits(s)
  {
    if |s| > 0 {
      var t := "0" + s;
      assert t[..|t| - 1] == "0" + s[..|s| - 1];
      ParseLeadingZero(s[..|s| - 1]);
    }
  }

  /** Decimal rendering of an integer with a leading `-` for negatives. */
  function IntToString(i: int): (s: string)
    ensures 1 <= |s|
    ensures i >= 0 ==> s == NatToString(i)
    ensures i < 0 ==> s == "-" + NatToString(-i)
  {
    if i < 0 then "-" + NatToString(-i) else NatToString(i)
  }

  /** Reads back an optionally negative decimal literal; `None` if `s` is not one. */
  function ParseSigned(s: string): (r: Option<int>)
  {
    if |s| >= 2 && s[0] == '-' && AllDigits(s[1..]) then Some(0 - ParseDigits(s[1..]))
    else if |s| >= 1 && AllDigits(s) then Some(ParseDigits(s))
    else None
  }

  lemma ParseIntToString(i: int)
    ensures ParseSigned(IntToString(i)) == Some(i)
  {
    ParseNatToString(if i < 0 then -i else i);
    if i < 0 {
      assert IntToString(i)[1..] == NatToString(-i);
    }
  }

  /** The two-digit padding `n < 10 ? '0' + n : '' + n` used for minutes and seconds. */
  function Pad2(n: nat): (s: string)
    ensures AllDigits(s)
    ensures n < 100 ==> |s| == 2
    ensures ParseDigits(s) == n
  {
    ParseNatToString(n);
    if n < 10 then
      ParseLeadingZero(NatToString(n));
      "0" + NatToString(n)
    else NatToString(n)
  }

  /** JavaScript `s.padStart(2, '0')`. */
  function PadStart2(s: string): (r: string)
    ensures |r| == if |s| >= 2 then |s| else 2
    ensures r[|r| - |s|..] == s
    ensures forall i :: 0 <= i < |r| - |s| ==> r[i] == '0'
  {
    if |s| >= 2 then s else if |s| == 1 then "0" + s else "00"
  }

  // ---------------------------------------------------------------------------
  // Split and join

  /** JavaScript `s.split(sep)` for a one-character separator: always at least one
      piece, and empty pieces are kept. Python's `str.split(sep)` agrees. */
  function Split(s: string, sep: char): (r: seq<string>)
    ensures |r| >= 1
    ensures forall k :: 0 <= k < |r| ==> sep !in r[k]
    decreases |s|
  {
    if |s| == 0 then [""]
    else if s[0] == sep then [""] + Split(s[1..], sep)
    else
      var rest := Split(s[1..], sep);
      [[s[0]] + rest[0]] + rest[1..]
  }

  /** `parts.join(sep)` / `sep.join(parts)`. */
  function Join(parts: seq<string>, sep: string): string
    decreases |parts|
  {
    if |parts| == 0 then ""
    else if |parts| == 1 then parts[0]
    else parts[0] + sep + Join(parts[1..], sep)
  }

  /** Splitting text free of the separator gives the text back as one piece. */
  lemma {:induction false} SplitNoSep(s: string, sep: char)
    requires sep !in s
    ensures Split(s, sep) == [s]
    decreases |s|
  {
    if |s| > 0 {
      SplitNoSep(s[1..], sep);
      assert [s[0]] + s[1..] == s;
    }
  }

  /** Splitting `a + sep + b` with `a` free of the separator peels `a` off. */
  lemma {:induction false} SplitCons(a: string, sep: char, b: string)
    requires sep !in a
    ensures Split(a + [sep] + b, sep) == [a] + Split(b, sep)
    decreases |a|
  {
    var s := a + [sep] + b;
    if |a| == 0 {
      assert s[1..] == b;
    } else {
      assert s[1..] == a[1..] + [sep] + b;
      SplitCons(a[1..], sep, b);
      assert [a[0]] + a[1..] == a;
    }
  }

  /** Joining separator-free pieces and splitting again gives the pieces back. */
  lemma {:induction false} SplitJoin(parts: seq<string>, sep: char)
    requires |parts| >= 1
    requires forall k :: 0 <= k < |parts| ==> sep !in parts[k]
    ensures Split(Join(parts, [sep]), sep) == parts
    decreases |parts|
  {
    if |parts| == 1 {
      SplitNoSep(parts[0], sep);
    } else {
      SplitJoin(parts[1..], sep);
      SplitCons(parts[0], sep, Join(parts[1..], [sep]));
      assert [parts[0]] + parts[1..] == parts;
    }
  }

  /** Joining the pieces of a split gives the original text back. */
  lemma {:induction false} JoinSplit(s: string, sep: char)
    ensures Join(Split(s, sep), [sep]) == s
    decreases |s|
  {
    if |s| > 0 {
      JoinSplit(s[1..], sep);
      var rest := Split(s[1..], sep);
      if s[0] == sep {
        assert Split(s, sep) == [""] + rest;
        assert ([""] + rest)[1..] == rest;
      } else {
        var r := Split(s, sep);
        assert r == [[s[0]] + rest[0]] + rest[1..];
        if |rest| == 1 {
          assert s == [s[0]] + s[1..];
        } else {
          assert r[1..] == rest[1..];
          assert Join(rest, [sep]) == rest[0] + [sep] + Join(rest[1..], [sep]);
          assert s == [s[0]] + s[1..];
        }
      }
    }
  }

  /** The last piece of a split is the longest suffix free of the separator; it is the
      whole text exactly when the split has one piece. */
  lemma {:induction false} SplitLast(s: string, sep: char)
    ensures LastPieceIsSuffix(s, sep)
    decreases |s|
  {
    if |s| > 0 {
      SplitLast(s[1..], sep);
      if s[0] == sep {
        SplitLastAfterSep(s, sep);
      } else {
        SplitLastAfterChar(s, sep);
      }
    }
  }

  /** The last piece of a split is the text after the last separator, and it is the
      whole text exactly when there is no separator. */
  ghost predicate LastPieceIsSuffix(s: string, sep: char)
  {
    var pieces := Split(s, sep);
    var last := pieces[|pieces| - 1];
    && |last| <= |s|
    && s[|s| - |last|..] == last
    && (|last| < |s| ==> s[|s| - |last| - 1] == sep)
    && (|pieces| == 1 <==> |last| == |s|)
  }

  lemma SplitLastAfterSep(s: string, sep: char)
    requires |s| > 0 && s[0] == sep && LastPieceIsSuffix(s[1..], sep)
    ensures LastPieceIsSuffix(s, sep)
  {
    var tail := s[1..];
    var rest := Split(tail, sep);
    var last := rest[|rest| - 1];
    var pieces := Split(s, sep);
    assert pieces == [""] + rest;
    assert pieces[|pieces| - 1] == last && |pieces| > 1;
    assert |last| <= |tail| < |s|;
    assert s[|s| - |last|..] == tail[|tail| - |last|..];
    if |last| < |tail| {
      assert s[|s| - |last| - 1] == tail[|tail| - |last| - 1];
    } else {
      assert s[|s| - |last| - 1] == s[0];
    }
  }

  lemma SplitLastAfterChar(s: string, sep: char)
    requires |s| > 0 && s[0] != sep && LastPieceIsSuffix(s[1..], sep)
    ensures LastPieceIsSuffix(s, sep)
  {
    var tail := s[1..];
    var rest := Split(tail, sep);
    var last := rest[|rest| - 1];
    var pieces := Split(s, sep);
    if |rest| == 1 {
      assert pieces == [[s[0]] + rest[0]];
      assert s == [s[0]] + tail;
    } else {
      assert pieces == [[s[0]] + rest[0]] + rest[1..];
      assert pieces[|pieces| - 1] == last;
      assert s[|s| - |last|..] == tail[|tail| - |last|..];
      assert s[|s| - |last| - 1] == tail[|tail| - |last| - 1];
    }
  }


  // ---------------------------------------------------------------------------
  // Whitespace and case

  /** The characters JavaScript's `trim` and `parseInt` treat as white space or line
      terminators. */
  predicate IsJsSpace(c: char)
  {
    c == ' ' || c == '\t' || c == '\n' || c == '\r' || c == '\U{000B}' || c == '\U{000C}'
    || c == '\U{00A0}' || c == '\U{1680}' || ('\U{2000}' <= c <= '\U{200A}')
    || c == '\U{2028}' || c == '\U{2029}' || c == '\U{202F}' || c == '\U{205F}'
    || c == '\U{3000}' || c == '\U{FEFF}'
  }

  function TrimStart(s: string): (r: string)
    ensures |r| <= |s| && r == s[|s| - |r|..]
    ensures |r| > 0 ==> !IsJsSpace(r[0])
    ensures forall i :: 0 <= i < |s| - |r| ==> IsJsSpace(s[i])
    decreases |s|
  {
    if |s| > 0 && IsJsSpace(s[0]) then TrimStart(s[1..]) else s
  }

  function TrimEnd(s: string): (r: string)
    ensures |r| <= |s| && r == s[..|r|]
    ensures |r| > 0 ==> !IsJsSpace(r[|r| - 1])
    ensures forall i :: |r| <= i < |s| ==> IsJsSpace(s[i])
    decreases |s|
  {
    if |s| > 0 && IsJsSpace(s[|s| - 1]) then TrimEnd(s[..|s| - 1]) else s
  }

  /** JavaScript `s.trim()`. */
  function Trim(s: string): (r: string)
    ensures |r| <= |s|
    ensures r == "" <==> forall i :: 0 <= i < |s| ==> IsJsSpace(s[i])
  {
    var t := TrimStart(s);
    assert t == "" ==> forall i :: 0 <= i < |s| ==> IsJsSpace(s[i]);
    TrimEnd(t)
  }

  /** ASCII lower-casing of one character. */
  function LowerChar(c: char): char
  {
    if 'A' <= c <= 'Z' then (c as int + 32) as char else c
  }

  /** `s.toLowerCase()` restricted to ASCII letters. */
  function Lower(s: string): (r: string)
    ensures |r| == |s|
    ensures forall i :: 0 <= i < |s| ==> r[i] == LowerChar(s[i])
  {
    seq(|s|, i requires 0 <= i < |s| => LowerChar(s[i]))
  }

  /** ASCII upper-casing of one character. */
  function UpperChar(c: char): char
  {
    if 'a' <= c <= 'z' then (c as int - 32) as char else c
  }

  /** Python `s.upper()` restricted to ASCII letters. */
  function Upper(s: string): (r: string)
    ensures |r| == |s|
    ensures forall i :: 0 <= i < |s| ==> r[i] == UpperChar(s[i])
  {
    seq(|s|, i requires 0 <= i < |s| => UpperChar(s[i]))
  }

  /** `name.split('.').pop().toLowerCase()`: the file extension as the upload and edit
      forms compute it. */
  function ExtensionOf(name: string): (r: string)
    ensures '.' !in r
    ensures |r| <= |name|
    ensures r == Lower(name[|name| - |r|..])
    ensures |r| < |name| ==> name[|name| - |r| - 1] == '.'
  {
    var pieces := Split(name, '.');
    SplitLast(name, '.');
    var last := pieces[|pieces| - 1];
    assert forall i :: 0 <= i < |last| ==> Lower(last)[i] != '.';
    Lower(last)
  }

  // ---------------------------------------------------------------------------
  // Integer parsers

  /** The longest prefix of `s` made of decimal digits. */
  function DigitPrefix(s: string): (r: string)
    ensures AllDigits(r) && |r| <= |s| && r == s[..|r|]
    ensures |r| < |s| ==> !IsDigit(s[|r|])
    decreases |s|
  {
    if |s| > 0 && IsDigit(s[0]) then [s[0]] + DigitPrefix(s[1..]) else ""
  }

  /** The text `parseInt` reads digits from: leading white space and one sign skipped. */
  function JsDigitsStart(s: string): (body: string)
    ensures |body| <= |s| && body == s[|s| - |body|..]
  {
    var t := TrimStart(s);
    assert |t| <= |s| && t == s[|s| - |t|..];
    if |t| == 0 then t
    else if t[0] == '-' || t[0] == '+' then SuffixTail(s, t); t[1..] else t
  }

  /** Dropping the first character of a suffix leaves a suffix. */
  lemma SuffixTail(s: string, t: string)
    requires 0 < |t| <= |s| && t == s[|s| - |t|..]
    ensures t[1..] == s[|s| - |t[1..]|..]
  {
  }

  /** Whether `parseInt` reads a `-` sign in front of the digits. */
  predicate JsNegative(s: string)
  {
    var t := TrimStart(s);
    |t| > 0 && t[0] == '-'
  }

  /** JavaScript `parseInt(s)` for decimal input: leading white space and one sign are
      skipped, then the longest run of digits is read; no digits gives `NaN`. */
  function JsParseInt(s: string): (r: ParsedInt)
    ensures r.Int? ==> exists k :: 0 <= k < |s| && IsDigit(s[k])
    ensures (|s| > 0 && IsDigit(s[0])) ==> r.Int? && r.value >= 0
  {
    var body := JsDigitsStart(s);
    var digits := DigitPrefix(body);
    if |digits| == 0 then NaN
    else
      assert IsDigit(s[|s| - |body|]);
      Int(if JsNegative(s) then 0 - ParseDigits(digits) else ParseDigits(digits))
  }

  /** `parseInt` reads back every integer `String` prints, whatever non-digit text
      follows it. */
  lemma JsParseIntOfIntToString(i: int, rest: string)
    requires |rest| == 0 || !IsDigit(rest[0])
    ensures JsParseInt(IntToString(i) + rest) == Int(i)
  {
    var n: nat := if i < 0 then -i else i;
    var digits := NatToString(n);
    ParseNatToString(n);
    if i < 0 {
      assert IntToString(i) == "-" + digits;
      assert IntToString(i) + rest == ['-'] + (digits + rest);
      JsParseIntSignedDigits('-', digits, rest);
    } else {
      assert IntToString(i) == digits;
      JsParseIntDigits(digits, rest);
    }
  }

  lemma JsParseIntDigits(digits: string, rest: string)
    requires AllDigits(digits) && |digits| > 0
    requires |rest| == 0 || !IsDigit(rest[0])
    ensures JsParseInt(digits + rest) == Int(ParseDigits(digits))
  {
    var s := digits + rest;
    assert s[0] == digits[0];
    DigitPrefixThen(digits, rest);
    JsParseIntLeadingDigit(s, digits);
  }

  lemma JsParseIntLeadingDigit(s: string, digits: string)
    requires |s| > 0 && IsDigit(s[0]) && DigitPrefix(s) == digits
    ensures JsParseInt(s) == Int(ParseDigits(digits))
  {
    DigitNotSpace(s[0]);
    JsDigitsStartOfDigit(s);
  }

  lemma JsDigitsStartOfDigit(s: string)
    requires |s| > 0 && IsDigit(s[0])
    ensures JsDigitsStart(s) == s
  {
    DigitNotSpace(s[0]);
  }

  lemma DigitNotSpace(c: char)
    requires IsDigit(c)
    ensures !IsJsSpace(c)
  {
  }

  lemma JsParseIntSignedDigits(sign: char, digits: string, rest: string)
    requires sign == '-' || sign == '+'
    requires AllDigits(digits) && |digits| > 0
    requires |rest| == 0 || !IsDigit(rest[0])
    ensures JsParseInt([sign] + (digits + rest))
            == Int(if sign == '-' then 0 - ParseDigits(digits) else ParseDigits(digits))
  {
    var s := [sign] + (digits + rest);
    DigitPrefixThen(digits, rest);
    assert s[1..] == digits + rest;
    JsParseIntSignedPrefix(s, digits);
  }

  lemma JsParseIntSignedPrefix(s: string, digits: string)
    requires |s| > 0 && (s[0] == '-' || s[0] == '+')
    requires DigitPrefix(s[1..]) == digits && |digits| > 0
    ensures JsParseInt(s)
            == Int(if s[0] == '-' then 0 - ParseDigits(digits) else ParseDigits(digits))
  {
    JsSignedStart(s);
  }

  lemma JsSignedStart(s: string)
    requires |s| > 0 && (s[0] == '-' || s[0] == '+')
    ensures JsDigitsStart(s) == s[1..]
    ensures JsNegative(s) <==> s[0] == '-'
  {
    assert !IsJsSpace(s[0]);
    assert TrimStart(s) == s;
  }

  /** The digit run of `s + rest` is `s` when `rest` does not start with a digit. */
  lemma {:induction false} DigitPrefixThen(s: string, rest: string)
    requires AllDigits(s)
    requires |rest| == 0 || !IsDigit(rest[0])
    ensures DigitPrefix(s + rest) == s
    decreases |s|
  {
    if |s| > 0 {
      assert (s + rest)[1..] == s[1..] + rest;
      DigitPrefixThen(s[1..], rest);
    } else {
      assert s + rest == rest;
    }
  }

  /** The characters Python's `int()` strips around its argument. */
  predicate IsPySpace(c: char)
  {
    c == ' ' || ('\t' <= c <= '\r') || ('\U{001C}' <= c <= '\U{001F}') || c == '\U{0085}'
    || c == '\U{00A0}' || c == '\U{1680}' || ('\U{2000}' <= c <= '\U{200A}')
    || c == '\U{2028}' || c == '\U{2029}' || c == '\U{202F}' || c == '\U{205F}'
    || c == '\U{3000}'
  }

  function PyStrip(s: string): (r: string)
    ensures |r| <= |s|
    ensures |r| > 0 ==> !IsPySpace(r[0]) && !IsPySpace(r[|r| - 1])
    decreases |s|
  {
    if |s| > 0 && IsPySpace(s[0]) then PyStrip(s[1..])
    else if |s| > 0 && IsPySpace(s[|s| - 1]) then PyStrip(s[..|s| - 1])
    else s
  }

  /** Python `int(s)` on a string: surrounding white space, one optional sign and at
      least one decimal digit, nothing else; `None` where Python raises `ValueError`. */
  function PyParseInt(s: string): (r: Option<int>)
    ensures AllDigits(s) && |s| > 0 ==> r == Some(ParseDigits(s))
  {
    var t := PyStrip(s);
    if |t| >= 2 && (t[0] == '-' || t[0] == '+') && AllDigits(t[1..]) then
      Some(if t[0] == '-' then 0 - ParseDigits(t[1..]) else ParseDigits(t[1..]))
    else if |t| >= 1 && AllDigits(t) then Some(ParseDigits(t))
    else None
  }

  // ---------------------------------------------------------------------------
  // Comma-separated id lists

  /** Each id printed in decimal, as `String(id)` and `str(id)` print it. */
  function PrintedIds(ids: seq<int>): (printed: seq<string>)
    ensures |printed| == |ids|
    ensures forall k :: 0 <= k < |ids| ==> printed[k] == IntToString(ids[k])
  {
    seq(|ids|, k requires 0 <= k < |ids| => IntToString(ids[k]))
  }

  lemma NoCommaInIntToString(i: int)
    ensures ',' !in IntToString(i)
  {
    var s := NatToString(if i < 0 then -i else i);
    assert forall j :: 0 <= j < |s| ==> s[j] != ',';
    if i < 0 {
      assert IntToString(i) == "-" + s;
    }
  }

  /** A comma-joined list of printed ids splits back into the printed ids. */
  lemma SplitPrintedIds(ids: seq<int>)
    requires |ids| > 0
    ensures Split(Join(PrintedIds(ids), ","), ',') == PrintedIds(ids)
  {
    var printed := PrintedIds(ids);
    forall k | 0 <= k < |printed|
      ensures ',' !in printed[k]
    {
      NoCommaInIntToString(ids[k]);
    }
    SplitJoin(printed, ',');
    assert [','] == ",";
  }
}

=== FILE: upload_album.dfy ===
/** The album upload form's track-list editor and its submit validation. The list
    is the in-memory `albumSongs` array; options, files and field values are inputs. */
module UploadAlbum {
  import opened Wrappers
  import opened Text
  import opened Numbers
  import opened JsArray
  import opened Forms
  import AlbumPage

  /** One track of the album being built. */
  datatype AlbumSong = AlbumSong(songId: int, title: string)

  /** An `<option>` of the song picker: its `value` attribute and its text. */
  datatype SongOption = SongOption(value: string, text: string)

  /** No song is in the list twice. */
  ghost predicate UniqueSongs(list: seq<AlbumSong>)
  {
    forall i, j :: 0 <= i < j < |list| ==> list[i].songId != list[j].songId
  }

  predicate Contains(list: seq<AlbumSong>, id: int)
  {
    exists k :: 0 <= k < |list| && list[k].songId == id
  }

  /** `querySelector('option[value="…"]')`: the first option with that value. */
  function FindOption(options: seq<SongOption>, value: string): (r: Option<SongOption>)
    ensures r.Some? ==> r.value in options && r.value.value == value
    ensures r.None? ==> forall k :: 0 <= k < |options| ==> options[k].value != value
    decreases |options|
  {
    if |options| == 0 then None
    else if options[0].value == value then Some(options[0])
    else FindOption(options[1..], value)
  }

  /** What a click on the add button did. */
  datatype AddOutcome = Ignored | Duplicate | Added

  /** The add button's handler: the picker's value is read with `parseInt`; `NaN`
      and 0 are ignored, as is an id with no option printed the same way; an id
      already in the list raises the duplicate alert; otherwise the song is appended
      with the option's text as its title. */
  function AddSong(list: seq<AlbumSong>, options: seq<SongOption>, selected: string): (r: (seq<AlbumSong>, AddOutcome))
    ensures r.1 != Added ==> r.0 == list
    ensures JsParseInt(selected).NaN? || JsParseInt(selected) == Int(0) ==> r.1 == Ignored
    ensures r.1 == Added <==>
              && JsParseInt(selected).Int? && JsParseInt(selected).value != 0
              && FindOption(options, IntToString(JsParseInt(selected).value)).Some?
              && !Contains(list, JsParseInt(selected).value)
    ensures r.1 == Duplicate ==> Contains(list, JsParseInt(selected).value)
    ensures r.1 == Added ==>
              var id := JsParseInt(selected).value;
              r.0 == list + [AlbumSong(id, FindOption(options, IntToString(id)).value.text)]
  {
    match JsParseInt(selected)
    case NaN => (list, Ignored)
    case Int(id) =>
      if id == 0 then (list, Ignored)
      else
        match FindOption(options, IntToString(id))
        case None => (list, Ignored)
        case Some(option) =>
          if Contains(list, id) then (list, Duplicate)
          else (list + [AlbumSong(id, option.text)], Added)
  }

  /** Adding never creates a duplicate. */
  lemma AddKeepsSongsUnique(list: seq<AlbumSong>, options: seq<SongOption>, selected: string)
    requires UniqueSongs(list)
    ensures UniqueSongs(AddSong(list, options, selected).0)
  {
  }

  /** A song of the list stays in it after any add. */
  lemma AddKeepsSongs(list: seq<AlbumSong>, options: seq<SongOption>, selected: string, id: int)
    requires Contains(list, id)
    ensures Contains(AddSong(list, options, selected).0, id)
  {
    var r := AddSong(list, options, selected).0;
    var k :| 0 <= k < |list| && list[k].songId == id;
    assert r[k] == list[k];
  }

  /** The remove button of row `index`: `albumSongs.splice(index, 1)`. */
  function RemoveSong(list: seq<AlbumSong>, index: int): (r: seq<AlbumSong>)
    ensures 0 <= index < |list| ==>
              |r| == |list| - 1 && r[..index] == list[..index] && r[index..] == list[index + 1..]
    ensures 0 <= index < |list| ==> multiset(r) + multiset{list[index]} == multiset(list)
  {
    if 0 <= index < |list| then
      RemoveAtMultiset(list, index);
      RemoveAt(list, index)
    else RemoveAt(list, index)
  }

  /** Removing keeps the remaining songs unique and drops the removed song. */
  lemma RemoveKeepsSongsUnique(list: seq<AlbumSong>, index: int)
    requires UniqueSongs(list) && 0 <= index < |list|
    ensures UniqueSongs(RemoveSong(list, index))
    ensures !Contains(RemoveSong(list, index), list[index].songId)
  {
    var r := RemoveSong(list, index);
    assert forall k :: 0 <= k < |r| ==> r[k] == (if k < index then list[k] else list[k + 1]);
  }

  /** Moving the song at `from` to position `to`: `splice(from, 1)` then
      `splice(to, 0, removed)`. */
  function Move(list: seq<AlbumSong>, from: int, to: int): (r: seq<AlbumSong>)
    requires 0 <= from < |list| && 0 <= to < |list|
    ensures |r| == |list|
    ensures r[to] == list[from]
    ensures RemoveAt(r, to) == RemoveAt(list, from)
  {
    var rest := RemoveAt(list, from);
    var r := InsertAt(rest, to, list[from]);
    RemoveAfterInsert(rest, to, list[from]);
    r
  }

  /** `handleDrop`: `from` and `target` are the `data-index` attributes of the dragged
      row and of the row it is dropped on, if any; dropping on nothing or on the
      dragged row itself does nothing. */
  function HandleDrop(list: seq<AlbumSong>, from: int, target: Option<int>): (r: seq<AlbumSong>)
    requires 0 <= from < |list|
    requires target.Some? ==> 0 <= target.value < |list|
    ensures target.None? || target.value == from ==> r == list
    ensures target.Some? && target.value != from ==> r == Move(list, from, target.value)
  {
    match target
    case None => list
    case Some(to) => if to == from then list else Move(list, from, to)
  }

  /** A move is a permutation. */
  lemma MovePermutes(list: seq<AlbumSong>, from: int, to: int)
    requires 0 <= from < |list| && 0 <= to < |list|
    ensures multiset(Move(list, from, to)) == multiset(list)
  {
    var r := Move(list, from, to);
    RemoveAtMultiset(list, from);
    RemoveAtMultiset(r, to);
  }

  /** Dragging the moved song back to where it came from undoes the move. */
  lemma MoveBack(list: seq<AlbumSong>, from: int, to: int)
    requires 0 <= from < |list| && 0 <= to < |list|
    ensures Move(Move(list, from, to), to, from) == list
  {
    var r := Move(list, from, to);
    InsertAfterRemove(list, from);
  }

  /** Reordering keeps the songs unique. */
  lemma MoveKeepsSongsUnique(list: seq<AlbumSong>, from: int, to: int)
    requires UniqueSongs(list) && 0 <= from < |list| && 0 <= to < |list|
    ensures UniqueSongs(Move(list, from, to))
  {
    RemoveKeepsSongsUnique(list, from);
    InsertKeepsSongsUnique(RemoveAt(list, from), to, list[from]);
  }

  /** Inserting a song whose id is not in a unique list keeps it unique. */
  lemma InsertKeepsSongsUnique(list: seq<AlbumSong>, index: int, song: AlbumSong)
    requires UniqueSongs(list) && !Contains(list, song.songId) && 0 <= index <= |list|
    ensures UniqueSongs(InsertAt(list, index, song))
  {
    var r := InsertAt(list, index, song);
    assert forall k :: 0 <= k < |r| ==>
             r[k] == (if k < index then list[k] else if k == index then song else list[k - 1]);
  }

  // ---------------------------------------------------------------------------
  // Submit

  /** The JSON body sent to `/album/upload`. */
  datatype AlbumPayload = AlbumPayload(
    title: string,
    price: JsNumber,
    description: Option<string>,
    releaseDate: Option<string>,
    coverFile: string,
    coverExtension: string,
    songs: seq<int>)

  /** The raw form fields; `price` is the `parseFloat` of the price field. */
  datatype AlbumForm = AlbumForm(title: string, price: JsNumber, description: string, releaseDate: string)

  datatype SubmitResult = MissingCover | NoSongs | Send(payload: AlbumPayload)

  function SongIds(list: seq<AlbumSong>): (ids: seq<int>)
    ensures |ids| == |list|
    ensures forall k :: 0 <= k < |list| ==> ids[k] == list[k].songId
  {
    seq(|list|, k requires 0 <= k < |list| => list[k].songId)
  }

  /** The submit handler up to the request: the cover is checked first, then that
      the list is not empty; the payload lists the song ids in the list's order. */
  function Submit(cover: Option<File>, list: seq<AlbumSong>, form: AlbumForm): (r: SubmitResult)
    ensures cover.None? <==> r == MissingCover
    ensures cover.Some? && |list| == 0 <==> r == NoSongs
    ensures r.Send? ==>
              && r.payload.songs == SongIds(list)
              && r.payload.coverFile == cover.value.base64
              && r.payload.coverExtension == ExtensionOf(cover.value.name)
              && r.payload.title == Trim(form.title)
              && r.payload.price == form.price
              && r.payload.description == TrimOrNull(form.description)
              && r.payload.releaseDate == EmptyOrNull(form.releaseDate)
  {
    if cover.None? then MissingCover
    else if |list| == 0 then NoSongs
    else Send(AlbumPayload(Trim(form.title), form.price, TrimOrNull(form.description),
                           EmptyOrNull(form.releaseDate), cover.value.base64, ExtensionOf(cover.value.name),
                           SongIds(list)))
  }

  /** A list kept unique by the editor is sent without repeated ids. */
  lemma SubmittedSongsDistinct(cover: Option<File>, list: seq<AlbumSong>, form: AlbumForm)
    requires UniqueSongs(list)
    ensures Submit(cover, list, form).Send? ==>
              forall i, j :: 0 <= i < j < |list| ==>
                Submit(cover, list, form).payload.songs[i] != Submit(cover, list, form).payload.songs[j]
  {
  }

  /** The reply of `/album/upload`: the album page of the new album on success. */
  function FinishUpload(reply: UploadReply): (o: UploadOutcome)
    ensures o.Uploaded? <==> reply.success
    ensures o.Uploaded? && TruthyId(reply.newId) ==> o.url == "/album/" + IntToString(reply.newId.value)
    ensures o.Uploaded? && !TruthyId(reply.newId) ==> o.url == "/artist/studio"
    ensures o.Uploaded? ==> o.message == MessageOr(reply.message, "Álbum creado exitosamente!")
    ensures o.UploadFailed? ==> o.message == MessageOr(reply.message, "No se pudo crear el álbum.")
  {
    AfterUpload("/album/", reply, "Álbum creado exitosamente!", "No se pudo crear el álbum.")
  }

  /** The page a successful upload moves to is the new album's page: the album page
      reads the new album's id back from it. */
  lemma FinishUploadLandsOnAlbum(reply: UploadReply)
    requires reply.success && reply.newId.Some? && reply.newId.value > 0
    ensures AlbumPage.AlbumIdFromUrl(FinishUpload(reply).url) == IntToString(reply.newId.value)
  {
    AlbumPage.UploadRedirectLandsOnAlbum(reply.newId.value);
  }
}

=== FILE: upload_song.dfy ===
/** The song upload form: its checks in order (audio, cover, at least one genre), the
    JSON body it sends to `/song/upload`, and where a successful upload leads. */
module UploadSong {
  import opened Wrappers
  import opened Text
  import opened Numbers
  import opened Forms

  /** The form's fields as the handler reads them; `price` is the `parseFloat` of
      the price field, the value lists are the selected options' `value`s. */
  datatype SongForm = SongForm(
    title: string,
    price: JsNumber,
    description: string,
    releaseDate: string,
    albumField: string,
    genreValues: seq<string>,
    collaboratorValues: seq<string>)

  /** The JSON body; `albumId` is `None` for `null`, and `Some(NaN)` for a field
      `parseInt` cannot read (sent as `null` too, by `JSON.stringify`). */
  datatype SongPayload = SongPayload(
    title: string,
    price: JsNumber,
    description: Option<string>,
    releaseDate: Option<string>,
    albumId: Option<ParsedInt>,
    genres: seq<int>,
    collaborators: seq<int>,
    audioFile: string,
    coverFile: string,
    coverExtension: string)

  datatype SubmitResult = NoAudio | NoCover | NoGenres | Send(payload: SongPayload)

  /** `albumId.value ? parseInt(albumId.value) : null`. */
  function AlbumIdField(field: string): (id: Option<ParsedInt>)
    ensures field == "" <==> id.None?
    ensures id.Some? ==> id.value == JsParseInt(field)
  {
    if field == "" then None else Some(JsParseInt(field))
  }

  /** An album picker whose option values print album ids sends those ids. */
  lemma AlbumIdOfPrinted(albumId: int)
    ensures AlbumIdField(IntToString(albumId)) == Some(Int(albumId))
  {
    JsParseIntOfIntToString(albumId, "");
    assert IntToString(albumId) + "" == IntToString(albumId);
  }

  /** The submit handler up to the request: audio first, then the cover, then at
      least one genre that `parseInt` can read. */
  function Submit(audio: Option<File>, cover: Option<File>, form: SongForm): (r: SubmitResult)
    ensures audio.None? <==> r == NoAudio
    ensures audio.Some? && cover.None? <==> r == NoCover
    ensures r == NoGenres <==>
              audio.Some? && cover.Some? && forall k :: 0 <= k < |form.genreValues| ==> JsParseInt(form.genreValues[k]).NaN?
    ensures r.Send? ==>
              && |r.payload.genres| > 0
              && r.payload.genres == ParseIds(form.genreValues)
              && r.payload.collaborators == ParseIds(form.collaboratorValues)
              && r.payload.albumId == AlbumIdField(form.albumField)
              && r.payload.audioFile == audio.value.base64
              && r.payload.coverFile == cover.value.base64
              && r.payload.coverExtension == ExtensionOf(cover.value.name)
              && r.payload.title == Trim(form.title)
              && r.payload.price == form.price
              && r.payload.description == TrimOrNull(form.description)
              && r.payload.releaseDate == EmptyOrNull(form.releaseDate)
  {
    if audio.None? then NoAudio
    else if cover.None? then NoCover
    else
      var genres := ParseIds(form.genreValues);
      if |genres| == 0 then NoGenres
      else Send(SongPayload(Trim(form.title), form.price, TrimOrNull(form.description),
                            EmptyOrNull(form.releaseDate), AlbumIdField(form.albumField), genres,
                            ParseIds(form.collaboratorValues), audio.value.base64, cover.value.base64,
                            ExtensionOf(cover.value.name)))
  }

  /** With both files chosen and genre options printed from ids, the upload goes out
      with exactly the chosen genres, in order. */
  lemma SubmitSendsChosenGenres(audio: File, cover: File, form: SongForm, genres: seq<int>)
    requires |genres| > 0
    requires form.genreValues == seq(|genres|, k requires 0 <= k < |genres| => IntToString(genres[k]))
    ensures Submit(Some(audio), Some(cover), form).Send?
    ensures Submit(Some(audio), Some(cover), form).payload.genres == genres
  {
    ParseIdsOfPrinted(genres);
    assert ParseIds(form.genreValues) == genres;
    var r := Submit(Some(audio), Some(cover), form);
    assert r != NoAudio && r != NoCover && r != NoGenres;
  }

  /** The reply of `/song/upload`: the new song's page on success. */
  function FinishUpload(reply: UploadReply): (o: UploadOutcome)
    ensures o.Uploaded? <==> reply.success
    ensures o.Uploaded? && TruthyId(reply.newId) ==> o.url == "/song/" + IntToString(reply.newId.value)
    ensures o.Uploaded? && !TruthyId(reply.newId) ==> o.url == "/artist/studio"
    ensures o.Uploaded? ==> o.message == MessageOr(reply.message, "Canción subida exitosamente!")
    ensures o.UploadFailed? ==> o.message == MessageOr(reply.message, "No se pudo subir la canción.")
  {
    AfterUpload("/song/", reply, "Canción subida exitosamente!", "No se pudo subir la canción.")
  }

  const SongPath := "/song/"

  /** The page a successful upload moves to names the new song: `parseInt` of the
      path after `/song/` gives back its id. */
  lemma FinishUploadLandsOnSong(reply: UploadReply)
    requires reply.success && TruthyId(reply.newId)
    ensures var url := FinishUpload(reply).url;
            |url| > |SongPath| && url[..|SongPath|] == SongPath
            && JsParseInt(url[|SongPath|..]) == Int(reply.newId.value)
  {
    var url := FinishUpload(reply).url;
    assert url == SongPath + IntToString(reply.newId.value);
    assert url[|SongPath|..] == IntToString(reply.newId.value) + "";
    JsParseIntOfIntToString(reply.newId.value, "");
  }
}

=== FILE: wrappers.dfy ===
/** The optional-value wrapper used across the model for JavaScript `null`/`undefined`
    and Python `None`. */
module Wrappers {

  datatype Option<+T> = None | Some(value: T) {

    /** The wrapped value, or `default` when there is none. */
    function GetOr(default: T): T
    {
      match this
      case Some(v) => v
      case None => default
    }
  }
}
